=== FILE: README.md ===
# Pet-shop cash register and inventory — a Dafny model

This project models the core of a pet-shop point-of-sale and inventory back
office. On the server it covers:

- the Express/Prisma handlers that sell and cancel sales;
- registering, confirming and cancelling purchases from suppliers;
- creating, updating and adjusting products;
- manual stock movements and the inventory reports;
- customers, their debt balances and their ranking;
- suppliers with their statistics and ranking;
- categories, one table shared by products and the finance ledger;
- the personal-finance ledger with its cached balance.

In the browser it covers the point-of-sale cart and checkout, and the
product list's stock badge and filters.

Every handler is modelled as a pure function from a store to a `Result` of
a new store. The store holds maps for the tables and an append-only
sequence of stock movements. Money and quantities are `real`. Fresh
database ids are the next number after the largest id in use.

The modules follow the program's structure:

| module | models |
|---|---|
| `Base` | options, results, the JavaScript truthiness of strings and numbers, sums, fresh ids |
| `Text` | ASCII upper and lower case, substring search |
| `Entities` | the table rows and the store; one category table serves products and finance |
| `Ledger` | stock movements and the invariant "stock = net of the ledger" (`Reconciled`) |
| `SaleNumbers` | the six-digit sale number |
| `Sales` | `createVenda`, `cancelarVenda` |
| `Purchases` | `createCompra`, `confirmarCompra`, `cancelarCompra` |
| `Products` | margin, `createProduto`, `updateProduto`, `ajustarEstoque`, the low-stock list |
| `JsObject` | what a plain JavaScript object inherits and the order it lists its keys in |
| `StockControl` | `createMovimentacao`, the stock value and the grouped inventory report |
| `Registry` | uniqueness of a key column (category name, CPF, CNPJ, barcode), and the stricter unique index of the barcode column |
| `Ranking` | the "positive totals, descending, first ten" ranking |
| `Aggregates` | database `_sum` and `_count` over a table |
| `Customers` | customer registration, update, debt adjustment, debt total, top customers |
| `Suppliers` | supplier registration, update, statistics, top suppliers, suppliers per category |
| `Categories` | category create, get, update, delete |
| `Finance` | personal-finance transactions and the `SaldoService` balance |
| `Catalog` | the product list as the pages hold it, filtering and search |
| `PointOfSale` | the point-of-sale cart and checkout |
| `ProductList` | the product page's stock badge and filters |

## Model

| member | source | states |
|---|---|---|
| SaleNumbers.SaleLabelRoundTrip | backend/controllers/vendaController.js:116-123 | the zero-padded label of n is all digits and parses back to n |
| SaleNumbers.SaleLabelWidth | backend/controllers/vendaController.js:120-123 | a label has at least six characters, and exactly six iff the number is below 1 000 000 |
| SaleNumbers.SaleLabelInjective | backend/controllers/vendaController.js:120-123 | two different numbers never get the same label |
| SaleNumbers.FirstSaleLabel | backend/controllers/vendaController.js:120-123 | the label of 1 is "000001", the label used when there is no sale yet |
| Sales.NextSaleLabel | backend/controllers/vendaController.js:116-123 | the next label is "000001" for an empty table and otherwise parses to more than every existing sale number |
| Sales.ValidateItems | backend/controllers/vendaController.js:125-169 | lines pass iff every product exists, is active and covers the line's quantity; the first failing line decides the error (not found, inactive, or insufficient stock carrying the available amount); passing lines are priced at the given unit price or the product's sale price |
| Sales.CreateSale | backend/controllers/vendaController.js:91-257 | accepted iff there are items, a payment type, every line passes and the customer, if named, exists; an unknown customer with otherwise valid lines fails the foreign key inside the `$transaction` (lines 174-196), and the catch answers 500 (line 250); the new sale is completed, numbered above every existing number, with total = Σ line totals and final = total − discount; each product's stock falls by its lines' total quantity, one SAIDA/VENDA movement is appended per line, other tables are unchanged, and a reconciled store stays reconciled |
| Sales.CreateSaleInto | backend/controllers/vendaController.js:174-196 | against an integer `numero_venda` column every sale fails, an otherwise accepted one with 500, because the handler sends a string; against a text column it is `Sales.CreateSale` |
| Sales.CancelNotes | backend/controllers/vendaController.js:294-301 | the cancelled sale's notes are the old notes, if any, followed by "CANCELADA: " and the reason or "Sem motivo informado" |
| Sales.CancelSale | backend/controllers/vendaController.js:262-341 | unknown sale → not found; an already cancelled sale → rejected with no change; a line whose product row is gone → the product update throws inside the handler's `try`, the transaction rolls back and the catch answers 500 (304-311, 334-339); otherwise the sale is cancelled, every line goes back into stock with one ENTRADA/DEVOLUCAO movement each, and the ledger stays reconciled |
| Sales.CancelTwiceRejected | backend/controllers/vendaController.js:284-289 | a second cancellation of the same sale is rejected, so stock is restored once |
| Sales.CreateThenCancelRestoresProducts | backend/controllers/vendaController.js:303-313 | cancelling a sale just created succeeds, and its increments undo the decrements of lines 199-206, giving back exactly the product table from before the sale |
| Sales.DistinctLinesKeepStockNonNegative | backend/controllers/vendaController.js:149-155 | when the lines name distinct products, a sale keeps non-negative stock non-negative |
| Sales.DuplicateLinesOversell | backend/controllers/vendaController.js:149-155 | two one-unit lines for a product with one unit in stock are both accepted and leave stock −1 |
| Sales.DiscountCanMakeFinalNegative | backend/controllers/vendaController.js:169-171 | a discount above the total is accepted and gives a negative final amount |
| Sales.OverStockRefused | backend/controllers/vendaController.js:149-155 | a single line above the stock is refused with the available quantity |
| Sales.SellOut | backend/controllers/vendaController.js:199-206 | selling the whole stock in one line leaves exactly zero and changes nothing else about the product |
| Sales.SellOutThenRefuse | backend/controllers/vendaController.js:149-155 | after selling out, any further sale of the product is refused with zero available |
| Ledger.ApplyMovements | backend/controllers/vendaController.js:199-206 | applying movements keeps the product ids and moves each stock by the movements' net for that product |
| Ledger.EmitNet | backend/controllers/vendaController.js:208-217 | the movements written for a batch of lines record, per product, exactly the lines' total quantity with the batch's sign |
| Ledger.Post | backend/controllers/compraController.js:245-277 | posting a batch moves every product by its lines' total quantity, appends one movement per line in order, touches no other table and keeps the ledger reconciled |
| Ledger.PostOne | backend/controllers/estoqueController.js:141-160 | posting one movement moves its product's stock by the signed quantity, appends exactly that movement and keeps the ledger reconciled |
| Ledger.TakeThenReturn | backend/controllers/vendaController.js:305-313 | taking a batch out of stock and putting the same batch back restores the product table |
| Purchases.ValidateItems | backend/controllers/compraController.js:132-158 | lines pass iff each has product, quantity and unit price and its product exists; passing lines get subtotal = quantity × unit price |
| Purchases.CreatePurchase | backend/controllers/compraController.js:98-219 | no supplier or no items → required; unknown supplier → not found; otherwise a PENDENTE purchase numbered one past the largest number (1 for the first) with total = Σ subtotals, and no stock or ledger change |
| Purchases.LastPrice | backend/controllers/compraController.js:254-264 | the unit price of the last line naming the product, or none when no line does |
| Purchases.Recost | backend/controllers/compraController.js:254-264 | each product's cost becomes the price of its last line in the purchase; products not in it keep their cost |
| Purchases.ConfirmPurchase | backend/controllers/compraController.js:224-298 | unknown → not found; not PENDENTE → rejected with no change; a line whose product row is gone → the product update throws and the transaction rolls back (server error, answered as the Left out line on this handler says); otherwise CONCLUIDA, stock raised by each line's quantity with one ENTRADA/COMPRA movement per line, costs from the last line per product, ledger kept reconciled |
| Purchases.CancelNotes | backend/controllers/compraController.js:336 | with a reason the notes gain "\nCancelada: reason"; without one they are unchanged |
| Purchases.CancelPurchase | backend/controllers/compraController.js:303-352 | unknown → not found; CONCLUIDA or CANCELADA → rejected; otherwise CANCELADA with stock and ledger untouched |
| Purchases.ConfirmedIsTerminal | backend/controllers/compraController.js:318-330 | a confirmed purchase can be neither confirmed again (the check at lines 240-242) nor cancelled |
| Purchases.CancelledIsTerminal | backend/controllers/compraController.js:318-330 | a cancelled purchase can be neither confirmed (the check at lines 240-242) nor cancelled again |
| Purchases.CreateThenConfirm | backend/controllers/compraController.js:245-277 | a purchase just created (lines 146-171) has every line complete and can be confirmed, and confirming raises each product's stock by its requested quantity |
| Purchases.ConfirmSetsCost | backend/controllers/compraController.js:254-264 | a product bought on exactly one line costs that line's price after confirmation |
| Products.Margin | backend/controllers/produtoController.js:31-37 | with a positive cost, margin × cost = (sale − cost) × 100, positive iff sale > cost; otherwise 0 |
| Products.InitialMovements | backend/controllers/produtoController.js:195-205 | one ENTRADA/ESTOQUE_INICIAL movement of the initial quantity when it is positive, none otherwise |
| Products.CreateProduct | backend/controllers/produtoController.js:98-222 | missing name, category, unit or price → required; price ≤ 0 → invalid; an id that is no row of the category table → not found (a finance category's id is accepted); a non-empty barcode in use → duplicate; an empty barcode that another product holds, which the `if (codigo_barras)` check (line 155) lets through, is refused by the unique column that `findUnique` (lines 156-158) relies on → 500; a barcode already held is never stored; otherwise the product is stored with its initial stock and movement, and barcodes stay unique, the empty one included |
| Products.CreateProductReconciled | backend/controllers/produtoController.js:180-205 | a reconciled store stays reconciled exactly when the initial stock is not negative |
| Products.MergeLaws | backend/controllers/produtoController.js:269-323 | an empty patch changes nothing and sending a patch twice equals sending it once |
| Products.MergePriceOnly | backend/controllers/produtoController.js:315-323 | sending only a sale price recomputes the margin against the stored cost |
| Products.UpdateProduct | backend/controllers/produtoController.js:227-345 | unknown → not found; accepted iff the sent fields pass the handler's checks and the unique barcode column accepts the sent barcode (an empty one another product holds → 500); a barcode another product holds is never stored; writes only the sent fields of that product; barcodes stay unique, the empty one included |
| Products.UpdateRejectsTakenBarcode | backend/controllers/produtoController.js:256-267 | changing to another product's barcode is refused |
| Products.UpdateStockBreaksReconciled | backend/controllers/produtoController.js:313 | writing a different stock through the update leaves the stock out of line with the ledger |
| Products.AdjustStock | backend/controllers/produtoController.js:350-409 | missing or zero quantity, or no reason → required; unknown → not found; otherwise stock is set to the quantity, exactly one movement of \|new − old\| is written (ENTRADA iff new > old), the response carries old, new and new − old, and the ledger stays reconciled |
| Products.ZeroDeltaWritesSaidaZero | backend/controllers/produtoController.js:382-391 | setting the stock to its current value writes a SAIDA of quantity 0 |
| Products.AdjustToZeroRejected | backend/controllers/produtoController.js:354-359 | a target quantity of 0 is refused as missing |
| Products.QueryLowStock | backend/controllers/produtoController.js:416-431 | the query keeps active products at or below the minimum or at zero |
| Products.KeepBelowMinimum | backend/controllers/produtoController.js:433-436 | the in-memory filter keeps products at or below the minimum |
| Products.LowStockIsActiveBelowMinimum | backend/controllers/produtoController.js:414-436 | query then filter equals the one-pass list of active products at or below the minimum |
| Products.LowStockMembers | backend/controllers/produtoController.js:414-436 | a product is listed iff it is active and at or below its minimum, and every listed product is flagged BAIXO |
| StockControl.ManualMovement | backend/controllers/estoqueController.js:101-181 | missing fields → required; a type other than ENTRADA/SAIDA or quantity ≤ 0 → invalid; unknown product → not found; a SAIDA above stock → insufficient stock; otherwise stock ± quantity with exactly one movement of that type and quantity; non-negative stock stays non-negative and the ledger stays reconciled |
| StockControl.StockValueAppend | backend/controllers/estoqueController.js:243-254 | the stock value of two listings together is the sum of their values |
| StockControl.StockValueNonNegative | backend/controllers/estoqueController.js:243-254 | with non-negative costs and stocks the value is not negative |
| StockControl.StockValueDeactivate | backend/controllers/estoqueController.js:243-254 | deactivating a product lowers the value by exactly cost × stock |
| StockControl.EntryOf | backend/controllers/estoqueController.js:351-362 | an entry carries the product's id and name; its value is cost × stock; its flag is BAIXO iff stock ≤ minimum; its supplier is the supplier's name, or N/A when there is none |
| StockControl.Insert | backend/controllers/estoqueController.js:346-364 | in the accumulator's insertion order, filing under an existing name appends to that group only, a new name is added after all others, and names stay distinct |
| StockControl.GroupRowsCorrect | backend/controllers/estoqueController.js:346-364 | every group holds exactly the entries of the rows with its category name, in row order, groups exist exactly for names used, and the entries total the row count |
| StockControl.FirstRowIsFirst | backend/controllers/estoqueController.js:346-349 | the first row of a name is filed under it and no earlier row is |
| StockControl.FirstRowPresent | backend/controllers/estoqueController.js:346-349 | a name has a first row exactly when some entry is filed under it |
| StockControl.GroupRowsInAppearanceOrder | backend/controllers/estoqueController.js:346-364 | the accumulator holds the names in the order their first rows appear |
| StockControl.SortByIndexCorrect | backend/controllers/estoqueController.js:366-372 | sorting the array-index names by numeric value keeps the groups, distinct names and entry count, in ascending value |
| StockControl.PickInOrder | backend/controllers/estoqueController.js:366-372 | the names that are not array indices keep the order of their first rows |
| StockControl.KeyOrderCorrect | backend/controllers/estoqueController.js:366-372 | the keys as `res.json` writes them (array-index names first in ascending value, then the others in the order they were added) hold the same groups and entry count |
| StockControl.BuildInventory | backend/controllers/estoqueController.js:320-380 | fails with 500 exactly when some row's category name is one `{}` inherits (`constructor`, `toString`, `__proto__`, …), because `acc[name]` is truthy and has no `push`; otherwise `total_produtos` is the number of rows and of grouped entries, each group holds exactly its rows' entries, and the groups are in serialized key order |
| Registry.AddKeepsUnique | backend/controllers/categoryController.js:95-105 | adding a row whose key is empty or unused keeps the keys unique |
| Registry.ReplaceKeepsUnique | backend/controllers/categoryController.js:146-161 | replacing a row with its own key, an empty key or an unused key keeps the keys unique |
| Registry.TakenByOne | backend/controllers/clienteController.js:135-145 | with unique keys, a non-empty key names exactly one row |
| Registry.PutKeepsDistinct | backend/controllers/produtoController.js:155-158 | a write the unique index accepts, or one that keeps the row's key, keeps every present key distinct, the empty string included |
| Ranking.SortDesc | backend/controllers/clienteController.js:355-366 | the sort is a permutation of its input, same length, in descending order of total |
| Ranking.InsertDescTied | backend/controllers/clienteController.js:355-366 | an inserted row goes behind every row of its own total |
| Ranking.SortDescStable | backend/controllers/clienteController.js:355-366 | rows of equal total keep their input order, as the stable `Array.prototype.sort` keeps them |
| Ranking.Top10 | backend/controllers/clienteController.js:355-366 | the ranking is sorted descending, holds only positive totals, has min(10, number of positives) entries and is drawn from the input |
| Ranking.Top10KeepsLargest | backend/controllers/clienteController.js:355-366 | every positive entry left out has a total no larger than every ranked one |
| Ranking.Top10Members | backend/controllers/fornecedorController.js:335-346 | each ranked entry comes from the input with a positive total, and any positive entry left out totals no more than each ranked one |
| Ranking.SmallInputAllRanked | backend/controllers/clienteController.js:355-366 | with at most ten positive totals every one of them is ranked |
| Customers.CreateCustomer | backend/controllers/clienteController.js:114-170 | no name → required; a CPF in use → duplicate; accepted iff a name is given and the CPF is empty or free; the new customer owes 0; CPFs stay unique and no debt is negative |
| Customers.MergeLaws | backend/controllers/clienteController.js:200-231 | an empty patch changes nothing, a patch applied twice equals once, an absent CPF or empty name keeps the old value |
| Customers.UpdateCustomer | backend/controllers/clienteController.js:175-238 | unknown → not found; a different CPF in use → duplicate; otherwise only the sent fields change, the debt is never touched, CPFs stay unique |
| Customers.ResendOwnCpfAccepted | backend/controllers/clienteController.js:200-210 | sending a customer's own CPF back is accepted |
| Customers.UpdateRejectsTakenCpf | backend/controllers/clienteController.js:200-220 | changing to another customer's CPF is refused |
| Customers.Clamp | backend/controllers/clienteController.js:265-282 | the written balance is the computed one when not negative and 0 otherwise |
| Customers.AdjustDebt | backend/controllers/clienteController.js:243-308 | missing value or operation → required; unknown customer → not found; an operation other than adicionar/subtrair → invalid; otherwise the balance becomes max(0, old ± value), the response keeps the old balance, and no balance is negative |
| Customers.AddThenSubtractRestores | backend/controllers/clienteController.js:265-282 | adding a positive amount and subtracting it again restores the balance |
| Customers.SubtractThenAddOvershoots | backend/controllers/clienteController.js:265-282 | from 10, subtracting 30 gives 0 and adding 30 back gives 30: the clamp is not undone |
| Customers.Debtors | backend/controllers/clienteController.js:321-331 | a customer is a debtor iff active with a positive balance |
| Customers.TotalDebt | backend/controllers/clienteController.js:321-339 | the debt total is not negative |
| Customers.TotalDebtIsActiveDebt | backend/controllers/clienteController.js:321-339 | while no balance is negative, the debt total equals the sum of every active customer's balance |
| Customers.PurchasedAppend | backend/controllers/clienteController.js:341-362 | a completed sale raises a customer's total by its final amount; any other sale leaves it unchanged |
| Customers.Scores | backend/controllers/clienteController.js:340-366 | one score per active customer, and every score belongs to an active customer |
| Customers.TopCustomersRanked | backend/controllers/clienteController.js:355-366 | the top customers are at most ten active customers with positive totals, in descending order, and no positive customer left out beats a ranked one |
| Suppliers.CreateSupplier | backend/controllers/fornecedorController.js:125-181 | no name → required; a CNPJ in use → duplicate; accepted iff a name is given and the CNPJ is empty or free; CNPJs stay unique |
| Suppliers.MergeLaws | backend/controllers/fornecedorController.js:223-231 | an empty patch changes nothing, a patch applied twice equals once, absent fields keep their values |
| Suppliers.UpdateSupplier | backend/controllers/fornecedorController.js:186-249 | unknown → not found; a different CNPJ in use → duplicate; otherwise only the sent fields change and CNPJs stay unique |
| Suppliers.UpdateRejectsTakenCnpj | backend/controllers/fornecedorController.js:211-221 | changing to another supplier's CNPJ is refused |
| Suppliers.SupplierStats | backend/controllers/fornecedorController.js:58-120 | unknown → not found; otherwise the number of the supplier's CONCLUIDA purchases, the sum of their totals (taken over exactly those purchases), and the number of its active products; zero and 0.0 when nothing was concluded |
| Suppliers.ConfirmAddsToStats | backend/controllers/fornecedorController.js:91-107 | confirming one of a supplier's purchases adds one purchase and its total to the statistics and leaves the product count alone |
| Suppliers.PendingWorkKeepsStats | backend/controllers/fornecedorController.js:91-107 | registering or cancelling a purchase leaves every supplier's statistics unchanged |
| Suppliers.CountedTotalAppend | backend/controllers/fornecedorController.js:300-346 | a confirmed purchase in the period raises the supplier's total by its amount; any other leaves it unchanged |
| Suppliers.Scores | backend/controllers/fornecedorController.js:321-343 | one score per active supplier, and every score belongs to an active supplier |
| Suppliers.TopSuppliersRanked | backend/controllers/fornecedorController.js:335-346 | the top suppliers are at most ten active suppliers with positive totals, in descending order, and no positive supplier left out beats a ranked one |
| Suppliers.Dedup | backend/controllers/fornecedorController.js:371-375 | the values of the input, each once |
| Suppliers.DistinctCard | backend/controllers/fornecedorController.js:373-374 | a list without repeats is as long as its set of values |
| Suppliers.ForCategory | backend/controllers/fornecedorController.js:356-375 | a category's names are distinct and are exactly the non-empty names of its products' suppliers; the count is the number of distinct supplier ids |
| Suppliers.ByCategory | backend/controllers/fornecedorController.js:356-375 | one entry per active category |
| Suppliers.SharedNameCountsTwice | backend/controllers/fornecedorController.js:371-375 | two suppliers sharing a name are listed once by name but counted twice |
| Categories.CreateCategory | backend/controllers/categoryController.js:83-125 | no name → required; a name any row of the category table holds, a user's finance category included, → duplicate; otherwise an active category with no owner and no kind is added, names stay unique and active products stay placed |
| Categories.FinanceNameRefused | backend/controllers/categoryController.js:95-105 | a name that a user's finance category holds cannot be given to a new category, since the name check reads the whole shared table |
| Categories.GetCategory | backend/controllers/categoryController.js:46-78 | found iff the id is a row of the category table, finance categories included, otherwise not found |
| Categories.MergeLaws | backend/controllers/categoryController.js:158-161 | an empty patch changes nothing, a patch applied twice equals once, an empty name keeps the old one |
| Categories.UpdateCategory | backend/controllers/categoryController.js:130-179 | unknown id (any row of the table counts) → not found; renaming to a different name any row holds → duplicate; otherwise only the sent fields change, names stay unique and active products stay placed |
| Categories.KeepNameAccepted | backend/controllers/categoryController.js:146-156 | sending a category's own name back is accepted |
| Categories.RenameToTakenRejected | backend/controllers/categoryController.js:146-156 | renaming to another category's name is refused |
| Categories.DeleteCategory | backend/controllers/categoryController.js:184-225 | unknown id (any row of the table counts, a finance category included) → not found; an active product in the category → in use; otherwise only that category goes and active products stay placed |
| Categories.DeleteFreesName | backend/controllers/categoryController.js:184-225 | after deletion the category's name is free again |
| Aggregates.SumOfUpdate | backend/models/index.js:243-275 | writing one row changes a table sum by the difference of that row's amounts |
| Aggregates.CountOfUpdate | backend/controllers/fornecedorController.js:91-98 | writing one row moves a table count by one exactly when the row starts or stops matching |
| Aggregates.SumOfOnly | backend/controllers/fornecedorController.js:91-98 | a sum whose amount is zero outside the rows with a property equals the sum over the rows with that property alone, which is what `_sum` with a `where` computes |
| Finance.Snap | backend/models/index.js:225-290 | the snapshot's balance is income − expense, its timestamp is now, and a user without transactions has all zeros |
| Finance.Recompute | backend/models/index.js:225-290 | only the user's snapshot is upserted and it then agrees with the user's transactions |
| Finance.RecomputeIdempotent | backend/models/index.js:225-290 | recomputing twice equals recomputing once, and the snapshot depends only on the transactions |
| Finance.MonthWithinTotal | backend/models/index.js:243-264 | with positive amounts, month-to-date income and expense lie between 0 and the all-time figures |
| Finance.FindOrCreate | backend/models/index.js:208-222 | the existing snapshot when there is one, otherwise exactly one new zero snapshot |
| Finance.FindOrCreateOnce | backend/models/index.js:208-222 | a second lookup creates nothing more |
| Finance.ListTransactions | backend/models/index.js:123-133 | a transaction is listed iff it is the user's and matches each supplied filter |
| Finance.ListLaws | backend/models/index.js:123-133 | without filters every transaction of the user is listed, a filter only narrows, and a start date without an end date is ignored |
| Finance.CreateTransaction | backend/controllers/transactionController.js:62-126 | missing fields → required; value ≤ 0 → invalid; a category row the user does not own → not found; a kind other than the category's, or a category without a kind → mismatch; otherwise stored with the defaults and the balance recomputed |
| Finance.ProductCategoryMismatch | backend/controllers/transactionController.js:81-96 | a product category the user owns (the seed gives its product categories to the admin) passes the ownership check and is then refused as a kind mismatch |
| Finance.CreateMovesBalance | backend/controllers/transactionController.js:98-113 | a new income raises income and balance by its value; a new expense raises expense and lowers the balance by it |
| Finance.CreateKeepsWellFiled | backend/controllers/transactionController.js:67-96 | creation keeps every amount positive and every kind equal to its category's kind |
| Finance.MergeLaws | backend/controllers/transactionController.js:163-171 | an empty patch changes nothing, a patch applied twice equals once, the owner never changes |
| Finance.UpdateTransaction | backend/controllers/transactionController.js:131-189 | not the user's → not found; a changed category the user does not own → not found; a changed category whose kind differs from a sent kind → mismatch; with no kind sent, any owned category is accepted, a product one included; any sent tag list fails with 500, since `atualizar` (models/index.js:189-197) passes the array unconverted to the string column that `criar` fills with JSON (lines 151-155); otherwise only the sent fields change and the balance is recomputed |
| Finance.UpdateCanStoreNegative | backend/controllers/transactionController.js:145-171 | an update can store a negative value, since the value's sign is checked only on creation |
| Finance.UpdateCanMisfile | backend/controllers/transactionController.js:145-171 | an update can turn an expense into an income under its unchanged expense category, since the kind is checked only when the category changes |
| Finance.UpdateIntoProductCategory | backend/controllers/transactionController.js:144-171 | moving a transaction to a product category the user owns, with no kind sent, is accepted and leaves it filed under a category of another kind |
| Finance.DeleteTransaction | backend/controllers/transactionController.js:194-221 | only the user's transaction can be deleted; it is removed and the balance recomputed |
| Finance.CreateThenDeleteRestoresBalance | backend/controllers/transactionController.js:194-221 | creating a transaction and deleting it leaves the user's figures as they were |
| Catalog.IndexOf | frontend/src/pages/Sales/POSPage.tsx:366-367 | the position found holds the id asked for and no earlier row does; none is found iff no row has it |
| Catalog.Find | frontend/src/pages/Sales/POSPage.tsx:366-367 | the product found has the id asked for, and none is found iff no product has it |
| Catalog.Search | frontend/src/pages/Sales/POSPage.tsx:437-440 | a product is shown iff the lower-cased term occurs in its lower-cased name or barcode |
| Catalog.EmptySearchShowsAll | frontend/src/pages/Sales/POSPage.tsx:437-440 | an empty search shows every product in order |
| PointOfSale.Remove | frontend/src/pages/Sales/POSPage.tsx:381-383 | the remaining lines are exactly those of other products, and one line per product is kept |
| PointOfSale.RemoveOnlyThatLine | frontend/src/pages/Sales/POSPage.tsx:381-383 | with one line per product, removing a product drops exactly its line and keeps the others in order |
| PointOfSale.RemoveLowersTotal | frontend/src/pages/Sales/POSPage.tsx:381-387 | removing a product lowers the cart total by that line's subtotal |
| PointOfSale.UpdateQuantity | frontend/src/pages/Sales/POSPage.tsx:360-379 | a quantity ≤ 0 removes the line; an unknown product or a quantity above stock leaves the cart unchanged; otherwise the cart is re-mapped with the new quantity |
| PointOfSale.SetQuantity | frontend/src/pages/Sales/POSPage.tsx:374-378 | the cart keeps its length and products; that product's line gets the quantity and subtotal = quantity × price, every other line is unchanged |
| PointOfSale.UpdateKeepsWellFormed | frontend/src/pages/Sales/POSPage.tsx:360-379 | any update keeps one line per product, subtotal = quantity × price and quantity ≤ stock |
| PointOfSale.LineOf | frontend/src/pages/Sales/POSPage.tsx:346 | the line found is the first one for the product, and none is found iff the cart has no line for it |
| PointOfSale.UpdateSetsQuantity | frontend/src/pages/Sales/POSPage.tsx:374-378 | a valid update sets that product's quantity and no other product's |
| PointOfSale.AddToCart | frontend/src/pages/Sales/POSPage.tsx:340-358 | no stock → unchanged; a product in the cart goes through the update with quantity + 1; a new product is appended with quantity 1 at its price; one line per product is kept |
| PointOfSale.AddToCartAddsOne | frontend/src/pages/Sales/POSPage.tsx:340-379 | an accepted click raises that product's quantity by one, a refused click changes nothing, and other products keep their quantities |
| PointOfSale.AddToCartKeepsWellFormed | frontend/src/pages/Sales/POSPage.tsx:340-379 | with whole-number stock, adding keeps one line per product, subtotal = quantity × price and quantity ≤ stock |
| PointOfSale.AddToCartRaisesTotals | frontend/src/pages/Sales/POSPage.tsx:340-391 | an accepted click adds one to the item count and the product's price to the total |
| PointOfSale.FractionalStockOverfills | frontend/src/pages/Sales/POSPage.tsx:341-357 | a product with 0.5 in stock enters an empty cart with quantity 1, above its stock |
| PointOfSale.AddToCartChecked | frontend/src/pages/Sales/POSPage.tsx:340-379 | a new line is added only when at least one unit is in stock; a product already in the cart is handled as by the plain click |
| PointOfSale.CheckedKeepsWellFormed | frontend/src/pages/Sales/POSPage.tsx:340-379 | with a new line checked against stock like an update, adding keeps the cart well formed whatever the stock |
| PointOfSale.CheckoutRequest | frontend/src/pages/Sales/POSPage.tsx:393-421 | an empty cart and a pay-later sale without customer are refused; otherwise the request has the customer, the upper-cased method, no discount, empty notes and one item per line at its quantity and price |
| PointOfSale.Settle | frontend/src/pages/Sales/POSPage.tsx:420-434 | a stored sale resets cart, customer and method; a failure keeps the page as it was |
| PointOfSale.StoredSaleClearsCart | frontend/src/pages/Sales/POSPage.tsx:394-425 | after a stored sale the same cart cannot be submitted again |
| PointOfSale.SaleTotalIsCartTotal | frontend/src/pages/Sales/POSPage.tsx:385-421 | with non-zero prices, the sale the server stores has the cart total the page showed |
| ProductList.Status | frontend/src/pages/Products/ProductsPage.tsx:297-301 | out iff stock = 0; low iff stock ≠ 0 and ≤ minimum; in stock iff stock ≠ 0 and > minimum |
| ProductList.Label | frontend/src/pages/Products/ProductsPage.tsx:303-309 | each status has its label |
| ProductList.LabelsDistinct | frontend/src/pages/Products/ProductsPage.tsx:303-309 | different statuses have different labels |
| ProductList.Visible | frontend/src/pages/Products/ProductsPage.tsx:311-322 | a product is shown iff it matches the search, the category (none selected matches all) and the stock filter |
| ProductList.ClearedShowsAll | frontend/src/pages/Products/ProductsPage.tsx:324-328 | after clearing the filters every product is shown, in order |
| ProductList.OutIsAlsoLow | frontend/src/pages/Products/ProductsPage.tsx:317-319 | with non-negative minimums every product the "out" filter shows is shown by the "low" filter |
| ProductList.FilterAgreesWithBadge | frontend/src/pages/Products/ProductsPage.tsx:297-319 | "out" shows exactly the products badged out of stock; "low" shows those badged low plus, when the minimum is not negative, those out of stock |

## Left out

- HTTP, Prisma and the database are replaced by the store value. Each handler is one atomic step. The transactions, concurrency and rollback timing are not modelled.
- Clocks are parameters (`now`, `monthStart`), and so is the authenticated user.
- JavaScript floating point is modelled as exact `real`. This covers `toFixed`, rounding, `NaN` and `parseFloat` of non-numbers.
- Text case mapping is ASCII only.
- The listing queries are not modelled: `getVendas`, `getCompras`, `getProdutos`, `getClientes`, `getFornecedores`, `getMovimentacoes` and `getTransacoes`, with their pagination and ordering.
- Other report figures are not modelled: `relatorioVendas`, `relatorioCompras`, the sales dashboard, the supplier report's `resumo` aggregate and the average ticket.
- `deleteCliente`, `deleteProduto`, `getProdutosFornecedor`, authentication and logging are not part of this model.
- Finance.ListTransactions: returns the set of listed rows, not the date-descending order the query asks for.
- Finance transaction tags are kept as a list; the JSON string the table stores is not modelled.
- Categories.CreateCategory: writes neither an owner nor a kind, as `createCategoria` sends neither; the table's schema is not part of this model, so a required `usuario_id` or `tipo` column, which would make every such creation fail, is not modelled.
- Whether a finance category is active is not checked when a transaction names it, because the lookup does not check it either.
- The product table's schema is not part of this model. New rows are assumed to default to active, with debt 0, and new sales to CONCLUIDA.
- The cost column is called `preco_compra` by the product handlers and `preco_custo` by the purchase, stock and supplier code. Both are one `cost` field here, which matches no single schema. The seed data (backend/prisma/seed.js:104-164) and the frontend types (frontend/src/types/index.ts:22) know only `preco_compra`. If that is the only column, the stock report's select of `preco_custo` (backend/controllers/estoqueController.js:246) fails and its catch answers 500, and `confirmarCompra`'s write of it (backend/controllers/compraController.js:262) throws out of the handler unanswered, as the next line describes. If both columns exist, a purchase price never reaches the margin, which reads `preco_compra`. Purchases.Recost, Purchases.ConfirmPurchase, StockControl.StockValue and StockControl.EntryOf describe the program as if both names were one column.
- Purchases.CreatePurchase, Purchases.ConfirmPurchase, StockControl.ManualMovement: each refusal is an error value naming the check that failed (or `ServerError` for a write the database refuses), but no response. `createCompra`, `confirmarCompra` and `createMovimentacao` make their checks, and their writes, inside the `prisma.$transaction` callback, whose own catch only rethrows (backend/controllers/compraController.js:99-192, 225-282; backend/controllers/estoqueController.js:102-166). The handlers' `try` starts after the transaction (compraController.js:194 and 285, estoqueController.js:168), and the routes pass the handlers to Express without an async wrapper (backend/routes/compras.js:19-29, backend/routes/estoque.js:18). So a refused request is not answered by the handler. What the client then sees depends on the Express version, which is not part of this model: Express 4 leaves the rejection unhandled, while Express 5 hands it to `errorHandler`.
- Sales.NextSaleLabel: the previous number is the numeric maximum of the stored labels, which is what the text order of `orderBy: { numero_venda: 'desc' }` gives while every label has six digits (`SaleNumbers.SaleLabelWidth`). Past 999 999 the text order would pick "999999" over "1000000"; that is not modelled. The model reads the column as text. The seed data (backend/prisma/seed.js:203) and the frontend types (frontend/src/types/index.ts:96) declare it a number; see Findings.
- Categories.DeleteCategory: inactive products, and the transactions of a finance category, keep pointing at a deleted category, since the foreign-key behaviour of the schema is not known.
- PointOfSale.CheckoutRequest: the `subtotal` each item also carries is left out, because the sales handler does not read it.
- PointOfSale.SaleTotalIsCartTotal: assumes non-zero prices. A line at price 0 is priced by the server at the product's stored sale price, as `Sales.UnitPrice` states.
- ProductList.Visible: the stock select is modelled with its three options. Any other value, which the page cannot produce, would show nothing.

## Behaviour that is easy to misread

The model follows the code in each case.

- Purchase cancellation rejects CANCELADA and CONCLUIDA. With three statuses this allows it only from PENDENTE.
- The stock adjustment accepts any non-zero new quantity, negative ones included, and refuses 0. A new quantity equal to the old one still writes a SAIDA movement of quantity 0.
- The debt adjustment requires a non-zero amount, not a positive one.
- The sale checks each line against the stock as it was before the sale, so repeated lines for one product can oversell.

## Findings

| source | as written | input that shows it | evidently intended | confidence | as-written member | corrected member |
|---|---|---|---|---|---|---|
| backend/controllers/vendaController.js:116-123 | the next sale number is written as a zero-padded string, into a column that backend/prisma/seed.js:203 and frontend/src/types/index.ts:96 declare a number | any sale that passes every check, e.g. the first one after the seeded sale 1, which sends "000002" | the sale is stored under the next number, max + 1, never used before | medium, not executed | Sales.CreateSaleInto | Sales.CreateSale |
| frontend/src/pages/Sales/POSPage.tsx:341-357 | a new line of quantity 1 is added whenever the stock is above 0 | a product sold by weight with 0.5 in stock, added to an empty cart | a new line, like any quantity change, is accepted only when its quantity fits the stock | low, not executed | PointOfSale.FractionalStockOverfills | PointOfSale.CheckedKeepsWellFormed |

=== FILE: aggregates.dfy ===
/**
  Aggregates over a whole table, as the database computes them with `_sum`
  and `_count`: the total of an amount over every row, and the number of rows
  with a property. The order rows are visited in does not matter, which the
  update laws below make precise.
 */
module Aggregates {
  import opened Base

  /** The sum of `f` over every row; rows `f` ignores contribute 0. */
  function SumOf<T>(m: map<Id, T>, f: T -> real): real
    decreases |m.Keys|
  {
    if m.Keys == {} then 0.0
    else
      var k := MaxOf(m.Keys);
      assert m.Keys - {k} < m.Keys;
      f(m[k]) + SumOf(m - {k}, f)
  }

  lemma {:induction false} MaxOfUnique(s: set<nat>, j: nat)
    requires j in s && forall k :: k in s ==> k <= j
    ensures MaxOf(s) == j
  {
  }

  /** Taking one row out lowers the sum by exactly that row's amount,
      whichever row it is. */
  lemma {:induction false} SumOfRemove<T>(m: map<Id, T>, f: T -> real, k: Id)
    requires k in m
    ensures SumOf(m, f) == f(m[k]) + SumOf(m - {k}, f)
    decreases |m.Keys|
  {
    var j := MaxOf(m.Keys);
    if j != k {
      var mj := m - {j};
      var mk := m - {k};
      assert mj.Keys < m.Keys;
      SumOfRemove(mj, f, k);
      assert mj - {k} == mk - {j};
      assert mk.Keys == m.Keys - {k};
      MaxOfUnique(mk.Keys, j);
      assert mk.Keys != {};
    }
  }

  /** Writing one row changes the sum by the difference of its amounts; a
      new row adds its amount. */
  lemma {:induction false} SumOfUpdate<T>(m: map<Id, T>, f: T -> real, k: Id, v: T)
    ensures k in m ==> SumOf(m[k := v], f) == SumOf(m, f) - f(m[k]) + f(v)
    ensures k !in m ==> SumOf(m[k := v], f) == SumOf(m, f) + f(v)
  {
    SumOfRemove(m[k := v], f, k);
    if k in m {
      SumOfRemove(m, f, k);
      assert m[k := v] - {k} == m - {k};
    } else {
      assert m[k := v] - {k} == m;
    }
  }

  /** Rows `f` gives no amount to do not change the sum. */
  lemma {:induction false} SumOfZero<T>(m: map<Id, T>, f: T -> real)
    requires forall k :: k in m ==> f(m[k]) == 0.0
    ensures SumOf(m, f) == 0.0
    decreases |m.Keys|
  {
    if m.Keys != {} {
      var k := MaxOf(m.Keys);
      assert (m - {k}).Keys < m.Keys;
      SumOfZero(m - {k}, f);
    }
  }

  /** Non-negative amounts have a non-negative sum. */
  lemma {:induction false} SumOfNonNegative<T>(m: map<Id, T>, f: T -> real)
    requires forall k :: k in m ==> f(m[k]) >= 0.0
    ensures SumOf(m, f) >= 0.0
    decreases |m.Keys|
  {
    if m.Keys != {} {
      var k := MaxOf(m.Keys);
      assert (m - {k}).Keys < m.Keys;
      SumOfNonNegative(m - {k}, f);
    }
  }

  /** Only the amounts matter: two tables whose rows give the same amounts
      under the same keys have the same sum. */
  lemma {:induction false} SumOfCongruent<T>(m: map<Id, T>, f: T -> real, n: map<Id, T>, g: T -> real)
    requires m.Keys == n.Keys
    requires forall k :: k in m ==> f(m[k]) == g(n[k])
    ensures SumOf(m, f) == SumOf(n, g)
    decreases |m.Keys|
  {
    if m.Keys != {} {
      var k := MaxOf(m.Keys);
      assert (m - {k}).Keys < m.Keys;
      assert (m - {k}).Keys == (n - {k}).Keys;
      SumOfCongruent(m - {k}, f, n - {k}, g);
    }
  }

  /** A pointwise smaller amount has a smaller sum. */
  lemma {:induction false} SumOfMonotone<T>(m: map<Id, T>, f: T -> real, g: T -> real)
    requires forall k :: k in m ==> f(m[k]) <= g(m[k])
    ensures SumOf(m, f) <= SumOf(m, g)
    decreases |m.Keys|
  {
    if m.Keys != {} {
      var k := MaxOf(m.Keys);
      assert (m - {k}).Keys < m.Keys;
      SumOfMonotone(m - {k}, f, g);
    }
  }

  /** The rows with property `P`. */
  function Matching<T>(m: map<Id, T>, P: T -> bool): (ks: set<Id>)
    ensures forall k :: k in ks <==> k in m && P(m[k])
  {
    set k | k in m && P(m[k])
  }

  /** The number of rows with property `P`. */
  function CountOf<T>(m: map<Id, T>, P: T -> bool): nat {
    |Matching(m, P)|
  }

  /** The rows with property `P`, as a table of their own. */
  function Only<T>(m: map<Id, T>, P: T -> bool): (r: map<Id, T>)
    ensures r.Keys == Matching(m, P)
    ensures forall k :: k in r ==> r[k] == m[k]
  {
    map k | k in m && P(m[k]) :: m[k]
  }

  /** Taking a row out of the table and then keeping the rows with `P` is
      keeping them and then taking the row out. */
  lemma {:induction false} OnlyRemove<T>(m: map<Id, T>, P: T -> bool, k: Id)
    requires k in m
    ensures P(m[k]) ==> k in Only(m, P) && Only(m, P) - {k} == Only(m - {k}, P)
    ensures !P(m[k]) ==> Only(m, P) == Only(m - {k}, P)
  {
    var o := Only(m, P);
    assert (o - {k}).Keys == Only(m - {k}, P).Keys;
  }

  /** Summing an amount that is `g` on the rows with `P` and 0 elsewhere is
      summing `g` over those rows alone. */
  lemma {:induction false} SumOfOnly<T>(m: map<Id, T>, P: T -> bool, g: T -> real, f: T -> real)
    requires forall x :: f(x) == (if P(x) then g(x) else 0.0)
    ensures SumOf(m, f) == SumOf(Only(m, P), g)
    decreases |m.Keys|
  {
    if m.Keys != {} {
      var k := MaxOf(m.Keys);
      assert (m - {k}).Keys < m.Keys;
      SumOfOnly(m - {k}, P, g, f);
      OnlyRemove(m, P, k);
      if P(m[k]) {
        SumOfRemove(Only(m, P), g, k);
      }
    } else {
      assert Only(m, P).Keys == {};
    }
  }

  lemma {:induction false} CardWithout(s: set<Id>, k: Id)
    ensures |s| == |s - {k}| + (if k in s then 1 else 0)
  {
    if k in s {
      assert s == (s - {k}) + {k};
    } else {
      assert s == s - {k};
    }
  }

  /** Writing one row moves the count by one exactly when the property
      changes for that row: the old row stops counting, the new one starts. */
  lemma {:induction false} CountOfUpdate<T>(m: map<Id, T>, P: T -> bool, k: Id, v: T)
    ensures CountOf(m[k := v], P) + (if k in m && P(m[k]) then 1 else 0)
         == CountOf(m, P) + (if P(v) then 1 else 0)
  {
    var before := Matching(m, P);
    var after := Matching(m[k := v], P);
    assert before - {k} == after - {k};
    CardWithout(before, k);
    CardWithout(after, k);
  }
}

=== FILE: base.dfy ===
/**
  Shared vocabulary of the model: identifiers, optional request fields with
  JavaScript truthiness, the failure-compatible `Result` every handler returns,
  and the "previous maximum + 1" numbering the database layer relies on.
 */
module Base {

  /** Row identifiers. The database generates them; the model draws fresh ones
      with `NextNumber`. */
  type Id = nat

  datatype Option<+T> = None | Some(value: T) {
    function GetOr(default: T): T {
      match this
      case Some(v) => v
      case None => default
    }
  }

  /** The error kinds the handlers answer with (their HTTP status and message
      text are left to the transport layer). */
  datatype Error =
    | NotFound            // the referenced row does not exist
    | Required            // a mandatory field is missing or falsy
    | InvalidValue        // a value outside what the handler accepts
    | Duplicate           // a unique field is already in use
    | InvalidState        // the row's status forbids the transition
    | Inactive            // the product is deactivated
    | InsufficientStock(available: real)
    | KindMismatch        // transaction type differs from its category's type
    | InUse               // the category still has active products
    | ServerError         // the handler threw (a write the database refuses, a runtime TypeError) and its catch answered 500

  datatype Result<+T> = Ok(value: T) | Err(error: Error) {
    predicate IsFailure() {
      Err?
    }

    function PropagateFailure<U>(): Result<U>
      requires Err?
    {
      Err(error)
    }

    function Extract(): T
      requires Ok?
    {
      value
    }
  }

  /** `if (s)` on a request string: present and not empty. */
  predicate Given(s: Option<string>) {
    s.Some? && s.value != ""
  }

  /** `if (x)` on a request number: present and not zero. */
  predicate GivenNum(x: Option<real>) {
    x.Some? && x.value != 0.0
  }

  lemma {:induction false} MaxExists(s: set<nat>)
    requires s != {}
    ensures exists m :: m in s && forall k :: k in s ==> k <= m
    decreases |s|
  {
    var x :| x in s;
    if s - {x} != {} {
      MaxExists(s - {x});
      var m :| m in s - {x} && forall k :: k in s - {x} ==> k <= m;
      var top := if x <= m then m else x;
      forall k | k in s
        ensures k <= top
      {
        if k != x {
          assert k in s - {x};
        }
      }
      assert top in s;
    } else {
      assert s == {x};
    }
  }

  /** The largest element of a non-empty set of numbers. */
  function MaxOf(s: set<nat>): (m: nat)
    requires s != {}
    ensures m in s
    ensures forall k :: k in s ==> k <= m
  {
    MaxExists(s);
    var m :| m in s && forall k :: k in s ==> k <= m;
    m
  }

  /** "Previous maximum + 1, or 1 when there is none": how sale numbers,
      purchase numbers and, in this model, fresh row ids are drawn. */
  function NextNumber(used: set<nat>): (n: nat)
    ensures n >= 1
    ensures n !in used
    ensures forall k :: k in used ==> k < n
    ensures used == {} ==> n == 1
    ensures used != {} ==> n - 1 in used
  {
    if used == {} then 1 else MaxOf(used) + 1
  }

  /** Left-to-right sum of a sequence of amounts (`reduce((t, x) => t + x, 0)`). */
  function Sum(xs: seq<real>): real
  {
    if xs == [] then 0.0 else xs[0] + Sum(xs[1..])
  }

  lemma {:induction false} SumAppend(a: seq<real>, b: seq<real>)
    ensures Sum(a + b) == Sum(a) + Sum(b)
  {
    if a != [] {
      assert (a + b)[1..] == a[1..] + b;
      SumAppend(a[1..], b);
    } else {
      assert a + b == b;
    }
  }

  lemma {:induction false} SumNonNegative(xs: seq<real>)
    requires forall i :: 0 <= i < |xs| ==> xs[i] >= 0.0
    ensures Sum(xs) >= 0.0
  {
    if xs != [] {
      SumNonNegative(xs[1..]);
    }
  }

  /** Replacing one amount changes the sum by the difference. */
  lemma {:induction false} SumUpdateAt(xs: seq<real>, k: nat, v: real)
    requires k < |xs|
    ensures Sum(xs[k := v]) == Sum(xs) - xs[k] + v
  {
    assert xs == xs[..k] + ([xs[k]] + xs[k+1..]);
    assert xs[k := v] == xs[..k] + ([v] + xs[k+1..]);
    SumAppend(xs[..k], [xs[k]] + xs[k+1..]);
    SumAppend(xs[..k], [v] + xs[k+1..]);
    SumAppend([xs[k]], xs[k+1..]);
    SumAppend([v], xs[k+1..]);
  }
}

=== FILE: catalog.dfy ===
/**
  The product list as the web pages hold it after loading `/produtos`: one
  row per product with the fields the point-of-sale and product pages read,
  the `Array.filter` they both use, and the name-or-barcode search.
 */
module Catalog {
  import opened Base
  import opened Text

  /** A product row of the pages (`types/index.ts`); prices and stock are
      the numbers the server sent. */
  datatype Listed = Listed(
    id: Id,
    name: string,
    barcode: Option<string>,
    category: Id,
    price: real,
    stock: real,
    minStock: real)

  /** `Array.filter`: the elements satisfying `P`, in their original order. */
  function Keep<T(!new)>(xs: seq<T>, P: T -> bool): (r: seq<T>)
    ensures |r| <= |xs|
    ensures forall x :: x in r <==> x in xs && P(x)
  {
    if xs == [] then []
    else if P(xs[0]) then [xs[0]] + Keep(xs[1..], P)
    else
      assert forall x :: x in xs <==> x == xs[0] || x in xs[1..];
      Keep(xs[1..], P)
  }

  /** A filter every element passes returns the list itself. */
  lemma {:induction false} KeepAll<T(!new)>(xs: seq<T>, P: T -> bool)
    requires forall i :: 0 <= i < |xs| ==> P(xs[i])
    ensures Keep(xs, P) == xs
  {
    if xs != [] {
      KeepAll(xs[1..], P);
      assert [xs[0]] + xs[1..] == xs;
    }
  }

  /** Split a list anywhere and filter the halves: the same result. */
  lemma {:induction false} KeepAppend<T(!new)>(xs: seq<T>, ys: seq<T>, P: T -> bool)
    ensures Keep(xs + ys, P) == Keep(xs, P) + Keep(ys, P)
  {
    if xs == [] {
      assert xs + ys == ys;
    } else {
      assert (xs + ys)[1..] == xs[1..] + ys;
      KeepAppend(xs[1..], ys, P);
    }
  }

  /** The index of the first row whose id is `id` (`Array.findIndex`). */
  function IndexOf(catalog: seq<Listed>, id: Id): (r: Option<nat>)
    ensures r.Some? ==> r.value < |catalog| && catalog[r.value].id == id
    ensures r.Some? ==> forall j :: 0 <= j < r.value ==> catalog[j].id != id
    ensures r.None? <==> forall j :: 0 <= j < |catalog| ==> catalog[j].id != id
  {
    if catalog == [] then None
    else if catalog[0].id == id then Some(0)
    else
      match IndexOf(catalog[1..], id)
      case None => None
      case Some(j) => Some(j + 1)
  }

  /** `products.find(p => p.id === id)`. */
  function Find(catalog: seq<Listed>, id: Id): (r: Option<Listed>)
    ensures r.Some? ==> r.value in catalog && r.value.id == id
    ensures r.None? <==> forall j :: 0 <= j < |catalog| ==> catalog[j].id != id
  {
    match IndexOf(catalog, id)
    case None => None
    case Some(k) => Some(catalog[k])
  }

  /** With one row per id, the row found is the one with that id. */
  lemma {:induction false} FindUnique(catalog: seq<Listed>, k: nat)
    requires k < |catalog|
    requires forall i, j :: 0 <= i < j < |catalog| ==> catalog[i].id != catalog[j].id
    ensures Find(catalog, catalog[k].id) == Some(catalog[k])
  {
    var f := IndexOf(catalog, catalog[k].id);
    assert f.Some?;
    assert f.value == k;
  }

  /** The search box: the lower-cased term inside the lower-cased name or
      barcode. */
  predicate Searched(p: Listed, term: string) {
    SearchMatch(p.name, p.barcode, term)
  }

  /** The point-of-sale product grid (`filteredProducts`). */
  function Search(catalog: seq<Listed>, term: string): (r: seq<Listed>)
    ensures forall p :: p in r <==> p in catalog && Searched(p, term)
  {
    Keep(catalog, (p: Listed) => Searched(p, term))
  }

  /** An empty search box shows every product, in order. */
  lemma {:induction false} EmptySearchShowsAll(catalog: seq<Listed>)
    ensures Search(catalog, "") == catalog
  {
    forall i | 0 <= i < |catalog|
      ensures Searched(catalog[i], "")
    {
      EmptySearchMatchesAll(catalog[i].name, catalog[i].barcode);
    }
    KeepAll(catalog, (p: Listed) => Searched(p, ""));
  }
}

=== FILE: categories.dfy ===
/**
  Categories as `categoryController` handles them: creation and renaming
  under a name no row of the table holds, the partial update, lookup, and
  deletion, which is refused while an active product still belongs to the
  category. The table is the one the finance side files transactions under,
  so every check here sees the finance categories too.
 */
module Categories {
  import opened Base
  import opened Entities
  import opened Registry

  function Name(c: Category): Option<string> {
    Some(c.name)
  }

  /** Every active product belongs to a category that exists. */
  predicate ActiveProductsPlaced(st: Store) {
    forall p :: p in st.products && st.products[p].active ==> st.products[p].category in st.categories
  }

  /** An active product of category `id`. */
  predicate HasActiveProduct(st: Store, id: Id) {
    exists p :: p in st.products && st.products[p].active && st.products[p].category == id
  }

  datatype Created = Created(store: Store, id: Id)

  /** `createCategoria`: a name is mandatory and must not be in use. */
  function CreateCategory(st: Store, name: Option<string>, description: Option<string>): (r: Result<Created>)
    ensures !Given(name) ==> r == Err(Required)
    ensures r.Ok? <==> Given(name) && !Taken(st.categories, Name, name.value)
    ensures r.Err? && Given(name) ==> r.error == Duplicate
    ensures r.Ok? ==> r.value.id !in st.categories
    ensures r.Ok? ==>
      r.value.store == st.(categories := st.categories[r.value.id := Category(name.value, description, true, None, None)])
    ensures r.Ok? && Unique(st.categories, Name) ==> Unique(r.value.store.categories, Name)
    ensures r.Ok? && ActiveProductsPlaced(st) ==> ActiveProductsPlaced(r.value.store)
  {
    if !Given(name) then Err(Required)
    else if Taken(st.categories, Name, name.value) then Err(Duplicate)
    else
      var id := NextNumber(st.categories.Keys);
      AddKeepsUnique(st.categories, Name, id, Category(name.value, description, true, None, None));
      Ok(Created(st.(categories := st.categories[id := Category(name.value, description, true, None, None)]), id))
  }

  /** The name check looks at the whole table: a name a user's finance
      category holds cannot be given to a new category. */
  lemma {:induction false} FinanceNameRefused(st: Store, fin: Id, description: Option<string>)
    requires fin in st.categories && st.categories[fin].owner.Some? && st.categories[fin].name != ""
    ensures CreateCategory(st, Some(st.categories[fin].name), description) == Err(Duplicate)
  {
    assert Name(st.categories[fin]) == Some(st.categories[fin].name);
  }

  /** `getCategoria`. */
  function GetCategory(st: Store, id: Id): (r: Result<Category>)
    ensures r.Ok? <==> id in st.categories
    ensures r.Ok? ==> r.value == st.categories[id]
    ensures r.Err? ==> r.error == NotFound
  {
    if id in st.categories then Ok(st.categories[id]) else Err(NotFound)
  }

  /** The update body; `None` means the field was not sent and, for the
      description, `Some(None)` means it was sent as null. */
  datatype CategoryPatch = CategoryPatch(name: Option<string>, description: Option<Option<string>>, active: Option<bool>)

  const NoChanges := CategoryPatch(None, None, None)

  /** The name only when non-empty, the other fields whenever sent. */
  function Merge(c: Category, patch: CategoryPatch): Category {
    c.(name := if Given(patch.name) then patch.name.value else c.name,
       description := patch.description.GetOr(c.description),
       active := patch.active.GetOr(c.active))
  }

  /** An empty patch changes nothing, sending the same patch twice has the
      effect of sending it once, and an empty name keeps the old one. */
  lemma {:induction false} MergeLaws(c: Category, patch: CategoryPatch)
    ensures Merge(c, NoChanges) == c
    ensures Merge(Merge(c, patch), patch) == Merge(c, patch)
    ensures !Given(patch.name) ==> Merge(c, patch).name == c.name
    ensures patch.active.None? ==> Merge(c, patch).active == c.active
  {
  }

  /** The renaming check: a non-empty name that differs from the current one
      must not be in use. */
  predicate RenameTaken(st: Store, id: Id, patch: CategoryPatch)
    requires id in st.categories
  {
    Given(patch.name) && patch.name.value != st.categories[id].name
    && Taken(st.categories, Name, patch.name.value)
  }

  /** `updateCategoria`. */
  function UpdateCategory(st: Store, id: Id, patch: CategoryPatch): (r: Result<Store>)
    ensures id !in st.categories ==> r == Err(NotFound)
    ensures id in st.categories && RenameTaken(st, id, patch) ==> r == Err(Duplicate)
    ensures r.Ok? <==> id in st.categories && !RenameTaken(st, id, patch)
    ensures r.Ok? ==> r.value == st.(categories := st.categories[id := Merge(st.categories[id], patch)])
    ensures r.Ok? && Unique(st.categories, Name) ==> Unique(r.value.categories, Name)
    ensures r.Ok? && ActiveProductsPlaced(st) ==> ActiveProductsPlaced(r.value)
  {
    if id !in st.categories then Err(NotFound)
    else if RenameTaken(st, id, patch) then Err(Duplicate)
    else
      ReplaceKeepsUnique(st.categories, Name, id, Merge(st.categories[id], patch));
      Ok(st.(categories := st.categories[id := Merge(st.categories[id], patch)]))
  }

  /** Keeping the current name is not a conflict with itself. */
  lemma {:induction false} KeepNameAccepted(st: Store, id: Id)
    requires id in st.categories
    ensures UpdateCategory(st, id, NoChanges.(name := Some(st.categories[id].name))).Ok?
  {
  }

  /** Renaming to another category's name is refused. */
  lemma {:induction false} RenameToTakenRejected(st: Store, id: Id, other: Id)
    requires id in st.categories && other in st.categories && id != other
    requires Unique(st.categories, Name) && st.categories[other].name != ""
    ensures UpdateCategory(st, id, NoChanges.(name := Some(st.categories[other].name))) == Err(Duplicate)
  {
    var n := st.categories[other].name;
    assert Taken(st.categories, Name, n);
    if st.categories[id].name == n {
      TakenByOne(st.categories, Name, id, other);
    }
  }

  /** `deleteCategoria`. */
  function DeleteCategory(st: Store, id: Id): (r: Result<Store>)
    ensures id !in st.categories ==> r == Err(NotFound)
    ensures id in st.categories && HasActiveProduct(st, id) ==> r == Err(InUse)
    ensures r.Ok? <==> id in st.categories && !HasActiveProduct(st, id)
    ensures r.Ok? ==> r.value == st.(categories := st.categories - {id})
    ensures r.Ok? && ActiveProductsPlaced(st) ==> ActiveProductsPlaced(r.value)
    ensures r.Ok? && Unique(st.categories, Name) ==> Unique(r.value.categories, Name)
  {
    if id !in st.categories then Err(NotFound)
    else if HasActiveProduct(st, id) then Err(InUse)
    else Ok(st.(categories := st.categories - {id}))
  }

  /** Deleting a category frees its name for a new one. */
  lemma {:induction false} DeleteFreesName(st: Store, id: Id)
    requires Unique(st.categories, Name)
    requires DeleteCategory(st, id).Ok? && st.categories[id].name != ""
    ensures !Taken(DeleteCategory(st, id).value.categories, Name, st.categories[id].name)
  {
    var n := st.categories[id].name;
    var rest := st.categories - {id};
    if Taken(rest, Name, n) {
      var q :| q in rest && Name(rest[q]) == Some(n);
      TakenByOne(st.categories, Name, id, q);
    }
  }
}

=== FILE: customers.dfy ===
/**
  Customers (`clienteController`): registration with a unique CPF, the
  partial update, the debt adjustment that never leaves a negative balance,
  and the two figures of the customer report — the total owed and the ten
  best customers.
 */
module Customers {
  import opened Base
  import opened Entities
  import opened Registry
  import opened Ranking

  function Cpf(c: Customer): Option<string> {
    c.cpf
  }

  /** No customer owes a negative amount. */
  predicate NoNegativeDebt(customers: map<Id, Customer>) {
    forall id :: id in customers ==> customers[id].debt >= 0.0
  }

  // ---------------------------------------------------------------------------
  // Registration

  datatype CustomerRequest = CustomerRequest(
    name: Option<string>,
    cpf: Option<string>,
    phone: Option<string>,
    email: Option<string>,
    address: Option<string>,
    creditLimit: Option<real>,
    notes: Option<string>)

  datatype Created = Created(store: Store, id: Id)

  function NewCustomer(req: CustomerRequest): Customer
    requires Given(req.name)
  {
    Customer(req.name.value, req.cpf, req.phone, req.email, req.address,
             req.creditLimit.GetOr(0.0), 0.0, req.notes, true)
  }

  /** `createCliente`: a name is mandatory and a non-empty CPF must be free.
      The new customer starts active, owing nothing, with a credit limit of 0
      unless one is sent. */
  function CreateCustomer(st: Store, req: CustomerRequest): (r: Result<Created>)
    ensures !Given(req.name) ==> r == Err(Required)
    ensures Given(req.name) && Given(req.cpf) && Taken(st.customers, Cpf, req.cpf.value) ==> r == Err(Duplicate)
    ensures r.Ok? <==> Given(req.name) && FreeFor(st.customers, Cpf, req.cpf)
    ensures r.Ok? ==> r.value.id !in st.customers && r.value.id in r.value.store.customers
    ensures r.Ok? ==>
      var c := r.value.store.customers[r.value.id];
      && r.value.store == st.(customers := st.customers[r.value.id := c])
      && c.name == req.name.value && c.cpf == req.cpf
      && c.creditLimit == req.creditLimit.GetOr(0.0)
      && c.debt == 0.0 && c.active
    ensures r.Ok? && Unique(st.customers, Cpf) ==> Unique(r.value.store.customers, Cpf)
    ensures r.Ok? && NoNegativeDebt(st.customers) ==> NoNegativeDebt(r.value.store.customers)
  {
    if !Given(req.name) then Err(Required)
    else if Given(req.cpf) && Taken(st.customers, Cpf, req.cpf.value) then Err(Duplicate)
    else
      var id := NextNumber(st.customers.Keys);
      AddKeepsUnique(st.customers, Cpf, id, NewCustomer(req));
      Ok(Created(st.(customers := st.customers[id := NewCustomer(req)]), id))
  }

  // ---------------------------------------------------------------------------
  // Partial update

  /** The update body. `None` means the field was not sent; for the nullable
      fields `Some(None)` means it was sent as null. */
  datatype CustomerPatch = CustomerPatch(
    name: Option<string>,
    cpf: Option<Option<string>>,
    phone: Option<Option<string>>,
    email: Option<Option<string>>,
    address: Option<Option<string>>,
    creditLimit: Option<real>,
    notes: Option<Option<string>>,
    active: Option<bool>)

  const NoChanges := CustomerPatch(None, None, None, None, None, None, None, None)

  /** The name only when non-empty, every other field whenever sent; the
      balance is never written by the update. */
  function Merge(c: Customer, patch: CustomerPatch): (m: Customer)
    ensures m.debt == c.debt
  {
    c.(name := if Given(patch.name) then patch.name.value else c.name,
       cpf := patch.cpf.GetOr(c.cpf),
       phone := patch.phone.GetOr(c.phone),
       email := patch.email.GetOr(c.email),
       address := patch.address.GetOr(c.address),
       creditLimit := patch.creditLimit.GetOr(c.creditLimit),
       notes := patch.notes.GetOr(c.notes),
       active := patch.active.GetOr(c.active))
  }

  /** An empty patch changes nothing, sending the same patch twice has the
      effect of sending it once, and a field that is not sent keeps its value. */
  lemma {:induction false} MergeLaws(c: Customer, patch: CustomerPatch)
    ensures Merge(c, NoChanges) == c
    ensures Merge(Merge(c, patch), patch) == Merge(c, patch)
    ensures patch.cpf.None? ==> Merge(c, patch).cpf == c.cpf
    ensures !Given(patch.name) ==> Merge(c, patch).name == c.name
  {
  }

  /** The CPF check of the update: a non-empty CPF that differs from the
      stored one must not be in use. */
  predicate CpfChangeTaken(st: Store, id: Id, patch: CustomerPatch)
    requires id in st.customers
  {
    patch.cpf.Some? && Given(patch.cpf.value) && patch.cpf.value != st.customers[id].cpf
    && Taken(st.customers, Cpf, patch.cpf.value.value)
  }

  /** `updateCliente`. */
  function UpdateCustomer(st: Store, id: Id, patch: CustomerPatch): (r: Result<Store>)
    ensures id !in st.customers ==> r == Err(NotFound)
    ensures id in st.customers && CpfChangeTaken(st, id, patch) ==> r == Err(Duplicate)
    ensures r.Ok? <==> id in st.customers && !CpfChangeTaken(st, id, patch)
    ensures r.Ok? ==> r.value == st.(customers := st.customers[id := Merge(st.customers[id], patch)])
    ensures r.Ok? && Unique(st.customers, Cpf) ==> Unique(r.value.customers, Cpf)
    ensures r.Ok? && NoNegativeDebt(st.customers) ==> NoNegativeDebt(r.value.customers)
  {
    if id !in st.customers then Err(NotFound)
    else if CpfChangeTaken(st, id, patch) then Err(Duplicate)
    else
      ReplaceKeepsUnique(st.customers, Cpf, id, Merge(st.customers[id], patch));
      Ok(st.(customers := st.customers[id := Merge(st.customers[id], patch)]))
  }

  /** Sending back a customer's own CPF is accepted although that CPF is in
      use — by this very customer. */
  lemma {:induction false} ResendOwnCpfAccepted(st: Store, id: Id)
    requires id in st.customers
    ensures UpdateCustomer(st, id, NoChanges.(cpf := Some(st.customers[id].cpf))).Ok?
  {
  }

  /** A CPF another customer holds is refused. */
  lemma {:induction false} UpdateRejectsTakenCpf(st: Store, id: Id, other: Id, cpf: string)
    requires id in st.customers && other in st.customers && other != id
    requires cpf != "" && st.customers[other].cpf == Some(cpf)
    requires Unique(st.customers, Cpf)
    ensures UpdateCustomer(st, id, NoChanges.(cpf := Some(Some(cpf)))) == Err(Duplicate)
  {
    assert Taken(st.customers, Cpf, cpf);
    if st.customers[id].cpf == Some(cpf) {
      TakenByOne(st.customers, Cpf, id, other);
    }
  }

  // ---------------------------------------------------------------------------
  // Debt adjustment

  datatype DebtAdjusted = DebtAdjusted(store: Store, before: real, after: real)

  /** The balance the adjustment writes: raised or lowered by `v`, and 0
      instead of anything negative. */
  function Clamp(x: real): (r: real)
    ensures r >= 0.0
    ensures x >= 0.0 ==> r == x
    ensures x < 0.0 ==> r == 0.0
  {
    if x < 0.0 then 0.0 else x
  }

  predicate KnownOperation(op: string) {
    op == "adicionar" || op == "subtrair"
  }

  /** `ajustarSaldoDevedor`. */
  function AdjustDebt(st: Store, id: Id, value: Option<real>, op: Option<string>): (r: Result<DebtAdjusted>)
    ensures !GivenNum(value) || !Given(op) ==> r == Err(Required)
    ensures GivenNum(value) && Given(op) && id !in st.customers ==> r == Err(NotFound)
    ensures GivenNum(value) && Given(op) && id in st.customers && !KnownOperation(op.value) ==> r == Err(InvalidValue)
    ensures r.Ok? <==> GivenNum(value) && Given(op) && id in st.customers && KnownOperation(op.value)
    ensures r.Ok? ==>
      var a := r.value;
      var c := st.customers[id];
      && a.before == c.debt
      && a.after >= 0.0
      && (op.value == "adicionar" ==> a.after == Clamp(c.debt + value.value))
      && (op.value == "subtrair" ==> a.after == Clamp(c.debt - value.value))
      && a.store == st.(customers := st.customers[id := c.(debt := a.after)])
    ensures r.Ok? && NoNegativeDebt(st.customers) ==> NoNegativeDebt(r.value.store.customers)
  {
    if !GivenNum(value) || !Given(op) then Err(Required)
    else if id !in st.customers then Err(NotFound)
    else if !KnownOperation(op.value) then Err(InvalidValue)
    else
      var c := st.customers[id];
      var next := if op.value == "adicionar" then c.debt + value.value else c.debt - value.value;
      Ok(DebtAdjusted(st.(customers := st.customers[id := c.(debt := Clamp(next))]), c.debt, Clamp(next)))
  }

  /** Adding a positive amount and then subtracting it restores a
      non-negative balance and leaves the store as it was. */
  lemma {:induction false} AddThenSubtractRestores(st: Store, id: Id, v: real)
    requires id in st.customers && st.customers[id].debt >= 0.0 && v > 0.0
    ensures var a := AdjustDebt(st, id, Some(v), Some("adicionar"));
      && a.Ok?
      && var b := AdjustDebt(a.value.store, id, Some(v), Some("subtrair"));
      && b.Ok? && b.value.store == st
  {
    var c := st.customers[id];
    var a := AdjustDebt(st, id, Some(v), Some("adicionar"));
    assert a.value.after == c.debt + v;
    var b := AdjustDebt(a.value.store, id, Some(v), Some("subtrair"));
    assert b.value.after == c.debt;
    assert b.value.store.customers == st.customers;
  }

  /** The other order does not restore: the clamp forgets what was cut off. */
  lemma {:induction false} SubtractThenAddOvershoots(st: Store, id: Id)
    requires id in st.customers && st.customers[id].debt == 10.0
    ensures var a := AdjustDebt(st, id, Some(30.0), Some("subtrair"));
      && a.Ok? && a.value.after == 0.0
      && var b := AdjustDebt(a.value.store, id, Some(30.0), Some("adicionar"));
      && b.Ok? && b.value.after == 30.0
  {
  }

  // ---------------------------------------------------------------------------
  // Report: total owed

  /** The report's debtor query: active customers owing a positive amount. */
  function Debtors(rows: seq<Customer>): (r: seq<Customer>)
    ensures |r| <= |rows|
    ensures forall c :: c in r <==> c in rows && c.active && c.debt > 0.0
  {
    if rows == [] then []
    else
      var rest := Debtors(rows[1..]);
      assert forall c :: c in rows <==> c == rows[0] || c in rows[1..];
      if rows[0].active && rows[0].debt > 0.0 then [rows[0]] + rest else rest
  }

  /** Sum of the balances of a listing. */
  function DebtSum(cs: seq<Customer>): real {
    if cs == [] then 0.0 else cs[0].debt + DebtSum(cs[1..])
  }

  /** `totalDebitos`: the balances of the debtors, added up. */
  function TotalDebt(rows: seq<Customer>): (t: real)
    ensures t >= 0.0
  {
    DebtorsSumNonNegative(Debtors(rows));
    DebtSum(Debtors(rows))
  }

  lemma {:induction false} DebtorsSumNonNegative(cs: seq<Customer>)
    requires forall c :: c in cs ==> c.debt > 0.0
    ensures DebtSum(cs) >= 0.0
  {
    if cs != [] {
      assert cs[0] in cs;
      assert forall c :: c in cs[1..] ==> c in cs;
      DebtorsSumNonNegative(cs[1..]);
    }
  }

  /** The reference figure: what every active customer owes. */
  function ActiveDebt(rows: seq<Customer>): real {
    if rows == [] then 0.0
    else (if rows[0].active then rows[0].debt else 0.0) + ActiveDebt(rows[1..])
  }

  /** While no balance is negative — which the adjustment guarantees — the
      report's total is everything active customers owe. */
  lemma {:induction false} TotalDebtIsActiveDebt(rows: seq<Customer>)
    requires forall i :: 0 <= i < |rows| ==> rows[i].debt >= 0.0
    ensures TotalDebt(rows) == ActiveDebt(rows)
  {
    if rows != [] {
      TotalDebtIsActiveDebt(rows[1..]);
      var rest := Debtors(rows[1..]);
      if rows[0].active && rows[0].debt > 0.0 {
        assert Debtors(rows) == [rows[0]] + rest;
        assert ([rows[0]] + rest)[1..] == rest;
      }
    }
  }

  // ---------------------------------------------------------------------------
  // Report: top customers

  /** A customer listed with all of their sales. */
  datatype CustomerRow = CustomerRow(id: Id, customer: Customer, sales: seq<Sale>)

  /** The amounts of the completed sales. */
  function CompletedFinals(sales: seq<Sale>): (r: seq<real>)
    ensures |r| <= |sales|
  {
    if sales == [] then []
    else
      var rest := CompletedFinals(sales[1..]);
      if sales[0].status == SaleCompleted then [sales[0].final] + rest else rest
  }

  lemma {:induction false} CompletedFinalsAppend(a: seq<Sale>, b: seq<Sale>)
    ensures CompletedFinals(a + b) == CompletedFinals(a) + CompletedFinals(b)
  {
    if a == [] {
      assert a + b == b;
    } else {
      assert (a + b)[1..] == a[1..] + b;
      CompletedFinalsAppend(a[1..], b);
    }
  }

  /** `total_comprado`: the amounts of the completed sales, added up. */
  function Purchased(sales: seq<Sale>): real {
    Sum(CompletedFinals(sales))
  }

  /** A new completed sale raises the customer's total by its amount; a
      pending or cancelled one does not count. */
  lemma {:induction false} PurchasedAppend(sales: seq<Sale>, s: Sale)
    ensures s.status == SaleCompleted ==> Purchased(sales + [s]) == Purchased(sales) + s.final
    ensures s.status != SaleCompleted ==> Purchased(sales + [s]) == Purchased(sales)
  {
    CompletedFinalsAppend(sales, [s]);
    assert [s][1..] == [];
    SumAppend(CompletedFinals(sales), CompletedFinals([s]));
  }

  function Score(row: CustomerRow): Scored<TopEntry> {
    var finals := CompletedFinals(row.sales);
    Scored(TopEntry(row.id, row.customer.name, row.customer.phone, |finals|), Sum(finals))
  }

  /** One score per active customer, in listing order. */
  function Scores(rows: seq<CustomerRow>): (r: seq<Scored<TopEntry>>)
    ensures forall s :: s in r ==> exists row :: row in rows && row.customer.active && s == Score(row)
    ensures forall row :: row in rows && row.customer.active ==> Score(row) in r
  {
    if rows == [] then []
    else
      var rest := Scores(rows[1..]);
      assert forall row :: row in rows[1..] ==> row in rows;
      if rows[0].customer.active then [Score(rows[0])] + rest else rest
  }

  /** `top_clientes`. */
  function TopCustomers(rows: seq<CustomerRow>): seq<Scored<TopEntry>> {
    Top10(Scores(rows))
  }

  /** The ranking holds at most ten active customers with a positive total,
      largest first, each with the total of their completed sales; an active
      customer with a positive total who is left out bought no more than
      anyone listed. */
  lemma {:induction false} TopCustomersRanked(rows: seq<CustomerRow>)
    ensures var r := TopCustomers(rows);
      && SortedDesc(r)
      && |r| <= 10
      && (forall s :: s in r ==> s.total > 0.0 && exists row :: row in rows && row.customer.active && s == Score(row))
      && (forall row, i :: row in rows && row.customer.active && Score(row).total > 0.0 && Score(row) !in r && 0 <= i < |r| ==>
            r[i].total >= Score(row).total)
  {
    Top10Members(Scores(rows));
  }
}

=== FILE: entities.dfy ===
/**
  The rows of the shop's store, as immutable values. The store keeps one map
  per table and the stock ledger as an append-only sequence.
 */
module Entities {
  import opened Base

  datatype Direction = Entrada | Saida

  /** The free-text note a movement carries. `StockChange` is the default note
      of a stock adjustment ("Ajuste de estoque: <before> → <after>"). */
  datatype Note = Absent | Text(text: string) | StockChange(before: real, after: real)

  /** One immutable ledger entry (`movimentoEstoque`). */
  datatype Movement = Movement(product: Id, direction: Direction, qty: real, reason: string, note: Note)

  const VENDA := "VENDA"
  const DEVOLUCAO := "DEVOLUCAO"
  const COMPRA := "COMPRA"
  const ESTOQUE_INICIAL := "ESTOQUE_INICIAL"

  datatype Product = Product(
    name: string,
    description: Option<string>,
    barcode: Option<string>,
    category: Id,
    supplier: Option<Id>,
    unit: string,
    cost: real,
    salePrice: real,
    margin: real,
    minStock: real,
    stock: real,
    weighed: bool,
    notes: Option<string>,
    active: bool)

  datatype SaleStatus = SalePending | SaleCompleted | SaleCancelled

  datatype SaleLine = SaleLine(product: Id, qty: real, unitPrice: real, total: real, weight: Option<real>)

  datatype Sale = Sale(
    number: string,
    customer: Option<Id>,
    seller: Id,
    payment: string,
    total: real,
    discount: real,
    final: real,
    notes: Option<string>,
    status: SaleStatus,
    lines: seq<SaleLine>)

  datatype PurchaseStatus = Pendente | Concluida | Cancelada

  datatype PurchaseLine = PurchaseLine(product: Id, qty: real, unitPrice: real, subtotal: real)

  datatype Purchase = Purchase(
    number: nat,
    supplier: Id,
    date: int,
    total: real,
    invoice: Option<string>,
    notes: Option<string>,
    status: PurchaseStatus,
    confirmedAt: Option<int>,
    lines: seq<PurchaseLine>)

  datatype Customer = Customer(
    name: string,
    cpf: Option<string>,
    phone: Option<string>,
    email: Option<string>,
    address: Option<string>,
    creditLimit: real,
    debt: real,
    notes: Option<string>,
    active: bool)

  datatype Supplier = Supplier(
    name: string,
    cnpj: Option<string>,
    phone: Option<string>,
    email: Option<string>,
    address: Option<string>,
    contact: Option<string>,
    notes: Option<string>,
    active: bool)

  /** One row of the single `categoria` table. The product side files
      products under it; the finance side files transactions under the rows
      a user owns (`usuario_id`), whose kind (`tipo`) is RECEITA or DESPESA.
      A category made by `createCategoria` has neither an owner nor a kind;
      the seeded product categories have the owner `admin` and the kind
      PRODUTO. */
  datatype Category = Category(
    name: string,
    description: Option<string>,
    active: bool,
    owner: Option<Id>,
    kind: Option<string>)

  /** A personal-finance transaction (`transacao`). */
  datatype Transaction = Transaction(
    owner: Id,
    description: string,
    value: real,
    kind: string,
    category: Id,
    date: int,
    payment: string,
    notes: Option<string>,
    tags: seq<string>)

  /** The persisted balance row of one user (`saldo`). */
  datatype Snapshot = Snapshot(
    current: real,
    income: real,
    expense: real,
    monthIncome: real,
    monthExpense: real,
    updatedAt: int)

  datatype Store = Store(
    products: map<Id, Product>,
    movements: seq<Movement>,
    sales: map<Id, Sale>,
    purchases: map<Id, Purchase>,
    customers: map<Id, Customer>,
    suppliers: map<Id, Supplier>,
    categories: map<Id, Category>,
    transactions: map<Id, Transaction>,
    balances: map<Id, Snapshot>)
}

=== FILE: finance.dfy ===
/**
  The owner's personal-finance tracker (`transactionController` over
  `TransacaoService` and `SaldoService`): income and expense transactions
  filed under the user's own categories, and the balance snapshot that is
  recomputed from the whole transaction set after every change.
 */
module Finance {
  import opened Base
  import opened Text
  import opened Entities
  import opened Aggregates

  const RECEITA := "RECEITA"
  const DESPESA := "DESPESA"

  // ---------------------------------------------------------------------------
  // Balance

  /** The amount a transaction adds to `user`'s total of `kind`, counting
      only those dated at or after `from`. */
  function AmountOf(user: Id, kind: string, from: Option<int>): Transaction -> real {
    (t: Transaction) =>
      if t.owner == user && t.kind == kind && (from.Some? ==> t.date >= from.value) then t.value else 0.0
  }

  function Total(txs: map<Id, Transaction>, user: Id, kind: string, from: Option<int>): real {
    SumOf(txs, AmountOf(user, kind, from))
  }

  /** The snapshot `SaldoService.atualizar` writes: all-time and month-to-date
      income and expense, and the balance as their difference. An absent
      sum is 0, which `SumOf` gives for no rows. */
  function Snap(txs: map<Id, Transaction>, user: Id, monthStart: int, now: int): (s: Snapshot)
    ensures s.current == s.income - s.expense
    ensures s.updatedAt == now
    ensures (forall k :: k in txs ==> txs[k].owner != user) ==>
      s.income == 0.0 && s.expense == 0.0 && s.monthIncome == 0.0 && s.monthExpense == 0.0
  {
    Unowned(txs, user, RECEITA, None);
    Unowned(txs, user, DESPESA, None);
    Unowned(txs, user, RECEITA, Some(monthStart));
    Unowned(txs, user, DESPESA, Some(monthStart));
    var income := Total(txs, user, RECEITA, None);
    var expense := Total(txs, user, DESPESA, None);
    Snapshot(income - expense, income, expense,
             Total(txs, user, RECEITA, Some(monthStart)), Total(txs, user, DESPESA, Some(monthStart)), now)
  }

  lemma {:induction false} Unowned(txs: map<Id, Transaction>, user: Id, kind: string, from: Option<int>)
    ensures (forall k :: k in txs ==> txs[k].owner != user) ==> Total(txs, user, kind, from) == 0.0
  {
    if forall k :: k in txs ==> txs[k].owner != user {
      SumOfZero(txs, AmountOf(user, kind, from));
    }
  }

  /** `SaldoService.atualizar`: upserts the user's snapshot; no other row
      changes. */
  function Recompute(b: Store, user: Id, monthStart: int, now: int): (r: Store)
    ensures r == b.(balances := r.balances)
    ensures user in r.balances && r.balances.Keys == b.balances.Keys + {user}
    ensures forall u :: u in b.balances && u != user ==> r.balances[u] == b.balances[u]
    ensures Fresh(r, user, monthStart)
  {
    b.(balances := b.balances[user := Snap(b.transactions, user, monthStart, now)])
  }

  /** The user's snapshot agrees with their transactions. */
  predicate Fresh(b: Store, user: Id, monthStart: int) {
    user in b.balances && b.balances[user] == Snap(b.transactions, user, monthStart, b.balances[user].updatedAt)
  }

  /** Recomputing twice with no change in between gives the same snapshot,
      and the snapshot depends on nothing but the transactions. */
  lemma {:induction false} RecomputeIdempotent(b: Store, c: Store, user: Id, monthStart: int, now: int)
    requires c.transactions == b.transactions
    ensures Recompute(Recompute(b, user, monthStart, now), user, monthStart, now) == Recompute(b, user, monthStart, now)
    ensures Recompute(b, user, monthStart, now).balances[user] == Recompute(c, user, monthStart, now).balances[user]
  {
  }

  /** While every amount is positive — which creation guarantees — the
      month's figures are part of the all-time ones. */
  lemma {:induction false} MonthWithinTotal(txs: map<Id, Transaction>, user: Id, monthStart: int, now: int)
    requires forall k :: k in txs ==> txs[k].value > 0.0
    ensures var s := Snap(txs, user, monthStart, now);
      && 0.0 <= s.monthIncome <= s.income
      && 0.0 <= s.monthExpense <= s.expense
  {
    SumOfMonotone(txs, AmountOf(user, RECEITA, Some(monthStart)), AmountOf(user, RECEITA, None));
    SumOfMonotone(txs, AmountOf(user, DESPESA, Some(monthStart)), AmountOf(user, DESPESA, None));
    SumOfNonNegative(txs, AmountOf(user, RECEITA, Some(monthStart)));
    SumOfNonNegative(txs, AmountOf(user, DESPESA, Some(monthStart)));
  }

  /** `SaldoService.buscarOuCriar`: the user's existing snapshot, or exactly
      one new all-zero one. */
  function FindOrCreate(b: Store, user: Id, now: int): (r: (Store, Snapshot))
    ensures user in b.balances ==> r.0 == b && r.1 == b.balances[user]
    ensures user !in b.balances ==>
      && r.1 == Snapshot(0.0, 0.0, 0.0, 0.0, 0.0, now)
      && r.0 == b.(balances := b.balances[user := r.1])
    ensures user in r.0.balances && r.0.balances[user] == r.1
  {
    if user in b.balances then (b, b.balances[user])
    else
      var s := Snapshot(0.0, 0.0, 0.0, 0.0, 0.0, now);
      (b.(balances := b.balances[user := s]), s)
  }

  /** Finding a second time creates nothing more. */
  lemma {:induction false} FindOrCreateOnce(b: Store, user: Id, now: int, later: int)
    ensures var first := FindOrCreate(b, user, now);
      FindOrCreate(first.0, user, later) == first
  {
  }

  // ---------------------------------------------------------------------------
  // Listing

  /** The list filters as the service receives them; `None` or an empty
      string means the filter is off. The period applies only when both
      bounds are given. */
  datatype ListFilter = ListFilter(kind: Option<string>, category: Option<Id>, start: Option<int>, end: Option<int>)

  const NoFilter := ListFilter(None, None, None, None)

  predicate Matches(t: Transaction, user: Id, f: ListFilter) {
    && t.owner == user
    && (Given(f.kind) ==> t.kind == f.kind.value)
    && (f.category.Some? ==> t.category == f.category.value)
    && (f.start.Some? && f.end.Some? ==> f.start.value <= t.date <= f.end.value)
  }

  /** `TransacaoService.listarPorUsuario`, as the set of listed rows. */
  function ListTransactions(b: Store, user: Id, f: ListFilter): (ids: set<Id>)
    ensures forall k :: k in ids ==> k in b.transactions && b.transactions[k].owner == user
    ensures forall k :: k in ids <==> k in b.transactions && Matches(b.transactions[k], user, f)
  {
    set k | k in b.transactions && Matches(b.transactions[k], user, f)
  }

  /** With no filter the list is every transaction of the user; turning a
      filter on only removes rows; one bound alone filters nothing. */
  lemma {:induction false} ListLaws(b: Store, user: Id, f: ListFilter)
    ensures forall k :: k in ListTransactions(b, user, NoFilter) <==> k in b.transactions && b.transactions[k].owner == user
    ensures ListTransactions(b, user, f) <= ListTransactions(b, user, NoFilter)
    ensures f.end.None? ==> ListTransactions(b, user, f) == ListTransactions(b, user, f.(start := None))
  {
  }

  // ---------------------------------------------------------------------------
  // Creation

  datatype TxRequest = TxRequest(
    description: Option<string>,
    value: Option<real>,
    kind: Option<string>,
    category: Option<Id>,
    date: Option<int>,
    payment: Option<string>,
    notes: Option<string>,
    tags: Option<seq<string>>)

  /** `CategoriaService.buscarPorId`: the category, if it exists and is the
      user's. */
  predicate Owned(b: Store, user: Id, c: Id) {
    c in b.categories && b.categories[c].owner == Some(user)
  }

  predicate HasRequired(req: TxRequest) {
    Given(req.description) && GivenNum(req.value) && Given(req.kind) && req.category.Some?
  }

  /** Every check `createTransacao` makes, in its order. */
  predicate CreateAccepted(b: Store, user: Id, req: TxRequest) {
    && HasRequired(req)
    && req.value.value > 0.0
    && Owned(b, user, req.category.value)
    && b.categories[req.category.value].kind == Some(Upper(req.kind.value))
  }

  /** The stored transaction: kind and payment in upper case, cash when no
      payment is given, today when no date is, no tags when none are. */
  function NewTransaction(user: Id, req: TxRequest, now: int): Transaction
    requires HasRequired(req)
  {
    Transaction(user, req.description.value, req.value.value, Upper(req.kind.value), req.category.value,
                req.date.GetOr(now), if Given(req.payment) then Upper(req.payment.value) else "DINHEIRO",
                req.notes, req.tags.GetOr([]))
  }

  datatype Created = Created(store: Store, id: Id)

  /** `createTransacao`, followed by the balance recompute. */
  function CreateTransaction(b: Store, user: Id, req: TxRequest, now: int, monthStart: int): (r: Result<Created>)
    ensures !HasRequired(req) ==> r == Err(Required)
    ensures HasRequired(req) && req.value.value <= 0.0 ==> r == Err(InvalidValue)
    ensures HasRequired(req) && req.value.value > 0.0 && !Owned(b, user, req.category.value) ==> r == Err(NotFound)
    ensures HasRequired(req) && req.value.value > 0.0 && Owned(b, user, req.category.value) ==>
      (b.categories[req.category.value].kind != Some(Upper(req.kind.value)) ==> r == Err(KindMismatch))
    ensures r.Ok? <==> CreateAccepted(b, user, req)
    ensures r.Ok? ==>
      var t := NewTransaction(user, req, now);
      && r.value.id !in b.transactions
      && r.value.store.transactions == b.transactions[r.value.id := t]
      && r.value.store == b.(transactions := r.value.store.transactions, balances := r.value.store.balances)
      && t.value > 0.0 && Some(t.kind) == b.categories[t.category].kind
      && Fresh(r.value.store, user, monthStart)
  {
    if !HasRequired(req) then Err(Required)
    else if req.value.value <= 0.0 then Err(InvalidValue)
    else if !Owned(b, user, req.category.value) then Err(NotFound)
    else if b.categories[req.category.value].kind != Some(Upper(req.kind.value)) then Err(KindMismatch)
    else
      var id := NextNumber(b.transactions.Keys);
      var stored := b.(transactions := b.transactions[id := NewTransaction(user, req, now)]);
      Ok(Created(Recompute(stored, user, monthStart, now), id))
  }

  const PRODUTO := "PRODUTO"

  /** A product category the user owns (the seed files its product
      categories under the admin) is found by the ownership check, and then
      refused because its kind is PRODUTO. */
  lemma {:induction false} ProductCategoryMismatch(b: Store, user: Id, req: TxRequest, now: int, monthStart: int)
    requires HasRequired(req) && req.value.value > 0.0
    requires Owned(b, user, req.category.value) && b.categories[req.category.value].kind == Some(PRODUTO)
    requires Upper(req.kind.value) != PRODUTO
    ensures CreateTransaction(b, user, req, now, monthStart) == Err(KindMismatch)
  {
  }

  /** A new income raises the user's income and balance by its value; a
      new expense raises the expense and lowers the balance by its value. */
  lemma {:induction false} CreateMovesBalance(b: Store, user: Id, req: TxRequest, now: int, monthStart: int)
    requires CreateTransaction(b, user, req, now, monthStart).Ok?
    ensures var before := Snap(b.transactions, user, monthStart, now);
      var c := CreateTransaction(b, user, req, now, monthStart).value;
      var after := c.store.balances[user];
      var v := req.value.value;
      && (Upper(req.kind.value) == RECEITA ==>
            after.income == before.income + v && after.current == before.current + v && after.expense == before.expense)
      && (Upper(req.kind.value) == DESPESA ==>
            after.expense == before.expense + v && after.current == before.current - v && after.income == before.income)
  {
    var c := CreateTransaction(b, user, req, now, monthStart).value;
    var t := NewTransaction(user, req, now);
    SumOfUpdate(b.transactions, AmountOf(user, RECEITA, None), c.id, t);
    SumOfUpdate(b.transactions, AmountOf(user, DESPESA, None), c.id, t);
  }

  /** Every stored transaction has a positive value and the kind of its
      category. */
  predicate WellFiled(b: Store) {
    forall k :: k in b.transactions ==>
      && b.transactions[k].value > 0.0
      && b.transactions[k].category in b.categories
      && Some(b.transactions[k].kind) == b.categories[b.transactions[k].category].kind
  }

  lemma {:induction false} CreateKeepsWellFiled(b: Store, user: Id, req: TxRequest, now: int, monthStart: int)
    requires WellFiled(b)
    requires CreateTransaction(b, user, req, now, monthStart).Ok?
    ensures WellFiled(CreateTransaction(b, user, req, now, monthStart).value.store)
  {
  }

  // ---------------------------------------------------------------------------
  // Update

  /** The update body; every field but the notes is written only when
      truthy, the notes whenever sent (`Some(None)` is null). */
  datatype TxPatch = TxPatch(
    description: Option<string>,
    value: Option<real>,
    kind: Option<string>,
    category: Option<Id>,
    date: Option<int>,
    payment: Option<string>,
    notes: Option<Option<string>>,
    tags: Option<seq<string>>)

  const NoChanges := TxPatch(None, None, None, None, None, None, None, None)

  function Merge(t: Transaction, patch: TxPatch): Transaction {
    t.(description := if Given(patch.description) then patch.description.value else t.description,
       value := if GivenNum(patch.value) then patch.value.value else t.value,
       kind := if Given(patch.kind) then Upper(patch.kind.value) else t.kind,
       category := patch.category.GetOr(t.category),
       date := patch.date.GetOr(t.date),
       payment := if Given(patch.payment) then Upper(patch.payment.value) else t.payment,
       notes := patch.notes.GetOr(t.notes),
       tags := patch.tags.GetOr(t.tags))
  }

  /** An empty patch changes nothing, sending the same patch twice has the
      effect of sending it once, and the owner never changes. */
  lemma {:induction false} MergeLaws(t: Transaction, patch: TxPatch)
    ensures Merge(t, NoChanges) == t
    ensures Merge(Merge(t, patch), patch) == Merge(t, patch)
    ensures Merge(t, patch).owner == t.owner
  {
    if Given(patch.kind) {
      UpperIdempotent(patch.kind.value);
    }
    if Given(patch.payment) {
      UpperIdempotent(patch.payment.value);
    }
  }

  /** The user's own transaction. */
  predicate Mine(b: Store, user: Id, id: Id) {
    id in b.transactions && b.transactions[id].owner == user
  }

  /** The checks `updateTransacao` makes when the category changes, then the
      write itself: any sent tag list (an array is always truthy) is passed
      unconverted to the string column, which the database refuses. */
  function PatchError(b: Store, user: Id, id: Id, patch: TxPatch): Option<Error>
    requires Mine(b, user, id)
  {
    if patch.category.Some? && patch.category.value != b.transactions[id].category && !Owned(b, user, patch.category.value) then
      Some(NotFound)
    else if patch.category.Some? && patch.category.value != b.transactions[id].category
            && Given(patch.kind) && b.categories[patch.category.value].kind != Some(Upper(patch.kind.value)) then
      Some(KindMismatch)
    else if patch.tags.Some? then Some(ServerError)
    else None
  }

  /** `updateTransacao`, followed by the balance recompute. */
  function UpdateTransaction(b: Store, user: Id, id: Id, patch: TxPatch, now: int, monthStart: int): (r: Result<Store>)
    ensures !Mine(b, user, id) ==> r == Err(NotFound)
    ensures r.Ok? <==> Mine(b, user, id) && PatchError(b, user, id, patch).None?
    ensures r.Err? && Mine(b, user, id) ==> Some(r.error) == PatchError(b, user, id, patch)
    ensures Mine(b, user, id) && patch.tags.Some? ==> r.Err?
    ensures r.Ok? ==>
      && r.value.transactions == b.transactions[id := Merge(b.transactions[id], patch)]
      && r.value == b.(transactions := r.value.transactions, balances := r.value.balances)
      && Fresh(r.value, user, monthStart)
  {
    if !Mine(b, user, id) then Err(NotFound)
    else
      match PatchError(b, user, id, patch)
      case Some(e) => Err(e)
      case None =>
        Ok(Recompute(b.(transactions := b.transactions[id := Merge(b.transactions[id], patch)]), user, monthStart, now))
  }

  /** The update never checks the sign of the value: a well-filed book can
      end up with a negative amount. */
  lemma {:induction false} UpdateCanStoreNegative(b: Store, user: Id, id: Id, now: int, monthStart: int)
    requires WellFiled(b) && Mine(b, user, id)
    ensures !WellFiled(UpdateTransaction(b, user, id, NoChanges.(value := Some(-5.0)), now, monthStart).value)
  {
    var r := UpdateTransaction(b, user, id, NoChanges.(value := Some(-5.0)), now, monthStart).value;
    assert r.transactions[id].value == -5.0;
  }

  /** The update checks the kind against the category only when the category
      changes: an expense can be turned into an income filed under its
      expense category. */
  lemma {:induction false} UpdateCanMisfile(b: Store, user: Id, id: Id, now: int, monthStart: int)
    requires WellFiled(b) && Mine(b, user, id) && b.transactions[id].kind == DESPESA
    ensures !WellFiled(UpdateTransaction(b, user, id, NoChanges.(kind := Some(RECEITA)), now, monthStart).value)
  {
    var s := UpdateTransaction(b, user, id, NoChanges.(kind := Some(RECEITA)), now, monthStart).value;
    assert s.transactions[id].kind[0] == 'R' != DESPESA[0];
  }

  /** Moving a transaction to a product category the user owns, without
      sending a kind, is accepted and files it under PRODUTO. */
  lemma {:induction false} UpdateIntoProductCategory(b: Store, user: Id, id: Id, c: Id, now: int, monthStart: int)
    requires Mine(b, user, id) && c != b.transactions[id].category
    requires Owned(b, user, c) && b.categories[c].kind == Some(PRODUTO)
    requires b.transactions[id].kind != PRODUTO
    ensures UpdateTransaction(b, user, id, NoChanges.(category := Some(c)), now, monthStart).Ok?
    ensures !WellFiled(UpdateTransaction(b, user, id, NoChanges.(category := Some(c)), now, monthStart).value)
  {
    var r := UpdateTransaction(b, user, id, NoChanges.(category := Some(c)), now, monthStart).value;
    assert r.transactions[id].category == c;
  }

  // ---------------------------------------------------------------------------
  // Deletion

  /** `deleteTransacao`, followed by the balance recompute. */
  function DeleteTransaction(b: Store, user: Id, id: Id, now: int, monthStart: int): (r: Result<Store>)
    ensures r.Ok? <==> Mine(b, user, id)
    ensures r.Err? ==> r.error == NotFound
    ensures r.Ok? ==>
      && r.value.transactions == b.transactions - {id}
      && r.value == b.(transactions := r.value.transactions, balances := r.value.balances)
      && Fresh(r.value, user, monthStart)
  {
    if !Mine(b, user, id) then Err(NotFound)
    else Ok(Recompute(b.(transactions := b.transactions - {id}), user, monthStart, now))
  }

  /** Creating a transaction and deleting it again leaves the user's figures
      as they were. */
  lemma {:induction false} CreateThenDeleteRestoresBalance(b: Store, user: Id, req: TxRequest, now: int, monthStart: int)
    requires CreateTransaction(b, user, req, now, monthStart).Ok?
    ensures var c := CreateTransaction(b, user, req, now, monthStart).value;
      && DeleteTransaction(c.store, user, c.id, now, monthStart).Ok?
      && DeleteTransaction(c.store, user, c.id, now, monthStart).value.transactions == b.transactions
      && DeleteTransaction(c.store, user, c.id, now, monthStart).value.balances[user] == Snap(b.transactions, user, monthStart, now)
  {
    var c := CreateTransaction(b, user, req, now, monthStart).value;
    assert b.transactions[c.id := NewTransaction(user, req, now)] - {c.id} == b.transactions;
  }
}

=== FILE: js_object.dfy ===
/**
  The two properties of a plain JavaScript object (`{}`) that decide how a
  `reduce` into one behaves: the names it inherits from `Object.prototype`,
  and the order in which its own keys are listed (section 10.1.11.1 of
  ECMA-262, OrdinaryOwnPropertyKeys: array indices first in ascending
  numeric order, then the other string keys in the order they were added).
 */
module JsObject {

  /** The names every `{}` inherits from `Object.prototype` in Node.js; for
      each of them `acc[name]` is already truthy before anything is stored. */
  const InheritedNames: set<string> := {
    "constructor", "__proto__", "__defineGetter__", "__defineSetter__",
    "__lookupGetter__", "__lookupSetter__", "hasOwnProperty", "isPrototypeOf",
    "propertyIsEnumerable", "toString", "toLocaleString", "valueOf"
  }

  predicate IsDigit(c: char) {
    '0' <= c <= '9'
  }

  predicate AllDigits(s: string) {
    forall i :: 0 <= i < |s| ==> IsDigit(s[i])
  }

  /** The value of a string of decimal digits. */
  function DigitsValue(s: string): nat
    requires AllDigits(s)
  {
    if s == [] then 0 else DigitsValue(s[..|s| - 1]) * 10 + (s[|s| - 1] as int - '0' as int)
  }

  /** An array index: the canonical decimal form (no leading zero) of an
      integer below 2^32 - 1. */
  predicate IsArrayIndex(s: string) {
    && |s| > 0
    && AllDigits(s)
    && (s[0] == '0' ==> |s| == 1)
    && DigitsValue(s) < 0xFFFF_FFFF
  }

  /** The numeric value of an array-index name; 0 for any other name. */
  function IndexValue(s: string): nat {
    if AllDigits(s) then DigitsValue(s) else 0
  }
}

=== FILE: ledger.dfy ===
/**
  The stock ledger and its relation to the stock column. Every inventory
  operation that moves goods (sale, sale cancellation, purchase confirmation)
  writes one movement per line and changes the line's product stock by the
  same signed amount; this module states that once, for any batch of
  movements.
 */
module Ledger {
  import opened Base
  import opened Entities

  /** A quantity with the sign its direction gives it: + for ENTRADA, − for SAIDA. */
  function Delta(dir: Direction, qty: real): real {
    if dir == Entrada then qty else -qty
  }

  /** The stock change a movement records. */
  function Signed(m: Movement): real {
    Delta(m.direction, m.qty)
  }

  /** The net stock change the movements record for product `p`. */
  function NetFor(ms: seq<Movement>, p: Id): real {
    if ms == [] then 0.0
    else (if ms[0].product == p then Signed(ms[0]) else 0.0) + NetFor(ms[1..], p)
  }

  lemma {:induction false} NetAppend(a: seq<Movement>, b: seq<Movement>, p: Id)
    ensures NetFor(a + b, p) == NetFor(a, p) + NetFor(b, p)
  {
    if a == [] {
      assert a + b == b;
    } else {
      assert (a + b)[1..] == a[1..] + b;
      NetAppend(a[1..], b, p);
    }
  }

  /** Movements that never name `p` record no change for it. */
  lemma {:induction false} NetForAbsent(ms: seq<Movement>, p: Id)
    requires forall i :: 0 <= i < |ms| ==> ms[i].product != p
    ensures NetFor(ms, p) == 0.0
  {
    if ms != [] {
      NetForAbsent(ms[1..], p);
    }
  }

  predicate AllKnown(products: map<Id, Product>, ms: seq<Movement>) {
    forall i :: 0 <= i < |ms| ==> ms[i].product in products
  }

  /** Applies the movements to the stock column in order, one row update per
      movement (`estoque_atual: { increment | decrement: qty }`). */
  function ApplyMovements(products: map<Id, Product>, ms: seq<Movement>): (r: map<Id, Product>)
    requires AllKnown(products, ms)
    ensures r.Keys == products.Keys
    ensures forall p :: p in r ==> r[p] == products[p].(stock := products[p].stock + NetFor(ms, p))
    decreases |ms|
  {
    if ms == [] then products
    else
      var m := ms[0];
      var bumped := products[m.product := products[m.product].(stock := products[m.product].stock + Signed(m))];
      ApplyMovements(bumped, ms[1..])
  }

  /** A (product, quantity) pair taken from a sale or purchase line. */
  datatype Flow = Flow(product: Id, qty: real)

  /** Total quantity the lines carry for product `p`. */
  function QtyFor(fs: seq<Flow>, p: Id): real {
    if fs == [] then 0.0
    else (if fs[0].product == p then fs[0].qty else 0.0) + QtyFor(fs[1..], p)
  }

  /** One movement per line, in line order, all with the same direction,
      reason and note. */
  function Emit(fs: seq<Flow>, dir: Direction, reason: string, note: Note): (ms: seq<Movement>)
    ensures |ms| == |fs|
    ensures forall i :: 0 <= i < |fs| ==> ms[i] == Movement(fs[i].product, dir, fs[i].qty, reason, note)
  {
    if fs == [] then []
    else [Movement(fs[0].product, dir, fs[0].qty, reason, note)] + Emit(fs[1..], dir, reason, note)
  }

  /** The movements written for a batch of lines record, for every product,
      exactly the lines' total quantity for it, with the batch's sign. */
  lemma {:induction false} EmitNet(fs: seq<Flow>, dir: Direction, reason: string, note: Note, p: Id)
    ensures NetFor(Emit(fs, dir, reason, note), p) == Delta(dir, QtyFor(fs, p))
  {
    if fs != [] {
      var ms := Emit(fs, dir, reason, note);
      assert ms[1..] == Emit(fs[1..], dir, reason, note);
      EmitNet(fs[1..], dir, reason, note, p);
    }
  }

  /** A product absent from every line keeps its stock. */
  lemma {:induction false} QtyForAbsent(fs: seq<Flow>, p: Id)
    requires forall i :: 0 <= i < |fs| ==> fs[i].product != p
    ensures QtyFor(fs, p) == 0.0
  {
    if fs != [] {
      QtyForAbsent(fs[1..], p);
    }
  }

  /** With at most one line for `p`, the total for `p` is that line's quantity. */
  lemma {:induction false} QtyForSingle(fs: seq<Flow>, p: Id, k: nat)
    requires k < |fs| && fs[k].product == p
    requires forall i :: 0 <= i < |fs| && i != k ==> fs[i].product != p
    ensures QtyFor(fs, p) == fs[k].qty
  {
    if k == 0 {
      QtyForAbsent(fs[1..], p);
    } else {
      QtyForSingle(fs[1..], p, k - 1);
    }
  }

  /** The stock column agrees with the ledger: every movement names a known
      product and each product's stock is the net of its movements. This is
      the reconciliation a rebuild would replay the ledger to check. */
  predicate Reconciled(st: Store) {
    && AllKnown(st.products, st.movements)
    && forall p :: p in st.products ==> st.products[p].stock == NetFor(st.movements, p)
  }

  /** Appending a batch of movements and applying the same batch to the stock
      column keeps the store reconciled. */
  lemma {:induction false} ApplyKeepsReconciled(st: Store, ms: seq<Movement>)
    requires AllKnown(st.products, ms)
    ensures Reconciled(st) ==> Reconciled(st.(products := ApplyMovements(st.products, ms), movements := st.movements + ms))
  {
    if Reconciled(st) {
      var after := st.(products := ApplyMovements(st.products, ms), movements := st.movements + ms);
      forall p | p in after.products
        ensures after.products[p].stock == NetFor(after.movements, p)
      {
        NetAppend(st.movements, ms, p);
      }
    }
  }

  /** `after` is `before` with each product's stock moved by the lines' total
      for it, in direction `dir`, and nothing else changed. */
  predicate Moved(before: map<Id, Product>, after: map<Id, Product>, fs: seq<Flow>, dir: Direction) {
    && after.Keys == before.Keys
    && forall p :: p in before ==> after[p] == before[p].(stock := before[p].stock + Delta(dir, QtyFor(fs, p)))
  }

  /** Taking a batch of lines out of stock and putting the same batch back
      gives the original product table. */
  lemma {:induction false} TakeThenReturn(before: map<Id, Product>, mid: map<Id, Product>, after: map<Id, Product>, fs: seq<Flow>)
    requires Moved(before, mid, fs, Saida)
    requires Moved(mid, after, fs, Entrada)
    ensures after == before
  {
  }

  predicate FlowsKnown(products: map<Id, Product>, fs: seq<Flow>) {
    forall i :: 0 <= i < |fs| ==> fs[i].product in products
  }

  /** Posts a batch of lines in one transaction: one movement per line is
      appended to the ledger and each product's stock moves by the lines'
      total for it. Only the stock column and the ledger change, and a
      reconciled store stays reconciled. */
  function Post(st: Store, fs: seq<Flow>, dir: Direction, reason: string, note: Note): (r: Store)
    requires FlowsKnown(st.products, fs)
    ensures Moved(st.products, r.products, fs, dir)
    ensures r.movements == st.movements + Emit(fs, dir, reason, note)
    ensures r.sales == st.sales && r.purchases == st.purchases && r.customers == st.customers
    ensures r.suppliers == st.suppliers && r.categories == st.categories
    ensures Reconciled(st) ==> Reconciled(r)
  {
    var ms := Emit(fs, dir, reason, note);
    assert AllKnown(st.products, ms);
    forall p | p in st.products
      ensures NetFor(ms, p) == Delta(dir, QtyFor(fs, p))
    {
      EmitNet(fs, dir, reason, note, p);
    }
    var r := st.(products := ApplyMovements(st.products, ms), movements := st.movements + ms);
    ApplyKeepsReconciled(st, ms);
    r
  }

  /** Posts a single movement: its product's stock moves by the signed
      quantity and the movement is appended. */
  function PostOne(st: Store, m: Movement): (r: Store)
    requires m.product in st.products
    ensures r.products == st.products[m.product := st.products[m.product].(stock := st.products[m.product].stock + Signed(m))]
    ensures r.movements == st.movements + [m]
    ensures r.sales == st.sales && r.purchases == st.purchases && r.customers == st.customers
    ensures r.suppliers == st.suppliers && r.categories == st.categories
    ensures Reconciled(st) ==> Reconciled(r)
  {
    assert AllKnown(st.products, [m]);
    ApplyKeepsReconciled(st, [m]);
    assert [m][1..] == [];
    st.(products := ApplyMovements(st.products, [m]), movements := st.movements + [m])
  }
}

=== FILE: point_of_sale.dfy ===
/**
  The point-of-sale page (`POSPage`): a cart of product lines built from the
  loaded product list, the cart totals, and the checkout that turns the cart
  into the sale request the sales handler receives.

  A line keeps the product row it was added from; quantities are whole
  numbers because the page only steps them by one and reads the quantity box
  with `parseInt`.
 */
module PointOfSale {
  import opened Base
  import opened Text
  import opened Catalog
  import Entities
  import Sales

  datatype CartLine = CartLine(product: Listed, qty: int, subtotal: real)

  // ---------------------------------------------------------------------------
  // What a cart built by this page looks like

  predicate OneLinePerProduct(cart: seq<CartLine>) {
    forall i, j :: 0 <= i < j < |cart| ==> cart[i].product.id != cart[j].product.id
  }

  /** The index of the first line of product `id` (`cart.find`). */
  function LineOf(cart: seq<CartLine>, id: Id): (r: Option<nat>)
    ensures r.Some? ==> r.value < |cart| && cart[r.value].product.id == id
    ensures r.Some? ==> forall j :: 0 <= j < r.value ==> cart[j].product.id != id
    ensures r.None? <==> forall j :: 0 <= j < |cart| ==> cart[j].product.id != id
  {
    if cart == [] then None
    else if cart[0].product.id == id then Some(0)
    else
      match LineOf(cart[1..], id)
      case None => None
      case Some(j) => Some(j + 1)
  }

  /** Carts with the same products at the same places have the same first
      line for every id. */
  lemma {:induction false} LineOfSameProducts(xs: seq<CartLine>, ys: seq<CartLine>, id: Id)
    requires |xs| == |ys|
    requires forall i :: 0 <= i < |xs| ==> xs[i].product.id == ys[i].product.id
    ensures LineOf(xs, id) == LineOf(ys, id)
  {
    if xs != [] {
      LineOfSameProducts(xs[1..], ys[1..], id);
    }
  }

  /** Appending a line does not move an earlier match; otherwise the new
      line is the match when it is of product `id`. */
  lemma {:induction false} LineOfAppend(cart: seq<CartLine>, l: CartLine, id: Id)
    ensures LineOf(cart + [l], id) ==
      if LineOf(cart, id).Some? then LineOf(cart, id)
      else if l.product.id == id then Some(|cart|)
      else None
  {
    if cart == [] {
      assert cart + [l] == [l];
      assert [l][1..] == [];
    } else {
      assert (cart + [l])[1..] == cart[1..] + [l];
      LineOfAppend(cart[1..], l, id);
    }
  }

  /** Filtering a cart keeps one line per product. */
  lemma {:induction false} KeepOneLine(cart: seq<CartLine>, P: CartLine -> bool)
    requires OneLinePerProduct(cart)
    ensures OneLinePerProduct(Keep(cart, P))
  {
    if cart != [] {
      var rest := cart[1..];
      assert OneLinePerProduct(rest) by {
        forall i, j | 0 <= i < j < |rest|
          ensures rest[i].product.id != rest[j].product.id
        {
          assert rest[i] == cart[i + 1] && rest[j] == cart[j + 1];
        }
      }
      KeepOneLine(rest, P);
      if P(cart[0]) {
        var kept := Keep(rest, P);
        forall y | y in kept
          ensures y.product.id != cart[0].product.id
        {
          var j :| 0 <= j < |rest| && rest[j] == y;
          assert cart[j + 1] == y;
        }
        var r := [cart[0]] + kept;
        forall i, j | 0 <= i < j < |r|
          ensures r[i].product.id != r[j].product.id
        {
          assert r[j] == kept[j - 1];
          if i > 0 {
            assert r[i] == kept[i - 1];
          }
        }
      }
    }
  }

  /** Every subtotal is the quantity times the line's sale price. */
  predicate Priced(cart: seq<CartLine>) {
    forall l :: l in cart ==> l.subtotal == l.qty as real * l.product.price
  }

  /** A line's product is the row the product list holds for its id, and the
      quantity does not exceed that row's stock. */
  predicate Covered(catalog: seq<Listed>, l: CartLine) {
    && Find(catalog, l.product.id) == Some(l.product)
    && 1 <= l.qty
    && l.qty as real <= l.product.stock
  }

  predicate WithinStock(cart: seq<CartLine>, catalog: seq<Listed>) {
    forall l :: l in cart ==> Covered(catalog, l)
  }

  predicate WellFormed(cart: seq<CartLine>, catalog: seq<Listed>) {
    OneLinePerProduct(cart) && Priced(cart) && WithinStock(cart, catalog)
  }

  /** Stock as the database keeps it for unit-sold products: whole numbers. */
  predicate WholeStock(catalog: seq<Listed>) {
    forall p :: p in catalog ==> p.stock == p.stock.Floor as real
  }

  predicate InCart(cart: seq<CartLine>, id: Id) {
    LineOf(cart, id).Some?
  }

  /** The quantity of product `id` in the cart; 0 when it has no line. */
  function Quantity(cart: seq<CartLine>, id: Id): int {
    match LineOf(cart, id)
    case None => 0
    case Some(k) => cart[k].qty
  }

  // ---------------------------------------------------------------------------
  // Cart operations

  /** `removeFromCart`: every line of product `id` goes, the rest stay in
      order. */
  function Remove(cart: seq<CartLine>, id: Id): (r: seq<CartLine>)
    ensures forall l :: l in r <==> l in cart && l.product.id != id
    ensures !InCart(r, id)
    ensures OneLinePerProduct(cart) ==> OneLinePerProduct(r)
  {
    if OneLinePerProduct(cart) then
      KeepOneLine(cart, Other(id));
      Keep(cart, Other(id))
    else
      Keep(cart, Other(id))
  }

  /** The lines of products other than `id`. */
  function Other(id: Id): CartLine -> bool {
    (l: CartLine) => l.product.id != id
  }

  /** In a cart with one line per product, removing a product drops exactly
      its line. */
  lemma {:induction false} RemoveOnlyThatLine(cart: seq<CartLine>, k: nat)
    requires k < |cart| && OneLinePerProduct(cart)
    ensures Remove(cart, cart[k].product.id) == cart[..k] + cart[k + 1..]
  {
    var P := Other(cart[k].product.id);
    var before, after := cart[..k], cart[k + 1..];
    forall i | 0 <= i < |before|
      ensures P(before[i])
    {
      assert before[i] == cart[i] && cart[i].product.id != cart[k].product.id;
    }
    forall i | 0 <= i < |after|
      ensures P(after[i])
    {
      assert after[i] == cart[k + 1 + i] && cart[k].product.id != cart[k + 1 + i].product.id;
    }
    assert cart == before + ([cart[k]] + after);
    KeepAppend(before, [cart[k]] + after, P);
    KeepAppend([cart[k]], after, P);
    KeepAll(before, P);
    KeepAll(after, P);
    assert [cart[k]][1..] == [];
    assert Keep([cart[k]], P) == [];
  }

  /** One line of that `cart.map`. */
  function SetLine(l: CartLine, id: Id, n: int): CartLine {
    if l.product.id == id then CartLine(l.product, n, n as real * l.product.price) else l
  }

  /** The `cart.map` of a valid update: the lines of `id` get quantity `n`
      and a recomputed subtotal. */
  function SetQuantity(cart: seq<CartLine>, id: Id, n: int): (r: seq<CartLine>)
    ensures |r| == |cart|
    ensures forall i :: 0 <= i < |cart| ==> r[i].product == cart[i].product
    ensures forall i :: 0 <= i < |cart| && cart[i].product.id != id ==> r[i] == cart[i]
    ensures forall i :: 0 <= i < |cart| && cart[i].product.id == id ==>
      r[i].qty == n && r[i].subtotal == n as real * cart[i].product.price
  {
    seq(|cart|, i requires 0 <= i < |cart| => SetLine(cart[i], id, n))
  }

  /** A positive quantity the product list's row for `id` can cover. */
  predicate Fits(catalog: seq<Listed>, id: Id, n: int) {
    Find(catalog, id).Some? && n as real <= Find(catalog, id).value.stock
  }

  /** `updateQuantity`: zero or less removes the line; an unknown product or
      a quantity above its stock changes nothing; otherwise the line takes
      the new quantity. */
  function UpdateQuantity(cart: seq<CartLine>, catalog: seq<Listed>, id: Id, n: int): (r: seq<CartLine>)
    ensures n <= 0 ==> r == Remove(cart, id)
    ensures n > 0 && !Fits(catalog, id, n) ==> r == cart
    ensures n > 0 && Fits(catalog, id, n) ==> r == SetQuantity(cart, id, n)
  {
    if n <= 0 then Remove(cart, id)
    else if Find(catalog, id).None? then cart
    else if n as real > Find(catalog, id).value.stock then cart
    else SetQuantity(cart, id, n)
  }

  /** Every update keeps a well-formed cart well-formed. */
  lemma {:induction false} UpdateKeepsWellFormed(cart: seq<CartLine>, catalog: seq<Listed>, id: Id, n: int)
    requires WellFormed(cart, catalog)
    ensures WellFormed(UpdateQuantity(cart, catalog, id, n), catalog)
  {
    if n > 0 && Fits(catalog, id, n) {
      SetQuantityKeepsWellFormed(cart, catalog, id, n);
    }
  }

  lemma {:induction false} SetQuantityKeepsWellFormed(cart: seq<CartLine>, catalog: seq<Listed>, id: Id, n: int)
    requires WellFormed(cart, catalog) && n > 0 && Fits(catalog, id, n)
    ensures WellFormed(SetQuantity(cart, id, n), catalog)
  {
    var r := SetQuantity(cart, id, n);
    forall i, j | 0 <= i < j < |r|
      ensures r[i].product.id != r[j].product.id
    {
      assert cart[i].product.id != cart[j].product.id;
    }
    forall i | 0 <= i < |r|
      ensures r[i].subtotal == r[i].qty as real * r[i].product.price && Covered(catalog, r[i])
    {
      assert cart[i] in cart;
      SetLineKeepsCovered(catalog, cart[i], id, n);
    }
    EveryLineCovered(r, catalog);
  }

  /** The line-by-line form of `Priced` and `WithinStock`. */
  lemma {:induction false} EveryLineCovered(cart: seq<CartLine>, catalog: seq<Listed>)
    requires forall i :: 0 <= i < |cart| ==>
      cart[i].subtotal == cart[i].qty as real * cart[i].product.price && Covered(catalog, cart[i])
    ensures Priced(cart) && WithinStock(cart, catalog)
  {
    forall l | l in cart
      ensures l.subtotal == l.qty as real * l.product.price && Covered(catalog, l)
    {
      var i :| 0 <= i < |cart| && cart[i] == l;
    }
  }

  /** The line of `id` takes a quantity its product's row covers; the
      others are untouched. */
  lemma {:induction false} SetLineKeepsCovered(catalog: seq<Listed>, l: CartLine, id: Id, n: int)
    requires Covered(catalog, l) && l.subtotal == l.qty as real * l.product.price
    requires n > 0 && Fits(catalog, id, n)
    ensures var m := SetLine(l, id, n);
      m.subtotal == m.qty as real * m.product.price && Covered(catalog, m)
  {
  }

  /** Setting the quantity of a product in the cart changes that product's
      quantity and no other. */
  lemma {:induction false} SetQuantityMovesOnlyThat(cart: seq<CartLine>, id: Id, n: int, other: Id)
    requires InCart(cart, id) && other != id
    ensures Quantity(SetQuantity(cart, id, n), id) == n
    ensures Quantity(SetQuantity(cart, id, n), other) == Quantity(cart, other)
  {
    var r := SetQuantity(cart, id, n);
    LineOfSameProducts(cart, r, id);
    LineOfSameProducts(cart, r, other);
  }

  /** A valid update sets the quantity of that product and of no other. */
  lemma {:induction false} UpdateSetsQuantity(cart: seq<CartLine>, catalog: seq<Listed>, id: Id, n: int, other: Id)
    requires InCart(cart, id) && n > 0 && Fits(catalog, id, n) && other != id
    ensures Quantity(UpdateQuantity(cart, catalog, id, n), id) == n
    ensures Quantity(UpdateQuantity(cart, catalog, id, n), other) == Quantity(cart, other)
  {
    SetQuantityMovesOnlyThat(cart, id, n, other);
  }

  /** `addToCart`: a product without stock is refused; a product already in
      the cart goes up by one through `updateQuantity`; a new product gets a
      line of quantity 1 at its sale price. */
  function AddToCart(cart: seq<CartLine>, catalog: seq<Listed>, p: Listed): (r: seq<CartLine>)
    ensures p.stock <= 0.0 ==> r == cart
    ensures p.stock > 0.0 && InCart(cart, p.id) ==> r == UpdateQuantity(cart, catalog, p.id, Quantity(cart, p.id) + 1)
    ensures p.stock > 0.0 && !InCart(cart, p.id) ==> r == cart + [CartLine(p, 1, p.price)]
    ensures OneLinePerProduct(cart) ==> OneLinePerProduct(r)
  {
    if p.stock <= 0.0 then cart
    else
      match LineOf(cart, p.id)
      case Some(k) => UpdateQuantity(cart, catalog, p.id, cart[k].qty + 1)
      case None =>
        AppendKeepsOneLine(cart, CartLine(p, 1, p.price));
        cart + [CartLine(p, 1, p.price)]
  }

  lemma {:induction false} AppendKeepsOneLine(cart: seq<CartLine>, l: CartLine)
    requires !InCart(cart, l.product.id)
    ensures OneLinePerProduct(cart) ==> OneLinePerProduct(cart + [l])
  {
    if OneLinePerProduct(cart) {
      var r := cart + [l];
      forall i, j | 0 <= i < j < |r|
        ensures r[i].product.id != r[j].product.id
      {
        assert r[i] == cart[i];
        assert cart[i].product.id != l.product.id;
        if j < |cart| {
          assert r[j] == cart[j];
        }
      }
    }
  }

  /** Whether the page accepts the click: the product has stock and, if it
      is already in the cart, one more unit still fits. */
  predicate Accepted(cart: seq<CartLine>, catalog: seq<Listed>, p: Listed) {
    p.stock > 0.0 && (InCart(cart, p.id) ==> Fits(catalog, p.id, Quantity(cart, p.id) + 1))
  }

  /** An accepted click raises that product's quantity by one and leaves the
      others alone; a refused click changes nothing. */
  lemma {:induction false} AddToCartAddsOne(cart: seq<CartLine>, catalog: seq<Listed>, p: Listed, other: Id)
    requires WellFormed(cart, catalog) && other != p.id
    ensures !Accepted(cart, catalog, p) ==> AddToCart(cart, catalog, p) == cart
    ensures Accepted(cart, catalog, p) ==> Quantity(AddToCart(cart, catalog, p), p.id) == Quantity(cart, p.id) + 1
    ensures Quantity(AddToCart(cart, catalog, p), other) == Quantity(cart, other)
  {
    if p.stock > 0.0 {
      match LineOf(cart, p.id)
      case Some(k) =>
        assert cart[k] in cart;
        assert Quantity(cart, p.id) == cart[k].qty;
        if Fits(catalog, p.id, Quantity(cart, p.id) + 1) {
          AddExistingAccepted(cart, catalog, p, other);
        } else {
          AddExistingRefused(cart, catalog, p);
        }
      case None =>
        AddNewAddsOne(cart, catalog, p, other);
    }
  }

  lemma {:induction false} AddExistingAccepted(cart: seq<CartLine>, catalog: seq<Listed>, p: Listed, other: Id)
    requires p.stock > 0.0 && InCart(cart, p.id) && Quantity(cart, p.id) >= 0 && other != p.id
    requires Fits(catalog, p.id, Quantity(cart, p.id) + 1)
    ensures Quantity(AddToCart(cart, catalog, p), p.id) == Quantity(cart, p.id) + 1
    ensures Quantity(AddToCart(cart, catalog, p), other) == Quantity(cart, other)
  {
    AddExistingIsSet(cart, catalog, p);
    SetQuantityMovesOnlyThat(cart, p.id, Quantity(cart, p.id) + 1, other);
  }

  lemma {:induction false} AddExistingRefused(cart: seq<CartLine>, catalog: seq<Listed>, p: Listed)
    requires p.stock > 0.0 && InCart(cart, p.id) && Quantity(cart, p.id) >= 0
    requires !Fits(catalog, p.id, Quantity(cart, p.id) + 1)
    ensures AddToCart(cart, catalog, p) == cart
  {
  }

  lemma {:induction false} AddExistingIsSet(cart: seq<CartLine>, catalog: seq<Listed>, p: Listed)
    requires p.stock > 0.0 && InCart(cart, p.id) && Quantity(cart, p.id) >= 0
    requires Fits(catalog, p.id, Quantity(cart, p.id) + 1)
    ensures AddToCart(cart, catalog, p) == SetQuantity(cart, p.id, Quantity(cart, p.id) + 1)
  {
  }

  lemma {:induction false} AddNewAddsOne(cart: seq<CartLine>, catalog: seq<Listed>, p: Listed, other: Id)
    requires LineOf(cart, p.id).None? && p.stock > 0.0 && other != p.id
    ensures Accepted(cart, catalog, p)
    ensures Quantity(AddToCart(cart, catalog, p), p.id) == Quantity(cart, p.id) + 1
    ensures Quantity(AddToCart(cart, catalog, p), other) == Quantity(cart, other)
  {
    var line := CartLine(p, 1, p.price);
    assert AddToCart(cart, catalog, p) == cart + [line];
    LineOfAppend(cart, line, p.id);
    LineOfAppend(cart, line, other);
  }

  /** With whole-number stock, adding a product shown from the list keeps
      every cart line within its stock. */
  lemma {:induction false} AddToCartKeepsWellFormed(cart: seq<CartLine>, catalog: seq<Listed>, p: Listed)
    requires WellFormed(cart, catalog) && WholeStock(catalog)
    requires Find(catalog, p.id) == Some(p)
    ensures WellFormed(AddToCart(cart, catalog, p), catalog)
  {
    if p.stock > 0.0 {
      if InCart(cart, p.id) {
        UpdateKeepsWellFormed(cart, catalog, p.id, Quantity(cart, p.id) + 1);
      } else {
        var line := CartLine(p, 1, p.price);
        assert p.stock.Floor >= 1;
        assert Covered(catalog, line);
        assert AddToCart(cart, catalog, p) == cart + [line];
        AppendKeepsWellFormed(cart, catalog, line);
      }
    }
  }

  /** A covered, priced line of a product not yet in the cart keeps the cart
      well-formed. */
  lemma {:induction false} AppendKeepsWellFormed(cart: seq<CartLine>, catalog: seq<Listed>, l: CartLine)
    requires WellFormed(cart, catalog) && !InCart(cart, l.product.id)
    requires Covered(catalog, l) && l.subtotal == l.qty as real * l.product.price
    ensures WellFormed(cart + [l], catalog)
  {
    AppendKeepsOneLine(cart, l);
    forall m | m in cart + [l]
      ensures m.subtotal == m.qty as real * m.product.price && Covered(catalog, m)
    {
      if m != l {
        assert m in cart;
      }
    }
  }

  /** A product sold by weight can hold half a kilo; the page still lets a
      whole unit of it into the cart. */
  lemma {:induction false} FractionalStockOverfills()
    ensures var p := Listed(1, "Racao a granel", None, 1, 20.0, 0.5, 0.0);
            var cart := AddToCart([], [p], p);
            && cart == [CartLine(p, 1, 20.0)]
            && WellFormed([], [p])
            && !WithinStock(cart, [p])
  {
    var p := Listed(1, "Racao a granel", None, 1, 20.0, 0.5, 0.0);
    assert LineOf([], 1) == None;
    var cart := AddToCart([], [p], p);
    assert cart == [] + [CartLine(p, 1, 20.0)];
    assert cart[0] in cart && !Covered([p], cart[0]);
  }

  /** `addToCart` with the stock check `updateQuantity` makes applied to a
      new line as well. */
  function AddToCartChecked(cart: seq<CartLine>, catalog: seq<Listed>, p: Listed): (r: seq<CartLine>)
    ensures p.stock < 1.0 && !InCart(cart, p.id) ==> r == cart
    ensures p.stock >= 1.0 && !InCart(cart, p.id) ==> r == cart + [CartLine(p, 1, p.price)]
    ensures InCart(cart, p.id) ==> r == AddToCart(cart, catalog, p)
  {
    if !InCart(cart, p.id) && p.stock < 1.0 then cart else AddToCart(cart, catalog, p)
  }

  /** The checked click keeps every line within its stock, whole-number
      stock or not. */
  lemma {:induction false} CheckedKeepsWellFormed(cart: seq<CartLine>, catalog: seq<Listed>, p: Listed)
    requires WellFormed(cart, catalog) && Find(catalog, p.id) == Some(p)
    ensures WellFormed(AddToCartChecked(cart, catalog, p), catalog)
  {
    if InCart(cart, p.id) && p.stock > 0.0 {
      UpdateKeepsWellFormed(cart, catalog, p.id, Quantity(cart, p.id) + 1);
    } else if !InCart(cart, p.id) && p.stock >= 1.0 {
      var line := CartLine(p, 1, p.price);
      assert Covered(catalog, line);
      AppendKeepsWellFormed(cart, catalog, line);
    }
  }

  // ---------------------------------------------------------------------------
  // Totals

  function Subtotals(cart: seq<CartLine>): (ts: seq<real>)
    ensures |ts| == |cart|
    ensures forall i :: 0 <= i < |cart| ==> ts[i] == cart[i].subtotal
  {
    seq(|cart|, i requires 0 <= i < |cart| => cart[i].subtotal)
  }

  function Quantities(cart: seq<CartLine>): (qs: seq<real>)
    ensures |qs| == |cart|
    ensures forall i :: 0 <= i < |cart| ==> qs[i] == cart[i].qty as real
  {
    seq(|cart|, i requires 0 <= i < |cart| => cart[i].qty as real)
  }

  /** `getCartTotal`. */
  function CartTotal(cart: seq<CartLine>): real {
    Sum(Subtotals(cart))
  }

  /** `getCartItemsCount`. */
  function ItemCount(cart: seq<CartLine>): real {
    Sum(Quantities(cart))
  }

  /** An accepted click adds one unit to the item count and the product's
      sale price to the total. */
  lemma {:induction false} AddToCartRaisesTotals(cart: seq<CartLine>, catalog: seq<Listed>, p: Listed)
    requires WellFormed(cart, catalog) && Find(catalog, p.id) == Some(p)
    requires Accepted(cart, catalog, p)
    ensures ItemCount(AddToCart(cart, catalog, p)) == ItemCount(cart) + 1.0
    ensures CartTotal(AddToCart(cart, catalog, p)) == CartTotal(cart) + p.price
  {
    match LineOf(cart, p.id)
    case Some(k) =>
      assert cart[k] in cart;
      assert Quantity(cart, p.id) == cart[k].qty;
      AddExistingRaisesTotals(cart, catalog, p, k);
    case None =>
      AddNewRaisesTotals(cart, catalog, p);
  }

  lemma {:induction false} AddExistingRaisesTotals(cart: seq<CartLine>, catalog: seq<Listed>, p: Listed, k: nat)
    requires LineOf(cart, p.id) == Some(k) && cart[k].product == p
    requires p.stock > 0.0 && Quantity(cart, p.id) >= 0 && Fits(catalog, p.id, Quantity(cart, p.id) + 1)
    requires OneLinePerProduct(cart) && Priced(cart)
    ensures ItemCount(AddToCart(cart, catalog, p)) == ItemCount(cart) + 1.0
    ensures CartTotal(AddToCart(cart, catalog, p)) == CartTotal(cart) + p.price
  {
    AddExistingIsSet(cart, catalog, p);
    OneMoreRaisesTotals(cart, k, p.id, Quantity(cart, p.id) + 1);
  }

  /** One more unit on line `k` adds one to the count and its price to the
      total. */
  lemma {:induction false} OneMoreRaisesTotals(cart: seq<CartLine>, k: nat, id: Id, n: int)
    requires k < |cart| && OneLinePerProduct(cart) && Priced(cart)
    requires id == cart[k].product.id && n == cart[k].qty + 1
    ensures ItemCount(SetQuantity(cart, id, n)) == ItemCount(cart) + 1.0
    ensures CartTotal(SetQuantity(cart, id, n)) == CartTotal(cart) + cart[k].product.price
  {
    OneMoreOfLine(cart, k, n);
    assert (n - cart[k].qty) as real * cart[k].product.price == cart[k].product.price;
  }

  lemma {:induction false} AddNewRaisesTotals(cart: seq<CartLine>, catalog: seq<Listed>, p: Listed)
    requires LineOf(cart, p.id).None? && p.stock > 0.0
    ensures ItemCount(AddToCart(cart, catalog, p)) == ItemCount(cart) + 1.0
    ensures CartTotal(AddToCart(cart, catalog, p)) == CartTotal(cart) + p.price
  {
    var line := CartLine(p, 1, p.price);
    assert AddToCart(cart, catalog, p) == cart + [line];
    SubtotalsAppend(cart, [line]);
    QuantitiesAppend(cart, [line]);
    assert Subtotals([line]) == [p.price];
    assert Quantities([line]) == [1.0];
    SumAppend(Subtotals(cart), [p.price]);
    SumAppend(Quantities(cart), [1.0]);
  }

  /** Setting line `k` to `n` units moves the totals by the difference. */
  lemma {:induction false} OneMoreOfLine(cart: seq<CartLine>, k: nat, n: int)
    requires k < |cart| && OneLinePerProduct(cart) && Priced(cart)
    ensures var r := SetQuantity(cart, cart[k].product.id, n);
      && ItemCount(r) == ItemCount(cart) - cart[k].qty as real + n as real
      && CartTotal(r) == CartTotal(cart) + (n - cart[k].qty) as real * cart[k].product.price
  {
    var price := cart[k].product.price;
    var r := SetQuantity(cart, cart[k].product.id, n);
    assert cart[k] in cart;
    forall i | 0 <= i < |cart| && i != k
      ensures r[i] == cart[i]
    {
      assert cart[i].product.id != cart[k].product.id;
    }
    assert r[k].qty == n && r[k].subtotal == n as real * price;
    assert Subtotals(r) == Subtotals(cart)[k := n as real * price] by {
      forall i | 0 <= i < |r|
        ensures Subtotals(r)[i] == Subtotals(cart)[k := n as real * price][i]
      {
      }
    }
    assert Quantities(r) == Quantities(cart)[k := n as real] by {
      forall i | 0 <= i < |r|
        ensures Quantities(r)[i] == Quantities(cart)[k := n as real][i]
      {
      }
    }
    SumUpdateAt(Subtotals(cart), k, n as real * price);
    SumUpdateAt(Quantities(cart), k, n as real);
  }

  /** Removing a product takes its subtotal off the total. */
  lemma {:induction false} RemoveLowersTotal(cart: seq<CartLine>, k: nat)
    requires k < |cart| && OneLinePerProduct(cart)
    ensures CartTotal(Remove(cart, cart[k].product.id)) == CartTotal(cart) - cart[k].subtotal
  {
    RemoveOnlyThatLine(cart, k);
    var before, after := cart[..k], cart[k + 1..];
    var x := cart[k].subtotal;
    assert cart == before + ([cart[k]] + after);
    SubtotalsAppend(before, [cart[k]] + after);
    SubtotalsAppend([cart[k]], after);
    SubtotalsAppend(before, after);
    assert Subtotals([cart[k]]) == [x];
    var S, T := Subtotals(before), Subtotals(after);
    assert Subtotals(cart) == S + ([x] + T);
    assert Subtotals(Remove(cart, cart[k].product.id)) == S + T;
    SumAppend(S, [x] + T);
    SumAppend([x], T);
    SumAppend(S, T);
  }

  lemma {:induction false} QuantitiesAppend(a: seq<CartLine>, b: seq<CartLine>)
    ensures Quantities(a + b) == Quantities(a) + Quantities(b)
  {
    forall i | 0 <= i < |a + b|
      ensures Quantities(a + b)[i] == (Quantities(a) + Quantities(b))[i]
    {
      if i < |a| {
        assert (a + b)[i] == a[i];
      } else {
        assert (a + b)[i] == b[i - |a|];
      }
    }
  }

  lemma {:induction false} SubtotalsAppend(a: seq<CartLine>, b: seq<CartLine>)
    ensures Subtotals(a + b) == Subtotals(a) + Subtotals(b)
  {
    forall i | 0 <= i < |a + b|
      ensures Subtotals(a + b)[i] == (Subtotals(a) + Subtotals(b))[i]
    {
      if i < |a| {
        assert (a + b)[i] == a[i];
      } else {
        assert (a + b)[i] == b[i - |a|];
      }
    }
  }

  // ---------------------------------------------------------------------------
  // Checkout

  const PRAZO := "prazo"
  const DINHEIRO := "dinheiro"

  /** The page's state: the cart, the selected customer (none for the empty
      selection) and the payment method. */
  datatype Counter = Counter(cart: seq<CartLine>, customer: Option<Id>, payment: string)

  /** The page as it opens and after a completed sale. */
  const Opened := Counter([], None, DINHEIRO)

  datatype Refusal = EmptyCart | CustomerRequired

  datatype Checkout = Refused(reason: Refusal) | Submit(request: Sales.SaleRequest)

  function ToItem(l: CartLine): Sales.SaleItem {
    Sales.SaleItem(l.product.id, l.qty as real, Some(l.product.price), None)
  }

  /** `handleCheckout` up to the request: an empty cart is refused, a
      pay-later sale needs a customer, and otherwise the request carries the
      upper-cased method, no discount, empty notes and one item per line at
      the line's sale price. */
  function CheckoutRequest(c: Counter): (r: Checkout)
    ensures c.cart == [] ==> r == Refused(EmptyCart)
    ensures c.cart != [] && c.payment == PRAZO && c.customer.None? ==> r == Refused(CustomerRequired)
    ensures r.Submit? <==> c.cart != [] && (c.payment == PRAZO ==> c.customer.Some?)
    ensures r.Submit? ==>
      && r.request.customer == c.customer
      && r.request.payment == Some(Upper(c.payment))
      && r.request.discount == 0.0
      && r.request.notes == Some("")
      && |r.request.items| == |c.cart|
      && forall i :: 0 <= i < |c.cart| ==> r.request.items[i] == ToItem(c.cart[i])
  {
    if c.cart == [] then Refused(EmptyCart)
    else if c.payment == PRAZO && c.customer.None? then Refused(CustomerRequired)
    else
      var items := seq(|c.cart|, i requires 0 <= i < |c.cart| => ToItem(c.cart[i]));
      Submit(Sales.SaleRequest(c.customer, Some(Upper(c.payment)), 0.0, Some(""), items))
  }

  /** After the server's answer: a stored sale resets the page, a failure
      keeps everything for another try. */
  function Settle(c: Counter, stored: bool): (r: Counter)
    ensures stored ==> r.cart == [] && r.customer.None? && r.payment == DINHEIRO
    ensures !stored ==> r == c
  {
    if stored then Opened else c
  }

  /** Once a sale is stored, the same cart cannot be submitted again. */
  lemma {:induction false} StoredSaleClearsCart(c: Counter)
    ensures CheckoutRequest(Settle(c, true)) == Refused(EmptyCart)
  {
  }

  /** The server prices each line at the unit price the page sent, so the
      line totals are the cart's subtotals. */
  lemma {:induction false} LineTotalsAreSubtotals(products: map<Id, Entities.Product>, cart: seq<CartLine>, lines: seq<Entities.SaleLine>)
    requires Priced(cart)
    requires forall l :: l in cart ==> l.product.price != 0.0 && l.product.id in products
    requires |lines| == |cart|
    requires forall i :: 0 <= i < |cart| ==> lines[i] == Sales.PricedLine(products, ToItem(cart[i]))
    ensures Sales.LineTotals(lines) == Subtotals(cart)
  {
    forall i | 0 <= i < |cart|
      ensures Sales.LineTotals(lines)[i] == Subtotals(cart)[i]
    {
      assert cart[i] in cart;
    }
  }

  /** A submitted cart with non-zero prices becomes a sale whose total is the
      cart total the page showed. */
  lemma {:induction false} SaleTotalIsCartTotal(st: Entities.Store, c: Counter, seller: Id, created: Sales.Created)
    requires CheckoutRequest(c).Submit? && Priced(c.cart)
    requires forall l :: l in c.cart ==> l.product.price != 0.0
    requires Sales.CreateSale(st, CheckoutRequest(c).request, seller) == Ok(created)
    ensures created.id in created.store.sales
    ensures created.store.sales[created.id].total == CartTotal(c.cart)
  {
    var req := CheckoutRequest(c).request;
    Sales.CreatedLines(st, req, seller, created);
    PricedCartTotal(st.products, c.cart, req.items, created.store.sales[created.id].lines);
  }

  /** Lines priced from an accepted cart add up to the cart total. */
  lemma {:induction false} PricedCartTotal(products: map<Id, Entities.Product>, cart: seq<CartLine>, items: seq<Sales.SaleItem>, lines: seq<Entities.SaleLine>)
    requires Priced(cart)
    requires forall l :: l in cart ==> l.product.price != 0.0
    requires |items| == |cart| && forall i :: 0 <= i < |cart| ==> items[i] == ToItem(cart[i])
    requires forall i :: 0 <= i < |items| ==> Sales.Sellable(products, items[i])
    requires |lines| == |items|
    requires forall i :: 0 <= i < |items| ==> items[i].product in products && lines[i] == Sales.PricedLine(products, items[i])
    ensures Sum(Sales.LineTotals(lines)) == CartTotal(cart)
  {
    SellableCart(products, cart, items);
    LineTotalsAreSubtotals(products, cart, lines);
  }

  /** Items the server accepted name products it holds. */
  lemma {:induction false} SellableCart(products: map<Id, Entities.Product>, cart: seq<CartLine>, items: seq<Sales.SaleItem>)
    requires |items| == |cart|
    requires forall i :: 0 <= i < |cart| ==> items[i] == ToItem(cart[i])
    requires forall i :: 0 <= i < |items| ==> Sales.Sellable(products, items[i])
    ensures forall l :: l in cart ==> l.product.id in products
  {
    forall l | l in cart
      ensures l.product.id in products
    {
      var i :| 0 <= i < |cart| && cart[i] == l;
      assert Sales.Sellable(products, items[i]);
    }
  }
}

=== FILE: product_list.dfy ===
/**
  The product list page (`ProductsPage`): the stock badge each row shows and
  the three filters above the table (search box, category select, stock
  select), with the button that clears them.
 */
module ProductList {
  import opened Base
  import opened Catalog

  datatype StockStatus = Out | Low | InStock

  /** `getStockStatus`: exactly zero is out of stock; anything else at or
      under the minimum is low. */
  function Status(current: real, minimum: real): (r: StockStatus)
    ensures r == Out <==> current == 0.0
    ensures r == Low <==> current != 0.0 && current <= minimum
    ensures r == InStock <==> current != 0.0 && current > minimum
  {
    if current == 0.0 then Out
    else if current <= minimum then Low
    else InStock
  }

  /** `getStockLabel`. */
  function Label(s: StockStatus): (r: string)
    ensures s == Out ==> r == "Sem estoque"
    ensures s == Low ==> r == "Estoque baixo"
    ensures s == InStock ==> r == "Em estoque"
  {
    match s
    case Out => "Sem estoque"
    case Low => "Estoque baixo"
    case InStock => "Em estoque"
  }

  /** Different statuses never share a label, so the badge names the status. */
  lemma {:induction false} LabelsDistinct(a: StockStatus, b: StockStatus)
    requires Label(a) == Label(b)
    ensures a == b
  {
  }

  /** The stock select: all, at or under the minimum, or exactly zero. */
  datatype StockFilter = All | LowOnly | OutOnly

  /** The three filters; no category is the empty selection. */
  datatype Filters = Filters(term: string, category: Option<Id>, stock: StockFilter)

  /** `clearFilters`. */
  const Cleared := Filters("", None, All)

  predicate StockMatches(p: Listed, f: StockFilter) {
    match f
    case All => true
    case LowOnly => p.stock <= p.minStock
    case OutOnly => p.stock == 0.0
  }

  /** A row is shown when it passes all three filters. */
  predicate Shown(p: Listed, f: Filters) {
    && Searched(p, f.term)
    && (f.category.None? || p.category == f.category.value)
    && StockMatches(p, f.stock)
  }

  /** `filteredProducts`: the rows passing every filter, in list order. */
  function Visible(products: seq<Listed>, f: Filters): (r: seq<Listed>)
    ensures |r| <= |products|
    ensures forall p :: p in r <==> p in products && Shown(p, f)
  {
    Keep(products, (p: Listed) => Shown(p, f))
  }

  /** After clearing the filters the table shows every product, in order. */
  lemma {:induction false} ClearedShowsAll(products: seq<Listed>)
    ensures Visible(products, Cleared) == products
  {
    forall i | 0 <= i < |products|
      ensures Shown(products[i], Cleared)
    {
      EmptySearchShowsAll([products[i]]);
      assert products[i] in Search([products[i]], "");
    }
    KeepAll(products, (p: Listed) => Shown(p, Cleared));
  }

  /** With non-negative minimums, every row the "out" filter shows is also
      shown by the "low" filter. */
  lemma {:induction false} OutIsAlsoLow(products: seq<Listed>, f: Filters)
    requires forall p :: p in products ==> p.minStock >= 0.0
    ensures forall p :: p in Visible(products, f.(stock := OutOnly)) ==> p in Visible(products, f.(stock := LowOnly))
  {
  }

  /** The stock select agrees with the badge: "out" shows exactly the rows
      marked out of stock, "low" shows the rows marked low and, when the
      minimum is not negative, those marked out of stock. */
  lemma {:induction false} FilterAgreesWithBadge(p: Listed, f: Filters)
    ensures Shown(p, f.(stock := OutOnly)) <==> Shown(p, f.(stock := All)) && Status(p.stock, p.minStock) == Out
    ensures Shown(p, f.(stock := LowOnly)) <==>
      Shown(p, f.(stock := All)) && (Status(p.stock, p.minStock) == Low || (Status(p.stock, p.minStock) == Out && p.minStock >= 0.0))
  {
  }
}

=== FILE: products.dfy ===
/**
  Products (`produtoController`): the profit margin and stock flag shown with
  every product, product creation with its initial-stock movement, the
  partial update, the "set stock to" adjustment and the low-stock list.
 */
module Products {
  import opened Base
  import opened Text
  import opened Entities
  import opened Ledger
  import opened Registry

  // ---------------------------------------------------------------------------
  // Margin and stock flag

  /** Profit margin in percent of the cost; 0 when there is no positive cost.
      The two-decimal rounding of the source is not modelled. */
  function Margin(cost: real, sale: real): (m: real)
    ensures cost > 0.0 ==> m * cost == (sale - cost) * 100.0
    ensures cost <= 0.0 ==> m == 0.0
    ensures cost > 0.0 ==> (m > 0.0 <==> sale > cost) && (m == 0.0 <==> sale == cost)
  {
    if cost > 0.0 then (sale - cost) / cost * 100.0 else 0.0
  }

  /** The backend's stock flag: BAIXO at or below the minimum. */
  datatype StockFlag = BAIXO | OK

  function Flag(p: Product): StockFlag {
    if p.stock <= p.minStock then BAIXO else OK
  }

  // ---------------------------------------------------------------------------
  // Barcodes

  function Barcode(p: Product): Option<string> {
    p.barcode
  }

  // ---------------------------------------------------------------------------
  // Creation

  /** The create request; absent fields are `None`. An empty supplier id is
      `None` as well. */
  datatype ProductRequest = ProductRequest(
    name: Option<string>,
    description: Option<string>,
    barcode: Option<string>,
    category: Option<Id>,
    supplier: Option<Id>,
    unit: Option<string>,
    cost: Option<real>,
    salePrice: Option<real>,
    minStock: Option<real>,
    stock: Option<real>,
    weighed: bool,
    notes: Option<string>)

  datatype Created = Created(store: Store, id: Id)

  predicate HasRequiredFields(req: ProductRequest) {
    Given(req.name) && req.category.Some? && Given(req.unit) && GivenNum(req.salePrice)
  }

  /** Every check `createProduto` makes, in its order. */
  predicate CreateAccepted(st: Store, req: ProductRequest) {
    && HasRequiredFields(req)
    && req.salePrice.value > 0.0
    && req.category.value in st.categories
    && (req.supplier.Some? ==> req.supplier.value in st.suppliers)
    && FreeFor(st.products, Barcode, req.barcode)
    && !BarcodeHeld(st, req.barcode)
  }

  /** The unique index on `codigo_barras` refuses a barcode some product
      already holds; the handler's own check skips the empty string, so an
      empty barcode reaches the index. */
  predicate BarcodeHeld(st: Store, k: Option<string>) {
    k.Some? && Taken(st.products, Barcode, k.value)
  }

  /** The ESTOQUE_INICIAL movement, written only for a positive initial stock. */
  function InitialMovements(id: Id, stock: Option<real>): (ms: seq<Movement>)
    ensures stock.Some? && stock.value > 0.0 ==>
      ms == [Movement(id, Entrada, stock.value, ESTOQUE_INICIAL, Text("Estoque inicial do produto"))]
    ensures !(stock.Some? && stock.value > 0.0) ==> ms == []
  {
    if stock.Some? && stock.value > 0.0
    then [Movement(id, Entrada, stock.value, ESTOQUE_INICIAL, Text("Estoque inicial do produto"))]
    else []
  }

  function NewProduct(req: ProductRequest): (p: Product)
    requires HasRequiredFields(req)
  {
    var cost := req.cost.GetOr(0.0);
    var sale := req.salePrice.value;
    Product(req.name.value, req.description, req.barcode, req.category.value, req.supplier,
            Upper(req.unit.value), cost, sale, Margin(cost, sale), req.minStock.GetOr(0.0),
            req.stock.GetOr(0.0), req.weighed, req.notes, true)
  }

  /** `createProduto`. */
  function CreateProduct(st: Store, req: ProductRequest): (r: Result<Created>)
    ensures r.Ok? <==> CreateAccepted(st, req)
    ensures !HasRequiredFields(req) ==> r == Err(Required)
    ensures HasRequiredFields(req) && req.salePrice.value <= 0.0 ==> r == Err(InvalidValue)
    ensures HasRequiredFields(req) && req.salePrice.value > 0.0 && req.category.value !in st.categories ==> r == Err(NotFound)
    ensures CreateAccepted(st, req.(barcode := None)) && Given(req.barcode) && Taken(st.products, Barcode, req.barcode.value) ==>
      r == Err(Duplicate)
    ensures CreateAccepted(st, req.(barcode := None)) && req.barcode == Some("") && Taken(st.products, Barcode, "") ==>
      r == Err(ServerError)
    ensures req.barcode.Some? && Taken(st.products, Barcode, req.barcode.value) ==> r.Err?
    ensures r.Ok? ==> r.value.id !in st.products && r.value.id in r.value.store.products
    ensures r.Ok? ==>
      var s := r.value.store;
      var p := s.products[r.value.id];
      && s.products == st.products[r.value.id := p]
      && p.active
      && p.stock == req.stock.GetOr(0.0)
      && p.cost == req.cost.GetOr(0.0)
      && p.salePrice == req.salePrice.value
      && p.margin == Margin(p.cost, p.salePrice)
      && p.unit == Upper(req.unit.value)
      && p.barcode == req.barcode
      && s.movements == st.movements + InitialMovements(r.value.id, req.stock)
      && s.sales == st.sales && s.purchases == st.purchases && s.customers == st.customers
      && s.suppliers == st.suppliers && s.categories == st.categories
    ensures r.Ok? && Unique(st.products, Barcode) ==> Unique(r.value.store.products, Barcode)
    ensures r.Ok? && Distinct(st.products, Barcode) ==> Distinct(r.value.store.products, Barcode)
  {
    if !HasRequiredFields(req) then Err(Required)
    else if req.salePrice.value <= 0.0 then Err(InvalidValue)
    else if req.category.value !in st.categories then Err(NotFound)
    else if req.supplier.Some? && req.supplier.value !in st.suppliers then Err(NotFound)
    else if Given(req.barcode) && Taken(st.products, Barcode, req.barcode.value) then Err(Duplicate)
    else if BarcodeHeld(st, req.barcode) then Err(ServerError)
    else
      var id := NextNumber(st.products.Keys);
      AddKeepsUnique(st.products, Barcode, id, NewProduct(req));
      PutKeepsDistinct(st.products, Barcode, id, NewProduct(req));
      Ok(Created(st.(products := st.products[id := NewProduct(req)],
                     movements := st.movements + InitialMovements(id, req.stock)), id))
  }

  /** A new product keeps a reconciled store reconciled exactly when its
      initial stock is not negative: a positive stock is matched by its
      ESTOQUE_INICIAL movement, and a negative one has no movement at all. */
  lemma {:induction false} CreateProductReconciled(st: Store, req: ProductRequest)
    requires Reconciled(st)
    requires CreateProduct(st, req).Ok?
    ensures var c := CreateProduct(st, req).value;
      Reconciled(c.store) <==> req.stock.GetOr(0.0) >= 0.0
  {
    var c := CreateProduct(st, req).value;
    var ms := InitialMovements(c.id, req.stock);
    InitialNet(c.id, req.stock);
    AddedProductReconciled(st, c.store, c.id, ms);
  }

  /** The opening movements name the new product only and add up to its
      initial stock when that is positive, to nothing otherwise. */
  lemma {:induction false} InitialNet(id: Id, stock: Option<real>)
    ensures forall i :: 0 <= i < |InitialMovements(id, stock)| ==> InitialMovements(id, stock)[i].product == id
    ensures NetFor(InitialMovements(id, stock), id) == if stock.Some? && stock.value > 0.0 then stock.value else 0.0
  {
    var ms := InitialMovements(id, stock);
    if ms != [] {
      assert ms[1..] == [];
    }
  }

  /** Adding a product row together with movements that name only it keeps
      a reconciled store reconciled exactly when the row's stock is the net
      of those movements. */
  lemma {:induction false} AddedProductReconciled(st: Store, s: Store, id: Id, ms: seq<Movement>)
    requires Reconciled(st) && id !in st.products && id in s.products
    requires s.products == st.products[id := s.products[id]] && s.movements == st.movements + ms
    requires forall i :: 0 <= i < |ms| ==> ms[i].product == id
    ensures Reconciled(s) <==> s.products[id].stock == NetFor(ms, id)
  {
    assert forall i :: 0 <= i < |st.movements| ==> st.movements[i].product != id;
    NetForAbsent(st.movements, id);
    NetAppend(st.movements, ms, id);
    forall p | p in st.products
      ensures NetFor(s.movements, p) == NetFor(st.movements, p)
    {
      NetAppend(st.movements, ms, p);
      NetForAbsent(ms, p);
    }
  }

  // ---------------------------------------------------------------------------
  // Partial update

  /** The update body. `None` means the field was not sent; for the nullable
      fields `Some(None)` means it was sent as null (or, for the supplier, as
      the empty string). */
  datatype ProductPatch = ProductPatch(
    name: Option<string>,
    description: Option<Option<string>>,
    barcode: Option<Option<string>>,
    category: Option<Id>,
    supplier: Option<Option<Id>>,
    unit: Option<string>,
    cost: Option<real>,
    salePrice: Option<real>,
    minStock: Option<real>,
    weighed: Option<bool>,
    notes: Option<Option<string>>,
    active: Option<bool>,
    stock: Option<real>)

  const NoChanges := ProductPatch(None, None, None, None, None, None, None, None, None, None, None, None, None)

  /** The fields the update writes: name and unit only when non-empty, the
      rest whenever sent; the margin is recomputed only when a price is sent,
      taking the stored value for the other price. */
  function Merge(p: Product, patch: ProductPatch): Product {
    var cost := patch.cost.GetOr(p.cost);
    var sale := patch.salePrice.GetOr(p.salePrice);
    p.(name := if Given(patch.name) then patch.name.value else p.name,
       description := patch.description.GetOr(p.description),
       barcode := patch.barcode.GetOr(p.barcode),
       category := patch.category.GetOr(p.category),
       supplier := patch.supplier.GetOr(p.supplier),
       unit := if Given(patch.unit) then Upper(patch.unit.value) else p.unit,
       cost := cost,
       salePrice := sale,
       margin := if patch.cost.Some? || patch.salePrice.Some? then Margin(cost, sale) else p.margin,
       minStock := patch.minStock.GetOr(p.minStock),
       weighed := patch.weighed.GetOr(p.weighed),
       notes := patch.notes.GetOr(p.notes),
       active := patch.active.GetOr(p.active),
       stock := patch.stock.GetOr(p.stock))
  }

  /** An empty patch changes nothing, and sending the same patch twice has
      the effect of sending it once. */
  lemma {:induction false} MergeLaws(p: Product, patch: ProductPatch)
    ensures Merge(p, NoChanges) == p
    ensures Merge(Merge(p, patch), patch) == Merge(p, patch)
  {
    if Given(patch.unit) {
      UpperIdempotent(patch.unit.value);
    }
  }

  /** Sending only a sale price recomputes the margin against the stored cost. */
  lemma {:induction false} MergePriceOnly(p: Product, sale: real)
    ensures var q := Merge(p, NoChanges.(salePrice := Some(sale)));
      && q.salePrice == sale && q.cost == p.cost
      && (p.cost > 0.0 ==> q.margin * p.cost == (sale - p.cost) * 100.0)
      && q.stock == p.stock && q.name == p.name
  {
  }

  /** The checks `updateProduto` makes before writing, then the unique
      index on `codigo_barras`, which refuses a sent barcode (the empty one
      included) that another product holds. */
  function PatchError(st: Store, id: Id, patch: ProductPatch): Option<Error>
    requires id in st.products
  {
    var cur := st.products[id];
    if patch.barcode.Some? && Given(patch.barcode.value) && patch.barcode.value != cur.barcode
       && Taken(st.products, Barcode, patch.barcode.value.value) then Some(Duplicate)
    else if patch.category.Some? && patch.category.value !in st.categories then Some(NotFound)
    else if patch.supplier.Some? && patch.supplier.value.Some? && patch.supplier.value.value !in st.suppliers
    then Some(NotFound)
    else if patch.barcode.Some? && IndexClash(st.products, Barcode, id, patch.barcode.value) then Some(ServerError)
    else None
  }

  /** `updateProduto`: writes only the sent fields of one product. */
  function UpdateProduct(st: Store, id: Id, patch: ProductPatch): (r: Result<Store>)
    ensures id !in st.products ==> r == Err(NotFound)
    ensures r.Ok? <==> id in st.products && PatchError(st, id, patch).None?
    ensures r.Ok? ==>
      && r.value == st.(products := st.products[id := Merge(st.products[id], patch)])
      && r.value.products.Keys == st.products.Keys
    ensures r.Ok? && Unique(st.products, Barcode) ==> Unique(r.value.products, Barcode)
    ensures r.Ok? && Distinct(st.products, Barcode) ==> Distinct(r.value.products, Barcode)
    ensures id in st.products && patch.barcode.Some? && IndexClash(st.products, Barcode, id, patch.barcode.value) ==> r.Err?
  {
    if id !in st.products then Err(NotFound)
    else
      match PatchError(st, id, patch)
      case Some(e) => Err(e)
      case None =>
        ReplaceKeepsUnique(st.products, Barcode, id, Merge(st.products[id], patch));
        PutKeepsDistinct(st.products, Barcode, id, Merge(st.products[id], patch));
        Ok(st.(products := st.products[id := Merge(st.products[id], patch)]))
  }

  /** A barcode already used by another product is refused on update. */
  lemma {:induction false} UpdateRejectsTakenBarcode(st: Store, id: Id, other: Id, patch: ProductPatch)
    requires id in st.products && other in st.products && other != id
    requires patch.barcode.Some? && Given(patch.barcode.value)
    requires st.products[other].barcode == patch.barcode.value
    requires Unique(st.products, Barcode)
    ensures UpdateProduct(st, id, patch) == Err(Duplicate)
  {
    assert Taken(st.products, Barcode, patch.barcode.value.value);
  }

  /** Writing the stock column through the update bypasses the ledger, so a
      reconciled store stops being reconciled as soon as the value differs. */
  lemma {:induction false} UpdateStockBreaksReconciled(st: Store, id: Id, patch: ProductPatch)
    requires Reconciled(st)
    requires UpdateProduct(st, id, patch).Ok?
    requires patch.stock.Some? && patch.stock.value != st.products[id].stock
    ensures !Reconciled(UpdateProduct(st, id, patch).value)
  {
  }

  // ---------------------------------------------------------------------------
  // Stock adjustment

  datatype Adjusted = Adjusted(store: Store, before: real, after: real, diff: real)

  function Abs(x: real): (a: real)
    ensures a >= 0.0 && (a == x || a == -x)
  {
    if x < 0.0 then -x else x
  }

  /** `ajustarEstoque`: sets the stock to the given quantity and writes one
      movement for the difference, ENTRADA when it rose and SAIDA otherwise. */
  function AdjustStock(st: Store, id: Id, qty: Option<real>, reason: Option<string>, notes: Option<string>): (r: Result<Adjusted>)
    ensures !GivenNum(qty) || !Given(reason) ==> r == Err(Required)
    ensures GivenNum(qty) && Given(reason) && id !in st.products ==> r == Err(NotFound)
    ensures r.Ok? <==> GivenNum(qty) && Given(reason) && id in st.products
    ensures r.Ok? ==> |r.value.store.movements| == |st.movements| + 1
    ensures r.Ok? ==>
      var a := r.value;
      var m := a.store.movements[|st.movements|];
      && a.before == st.products[id].stock
      && a.after == qty.value
      && a.diff == a.after - a.before
      && a.store.products == st.products[id := st.products[id].(stock := qty.value)]
      && |a.store.movements| == |st.movements| + 1
      && a.store.movements[..|st.movements|] == st.movements
      && m.product == id
      && (m.direction == Entrada <==> a.after > a.before)
      && m.qty == Abs(a.diff)
      && Signed(m) == a.diff
      && m.reason == Upper(reason.value)
      && m.note == (if Given(notes) then Text(notes.value) else StockChange(a.before, a.after))
    ensures r.Ok? && Reconciled(st) ==> Reconciled(r.value.store)
  {
    if !GivenNum(qty) || !Given(reason) then Err(Required)
    else if id !in st.products then Err(NotFound)
    else
      var prev := st.products[id].stock;
      var diff := qty.value - prev;
      var m := Movement(id, if diff > 0.0 then Entrada else Saida, Abs(diff), Upper(reason.value),
                        if Given(notes) then Text(notes.value) else StockChange(prev, qty.value));
      NetAppend(st.movements, [m], id);
      AppendOthers(st.movements, m, id);
      Ok(Adjusted(st.(products := st.products[id := st.products[id].(stock := qty.value)],
                      movements := st.movements + [m]), prev, qty.value, diff))
  }

  /** One more movement for `id` leaves every other product's net unchanged. */
  lemma {:induction false} AppendOthers(ms: seq<Movement>, m: Movement, id: Id)
    requires m.product == id
    ensures forall p :: p != id ==> NetFor(ms + [m], p) == NetFor(ms, p)
  {
    forall p | p != id
      ensures NetFor(ms + [m], p) == NetFor(ms, p)
    {
      NetAppend(ms, [m], p);
      assert [m][1..] == [];
    }
  }

  /** Setting the stock to its current value still writes a movement: SAIDA
      with quantity 0. */
  lemma {:induction false} ZeroDeltaWritesSaidaZero(st: Store, id: Id, reason: string)
    requires id in st.products && st.products[id].stock != 0.0 && reason != ""
    ensures var r := AdjustStock(st, id, Some(st.products[id].stock), Some(reason), None);
      && r.Ok?
      && r.value.store.movements == st.movements + [Movement(id, Saida, 0.0, Upper(reason), StockChange(st.products[id].stock, st.products[id].stock))]
  {
  }

  /** Zero is not an accepted target quantity, although a negative one is. */
  lemma {:induction false} AdjustToZeroRejected(st: Store, id: Id, reason: Option<string>, notes: Option<string>)
    ensures AdjustStock(st, id, Some(0.0), reason, notes) == Err(Required)
  {
  }

  // ---------------------------------------------------------------------------
  // Low-stock list

  /** The database query: active products at or below the minimum, or at zero. */
  function QueryLowStock(rows: seq<Product>): (r: seq<Product>)
    ensures |r| <= |rows|
    ensures forall x :: x in r <==> x in rows && x.active && (x.stock <= x.minStock || x.stock == 0.0)
  {
    if rows == [] then []
    else
      var rest := QueryLowStock(rows[1..]);
      assert forall x :: x in rows <==> x == rows[0] || x in rows[1..];
      var x := rows[0];
      if x.active && (x.stock <= x.minStock || x.stock == 0.0) then [x] + rest else rest
  }

  /** The in-memory filter applied to the query result: at or below the minimum. */
  function KeepBelowMinimum(rows: seq<Product>): (r: seq<Product>)
    ensures |r| <= |rows|
    ensures forall x :: x in r <==> x in rows && x.stock <= x.minStock
  {
    if rows == [] then []
    else
      var rest := KeepBelowMinimum(rows[1..]);
      assert forall x :: x in rows <==> x == rows[0] || x in rows[1..];
      if rows[0].stock <= rows[0].minStock then [rows[0]] + rest else rest
  }

  /** `getProdutosBaixoEstoque`: the query followed by the in-memory filter. */
  function LowStock(rows: seq<Product>): seq<Product> {
    KeepBelowMinimum(QueryLowStock(rows))
  }

  /** The reference definition: one pass keeping active products at or below
      their minimum. */
  function ActiveBelowMinimum(rows: seq<Product>): seq<Product> {
    if rows == [] then []
    else
      var rest := ActiveBelowMinimum(rows[1..]);
      if rows[0].active && rows[0].stock <= rows[0].minStock then [rows[0]] + rest else rest
  }

  /** The two stages keep exactly the active products at or below their
      minimum, in the query's order: the "stock is zero" alternative of the
      query adds nothing that survives the second stage. */
  lemma {:induction false} LowStockIsActiveBelowMinimum(rows: seq<Product>)
    ensures LowStock(rows) == ActiveBelowMinimum(rows)
  {
    if rows != [] {
      LowStockIsActiveBelowMinimum(rows[1..]);
      var x := rows[0];
      var q := QueryLowStock(rows[1..]);
      if x.active && (x.stock <= x.minStock || x.stock == 0.0) {
        assert QueryLowStock(rows) == [x] + q;
        assert ([x] + q)[1..] == q;
      }
    }
  }

  lemma {:induction false} LowStockMembers(rows: seq<Product>)
    ensures forall x :: x in LowStock(rows) <==> x in rows && x.active && x.stock <= x.minStock
    ensures forall x :: x in LowStock(rows) ==> Flag(x) == BAIXO
  {
  }
}

=== FILE: purchases.dfy ===
/**
  Purchases (`compraController`): a purchase is recorded as PENDENTE without
  touching stock; confirming it brings every line into stock with one
  ENTRADA/COMPRA movement and makes each product's cost the last price paid;
  a pending purchase can instead be cancelled. CONCLUIDA and CANCELADA are
  terminal.
 */
module Purchases {
  import opened Base
  import opened Entities
  import opened Ledger
  import opened SaleNumbers

  /** One requested line; every field may be missing from the request. */
  datatype PurchaseItem = PurchaseItem(product: Option<Id>, qty: Option<real>, unitPrice: Option<real>)

  /** The request body. A missing `data_compra` defaults to the current time. */
  datatype PurchaseRequest = PurchaseRequest(
    supplier: Option<Id>,
    items: seq<PurchaseItem>,
    notes: Option<string>,
    invoice: Option<string>,
    date: Option<int>)

  datatype Created = Created(store: Store, id: Id)

  // ---------------------------------------------------------------------------
  // Line validation

  /** Product, quantity and unit price are all present and truthy. */
  predicate Complete(it: PurchaseItem) {
    it.product.Some? && GivenNum(it.qty) && GivenNum(it.unitPrice)
  }

  predicate Acceptable(products: map<Id, Product>, it: PurchaseItem) {
    Complete(it) && it.product.value in products
  }

  function ItemError(it: PurchaseItem): Error {
    if Complete(it) then NotFound else Required
  }

  function Line(it: PurchaseItem): (l: PurchaseLine)
    requires Complete(it)
    ensures l.subtotal == l.qty * l.unitPrice
  {
    PurchaseLine(it.product.value, it.qty.value, it.unitPrice.value, it.qty.value * it.unitPrice.value)
  }

  predicate FirstRejected(products: map<Id, Product>, items: seq<PurchaseItem>, k: int) {
    && 0 <= k < |items|
    && !Acceptable(products, items[k])
    && forall j :: 0 <= j < k ==> Acceptable(products, items[j])
  }

  /** Checks the lines in order; the first failing line decides the error. */
  function ValidateItems(products: map<Id, Product>, items: seq<PurchaseItem>): (r: Result<seq<PurchaseLine>>)
    ensures r.Ok? <==> forall i :: 0 <= i < |items| ==> Acceptable(products, items[i])
    ensures r.Ok? ==> |r.value| == |items|
    ensures r.Ok? ==> forall i :: 0 <= i < |items| ==> Complete(items[i]) && r.value[i] == Line(items[i])
    ensures r.Err? ==> exists k :: FirstRejected(products, items, k) && r.error == ItemError(items[k])
  {
    if items == [] then Ok([])
    else if !Acceptable(products, items[0]) then
      assert FirstRejected(products, items, 0);
      Err(ItemError(items[0]))
    else
      match ValidateItems(products, items[1..])
      case Err(e) =>
        assert exists k :: FirstRejected(products, items, k) && e == ItemError(items[k]) by {
          var k :| FirstRejected(products, items[1..], k) && e == ItemError(items[1..][k]);
          assert FirstRejected(products, items, k + 1);
        }
        Err(e)
      case Ok(rest) => Ok([Line(items[0])] + rest)
  }

  function Subtotals(lines: seq<PurchaseLine>): (ts: seq<real>)
    ensures |ts| == |lines|
    ensures forall i :: 0 <= i < |lines| ==> ts[i] == lines[i].subtotal
  {
    seq(|lines|, i requires 0 <= i < |lines| => lines[i].subtotal)
  }

  function Flows(lines: seq<PurchaseLine>): (fs: seq<Flow>)
    ensures |fs| == |lines|
    ensures forall i :: 0 <= i < |lines| ==> fs[i] == Flow(lines[i].product, lines[i].qty)
  {
    seq(|lines|, i requires 0 <= i < |lines| => Flow(lines[i].product, lines[i].qty))
  }

  function Numbers(purchases: map<Id, Purchase>): set<nat> {
    set id | id in purchases :: purchases[id].number
  }

  // ---------------------------------------------------------------------------
  // Creation

  /** `createCompra`: records a pending purchase numbered one past the
      highest number so far. Stock and the ledger are untouched. */
  function CreatePurchase(st: Store, req: PurchaseRequest, now: int): (r: Result<Created>)
    ensures r.Ok? <==>
      && req.supplier.Some?
      && |req.items| > 0
      && req.supplier.value in st.suppliers
      && forall i :: 0 <= i < |req.items| ==> Acceptable(st.products, req.items[i])
    ensures req.supplier.None? || |req.items| == 0 ==> r == Err(Required)
    ensures req.supplier.Some? && |req.items| > 0 && req.supplier.value !in st.suppliers ==> r == Err(NotFound)
    ensures r.Err? && req.supplier.Some? && req.supplier.value in st.suppliers && |req.items| > 0 ==>
      exists k :: FirstRejected(st.products, req.items, k) && r.error == ItemError(req.items[k])
    ensures r.Ok? ==> r.value.id !in st.purchases && r.value.id in r.value.store.purchases
    ensures r.Ok? ==>
      var s := r.value.store;
      var pu := s.purchases[r.value.id];
      && s == st.(purchases := st.purchases[r.value.id := pu])
      && pu.status == Pendente
      && pu.confirmedAt == None
      && pu.supplier == req.supplier.value
      && pu.date == req.date.GetOr(now)
      && (forall id :: id in st.purchases ==> st.purchases[id].number < pu.number)
      && (st.purchases == map[] ==> pu.number == 1)
      && |pu.lines| == |req.items|
      && (forall i :: 0 <= i < |req.items| ==> Complete(req.items[i]) && pu.lines[i] == Line(req.items[i]))
      && pu.total == Sum(Subtotals(pu.lines))
  {
    if req.supplier.None? || |req.items| == 0 then Err(Required)
    else if req.supplier.value !in st.suppliers then Err(NotFound)
    else
      var number := NextNumber(Numbers(st.purchases));
      assert forall id :: id in st.purchases ==> st.purchases[id].number in Numbers(st.purchases);
      var lines :- ValidateItems(st.products, req.items);
      var id := NextNumber(st.purchases.Keys);
      var pu := Purchase(number, req.supplier.value, req.date.GetOr(now), Sum(Subtotals(lines)),
                         req.invoice, req.notes, Pendente, None, lines);
      Ok(Created(st.(purchases := st.purchases[id := pu]), id))
  }

  // ---------------------------------------------------------------------------
  // Confirmation

  /** The unit price of the last line for `p`, if any line is for `p`. */
  function LastPrice(lines: seq<PurchaseLine>, p: Id): (r: Option<real>)
    ensures r.None? <==> forall i :: 0 <= i < |lines| ==> lines[i].product != p
    ensures r.Some? ==> exists k :: LastLineFor(lines, p, k) && r.value == lines[k].unitPrice
  {
    if lines == [] then None
    else
      match LastPrice(lines[1..], p)
      case Some(v) =>
        assert exists k :: LastLineFor(lines, p, k) && v == lines[k].unitPrice by {
          var k :| LastLineFor(lines[1..], p, k) && v == lines[1..][k].unitPrice;
          assert LastLineFor(lines, p, k + 1);
        }
        Some(v)
      case None =>
        if lines[0].product == p then
          assert LastLineFor(lines, p, 0);
          Some(lines[0].unitPrice)
        else None
  }

  predicate LastLineFor(lines: seq<PurchaseLine>, p: Id, k: int) {
    && 0 <= k < |lines|
    && lines[k].product == p
    && forall j :: k < j < |lines| ==> lines[j].product != p
  }

  /** Sets each line's product cost to the line's price, in line order, so the
      last line for a product wins. */
  function Recost(products: map<Id, Product>, lines: seq<PurchaseLine>): (r: map<Id, Product>)
    requires forall i :: 0 <= i < |lines| ==> lines[i].product in products
    ensures r.Keys == products.Keys
    ensures forall p :: p in products ==> r[p] == products[p].(cost := LastPrice(lines, p).GetOr(products[p].cost))
  {
    if lines == [] then products
    else
      var l := lines[0];
      LastPriceStep(lines);
      Recost(products[l.product := products[l.product].(cost := l.unitPrice)], lines[1..])
  }

  /** A later line's price overrides the first line's. */
  lemma {:induction false} LastPriceStep(lines: seq<PurchaseLine>)
    requires lines != []
    ensures forall p, c ::
      LastPrice(lines, p).GetOr(c) == LastPrice(lines[1..], p).GetOr(if lines[0].product == p then lines[0].unitPrice else c)
  {
  }

  function PurchaseNote(number: nat): Note {
    Text("Entrada por compra #" + ToDecimal(number))
  }

  /** `confirmarCompra`: only a pending purchase can be confirmed; every
      line's quantity enters stock, its product's cost becomes the price
      paid, and one ENTRADA/COMPRA movement is written per line. A line whose
      product row is gone makes the product update throw, and the whole
      transaction rolls back. */
  function ConfirmPurchase(st: Store, id: Id, now: int): (r: Result<Store>)
    ensures id !in st.purchases ==> r == Err(NotFound)
    ensures id in st.purchases && st.purchases[id].status != Pendente ==> r == Err(InvalidState)
    ensures (id in st.purchases && st.purchases[id].status == Pendente
             && !FlowsKnown(st.products, Flows(st.purchases[id].lines))) ==> r == Err(ServerError)
    ensures r.Ok? <==>
      && id in st.purchases
      && st.purchases[id].status == Pendente
      && FlowsKnown(st.products, Flows(st.purchases[id].lines))
    ensures r.Ok? ==>
      var pu := st.purchases[id];
      && r.value.purchases == st.purchases[id := pu.(status := Concluida, confirmedAt := Some(now))]
      && r.value.products.Keys == st.products.Keys
      && (forall p :: p in st.products ==>
            r.value.products[p] == st.products[p].(
              stock := st.products[p].stock + QtyFor(Flows(pu.lines), p),
              cost := LastPrice(pu.lines, p).GetOr(st.products[p].cost)))
      && r.value.movements == st.movements + Emit(Flows(pu.lines), Entrada, COMPRA, PurchaseNote(pu.number))
      && r.value.sales == st.sales && r.value.customers == st.customers
      && r.value.suppliers == st.suppliers && r.value.categories == st.categories
    ensures r.Ok? && Reconciled(st) ==> Reconciled(r.value)
  {
    if id !in st.purchases then Err(NotFound)
    else
      var pu := st.purchases[id];
      if pu.status != Pendente then Err(InvalidState)
      else if !FlowsKnown(st.products, Flows(pu.lines)) then Err(ServerError)
      else
        var posted := Post(st, Flows(pu.lines), Entrada, COMPRA, PurchaseNote(pu.number));
        ConfirmedProducts(st.products, posted.products, pu.lines);
        var r := posted.(purchases := st.purchases[id := pu.(status := Concluida, confirmedAt := Some(now))],
                         products := Recost(posted.products, pu.lines));
        RecostKeepsReconciled(posted, r);
        Ok(r)
  }

  /** Receiving the lines and then re-costing from them: each product's
      stock goes up by its quantity and its cost becomes its last price. */
  lemma {:induction false} ConfirmedProducts(before: map<Id, Product>, posted: map<Id, Product>, lines: seq<PurchaseLine>)
    requires FlowsKnown(before, Flows(lines))
    requires Moved(before, posted, Flows(lines), Entrada)
    ensures forall i :: 0 <= i < |lines| ==> lines[i].product in posted
    ensures Recost(posted, lines).Keys == before.Keys
    ensures forall p :: p in before ==>
      Recost(posted, lines)[p] == before[p].(
        stock := before[p].stock + QtyFor(Flows(lines), p),
        cost := LastPrice(lines, p).GetOr(before[p].cost))
  {
    forall i | 0 <= i < |lines|
      ensures lines[i].product in posted
    {
      assert Flows(lines)[i].product == lines[i].product;
    }
  }

  /** Re-costing touches no stock, so a reconciled store stays reconciled. */
  lemma {:induction false} RecostKeepsReconciled(posted: Store, r: Store)
    requires r.movements == posted.movements && r.products.Keys == posted.products.Keys
    requires forall p :: p in posted.products ==> r.products[p].stock == posted.products[p].stock
    ensures Reconciled(posted) ==> Reconciled(r)
  {
  }

  // ---------------------------------------------------------------------------
  // Cancellation

  /** With a reason, the old notes (or nothing) followed by a line
      "Cancelada: <reason>"; without one, the notes as they were. */
  function CancelNotes(notes: Option<string>, reason: Option<string>): (r: Option<string>)
    ensures !Given(reason) ==> r == notes
    ensures Given(reason) && Given(notes) ==> r == Some(notes.value + "\nCancelada: " + reason.value)
    ensures Given(reason) && !Given(notes) ==> r == Some("\nCancelada: " + reason.value)
  {
    if !Given(reason) then notes
    else if Given(notes) then Some(notes.value + "\nCancelada: " + reason.value)
    else Some("\nCancelada: " + reason.value)
  }

  /** `cancelarCompra`: only a pending purchase can be cancelled; stock is
      untouched because a pending purchase never moved it. */
  function CancelPurchase(st: Store, id: Id, reason: Option<string>): (r: Result<Store>)
    ensures id !in st.purchases ==> r == Err(NotFound)
    ensures id in st.purchases && st.purchases[id].status != Pendente ==> r == Err(InvalidState)
    ensures r.Ok? <==> id in st.purchases && st.purchases[id].status == Pendente
    ensures r.Ok? ==>
      var pu := st.purchases[id];
      r.value == st.(purchases := st.purchases[id := pu.(status := Cancelada, notes := CancelNotes(pu.notes, reason))])
  {
    if id !in st.purchases then Err(NotFound)
    else
      var pu := st.purchases[id];
      if pu.status != Pendente then Err(InvalidState)
      else Ok(st.(purchases := st.purchases[id := pu.(status := Cancelada, notes := CancelNotes(pu.notes, reason))]))
  }

  // ---------------------------------------------------------------------------
  // Laws

  /** CONCLUIDA and CANCELADA are terminal: once a purchase has left
      PENDENTE, neither transition is accepted again, so its stock enters at
      most once. */
  lemma {:induction false} ConfirmedIsTerminal(st: Store, id: Id, now: int, later: int, reason: Option<string>)
    requires ConfirmPurchase(st, id, now).Ok?
    ensures ConfirmPurchase(ConfirmPurchase(st, id, now).value, id, later) == Err(InvalidState)
    ensures CancelPurchase(ConfirmPurchase(st, id, now).value, id, reason) == Err(InvalidState)
  {
  }

  lemma {:induction false} CancelledIsTerminal(st: Store, id: Id, reason: Option<string>, now: int, again: Option<string>)
    requires CancelPurchase(st, id, reason).Ok?
    ensures ConfirmPurchase(CancelPurchase(st, id, reason).value, id, now) == Err(InvalidState)
    ensures CancelPurchase(CancelPurchase(st, id, reason).value, id, again) == Err(InvalidState)
  {
  }

  /** A freshly created purchase can be confirmed, and confirming it adds
      each requested quantity to its product's stock. */
  /** Every product of `before` is still there, its stock raised by the
      quantity the flows bring in. */
  predicate Stocked(before: map<Id, Product>, after: map<Id, Product>, fs: seq<Flow>) {
    forall p :: p in before ==> p in after && after[p].stock == before[p].stock + QtyFor(fs, p)
  }

  lemma {:induction false} CreateThenConfirm(st: Store, req: PurchaseRequest, now: int, later: int, c: Created)
    requires CreatePurchase(st, req, now) == Ok(c)
    ensures forall i :: 0 <= i < |req.items| ==> req.items[i].product.Some? && req.items[i].qty.Some?
    ensures ConfirmPurchase(c.store, c.id, later).Ok?
      && Stocked(st.products, ConfirmPurchase(c.store, c.id, later).value.products, ItemFlows(req.items))
  {
    var pu := c.store.purchases[c.id];
    assert Flows(pu.lines) == ItemFlows(req.items);
    assert FlowsKnown(c.store.products, Flows(pu.lines));
  }

  /** The (product, quantity) pairs of a request whose lines are complete. */
  function ItemFlows(items: seq<PurchaseItem>): (fs: seq<Flow>)
    requires forall i :: 0 <= i < |items| ==> items[i].product.Some? && items[i].qty.Some?
    ensures |fs| == |items|
    ensures forall i :: 0 <= i < |items| ==> fs[i] == Flow(items[i].product.value, items[i].qty.value)
  {
    seq(|items|, i requires 0 <= i < |items| => Flow(items[i].product.value, items[i].qty.value))
  }

  /** A product bought on one line only costs that line's price afterwards. */
  lemma {:induction false} ConfirmSetsCost(st: Store, id: Id, now: int, k: nat)
    requires ConfirmPurchase(st, id, now).Ok?
    requires var lines := st.purchases[id].lines;
      k < |lines| && forall j :: k < j < |lines| ==> lines[j].product != lines[k].product
    ensures var l := st.purchases[id].lines[k];
      ConfirmPurchase(st, id, now).value.products[l.product].cost == l.unitPrice
  {
    var lines := st.purchases[id].lines;
    var p := lines[k].product;
    var v := LastPrice(lines, p);
    var j :| LastLineFor(lines, p, j) && v.value == lines[j].unitPrice;
    assert j == k;
  }
}

=== FILE: ranking.dfy ===
/**
  The "top 10" of the customer and supplier reports: keep the rows whose
  total is positive, sort them by total, largest first (a stable sort, as
  `Array.prototype.sort` is), and keep at most ten.
 */
module Ranking {
  import opened Base

  datatype Scored<T> = Scored(item: T, total: real)

  /** What a ranking shows of a customer or supplier; `count` is the number
      of sales or purchases behind the total. */
  datatype TopEntry = TopEntry(id: Id, name: string, phone: Option<string>, count: nat)

  predicate SortedDesc<T>(s: seq<Scored<T>>) {
    forall i, j :: 0 <= i < j < |s| ==> s[i].total >= s[j].total
  }

  /** `.filter(x => x.total > 0)`. */
  function Positive<T(==,!new)>(xs: seq<Scored<T>>): (r: seq<Scored<T>>)
    ensures forall i :: 0 <= i < |r| ==> r[i].total > 0.0
    ensures forall x :: multiset(r)[x] == if x.total > 0.0 then multiset(xs)[x] else 0
    ensures |r| <= |xs|
  {
    if xs == [] then []
    else
      var rest := Positive(xs[1..]);
      assert xs == [xs[0]] + xs[1..];
      assert multiset(xs) == multiset{xs[0]} + multiset(xs[1..]);
      if xs[0].total > 0.0 then [xs[0]] + rest else rest
  }

  /** Inserts `x` after every element whose total is at least its own, which
      keeps equal totals in arrival order. */
  function InsertDesc<T(==,!new)>(s: seq<Scored<T>>, x: Scored<T>): (r: seq<Scored<T>>)
    ensures multiset(r) == multiset(s) + multiset{x}
    ensures |r| == |s| + 1
  {
    if s == [] then [x]
    else if s[0].total >= x.total then
      assert s == [s[0]] + s[1..];
      [s[0]] + InsertDesc(s[1..], x)
    else [x] + s
  }

  lemma {:induction false} InsertDescSorted<T(!new)>(s: seq<Scored<T>>, x: Scored<T>)
    requires SortedDesc(s)
    ensures SortedDesc(InsertDesc(s, x))
  {
    if s != [] && s[0].total >= x.total {
      assert SortedDesc(s[1..]);
      InsertDescSorted(s[1..], x);
      HeadBoundsInsert(s, x);
      ConsSorted(s[0], InsertDesc(s[1..], x));
    } else if s != [] {
      ConsSorted(x, s);
    }
  }

  /** The head of a sorted list outranks everything inserted behind it. */
  lemma {:induction false} HeadBoundsInsert<T(!new)>(s: seq<Scored<T>>, x: Scored<T>)
    requires SortedDesc(s) && s != [] && s[0].total >= x.total
    ensures forall y :: y in InsertDesc(s[1..], x) ==> s[0].total >= y.total
  {
    var rest := InsertDesc(s[1..], x);
    forall y | y in rest
      ensures s[0].total >= y.total
    {
      assert y in multiset(rest);
      if y != x {
        assert y in multiset(s[1..]);
        var k :| 0 <= k < |s[1..]| && s[1..][k] == y;
        assert s[k + 1] == y;
      }
    }
  }

  /** A sorted list stays sorted behind an element that outranks all of it. */
  lemma {:induction false} ConsSorted<T>(h: Scored<T>, rest: seq<Scored<T>>)
    requires SortedDesc(rest)
    requires forall y :: y in rest ==> h.total >= y.total
    ensures SortedDesc([h] + rest)
  {
    var r := [h] + rest;
    forall i, j | 0 <= i < j < |r|
      ensures r[i].total >= r[j].total
    {
      assert r[j] == rest[j - 1];
      if i > 0 {
        assert r[i] == rest[i - 1];
      }
    }
  }

  /** Insertion sort, largest total first; `SortDescStable` shows it is
      stable. */
  function SortDesc<T(==,!new)>(xs: seq<Scored<T>>): (r: seq<Scored<T>>)
    ensures multiset(r) == multiset(xs)
    ensures |r| == |xs|
    ensures SortedDesc(r)
  {
    if xs == [] then []
    else
      assert xs == xs[..|xs| - 1] + [xs[|xs| - 1]];
      var init := SortDesc(xs[..|xs| - 1]);
      InsertDescSorted(init, xs[|xs| - 1]);
      InsertDesc(init, xs[|xs| - 1])
  }

  /** The elements of `s` whose total is `v`, in their order. */
  function Tied<T>(s: seq<Scored<T>>, v: real): seq<Scored<T>> {
    if s == [] then []
    else Tied(s[..|s| - 1], v) + (if s[|s| - 1].total == v then [s[|s| - 1]] else [])
  }

  lemma {:induction false} TiedAppend<T>(a: seq<Scored<T>>, b: seq<Scored<T>>, v: real)
    ensures Tied(a + b, v) == Tied(a, v) + Tied(b, v)
  {
    if b == [] {
      assert a + b == a;
    } else {
      var ab := a + b;
      assert ab[..|ab| - 1] == a + b[..|b| - 1];
      TiedAppend(a, b[..|b| - 1], v);
    }
  }

  /** Nothing in a sorted list headed below `v` has total `v`. */
  lemma {:induction false} TiedNone<T>(s: seq<Scored<T>>, v: real)
    requires SortedDesc(s) && (s != [] ==> s[0].total < v)
    ensures Tied(s, v) == []
  {
    if s != [] {
      TiedNone(s[..|s| - 1], v);
    }
  }

  /** Inserting places `x` behind every element of its own total. */
  lemma {:induction false} InsertDescTied<T(!new)>(s: seq<Scored<T>>, x: Scored<T>, v: real)
    requires SortedDesc(s)
    ensures Tied(InsertDesc(s, x), v) == Tied(s, v) + (if x.total == v then [x] else [])
  {
    if s == [] {
      TiedAppend([], [x], v);
    } else if s[0].total >= x.total {
      assert SortedDesc(s[1..]);
      InsertDescTied(s[1..], x, v);
      TiedAppend([s[0]], InsertDesc(s[1..], x), v);
      TiedAppend([s[0]], s[1..], v);
      assert [s[0]] + s[1..] == s;
    } else {
      TiedAppend([x], s, v);
      TiedAppend([], [x], v);
      if x.total == v {
        TiedNone(s, v);
      }
    }
  }

  /** The sort is stable: elements of equal total keep their order. */
  lemma {:induction false} SortDescStable<T(!new)>(xs: seq<Scored<T>>, v: real)
    ensures Tied(SortDesc(xs), v) == Tied(xs, v)
  {
    if xs != [] {
      var init := xs[..|xs| - 1];
      SortDescStable(init, v);
      InsertDescTied(SortDesc(init), xs[|xs| - 1], v);
    }
  }

  function Min(a: nat, b: nat): nat {
    if a <= b then a else b
  }

  /** `.filter(total > 0).sort(desc).slice(0, 10)`: the ranking is ordered,
      holds only positive totals, holds ten of them or all there are, and
      takes nothing that was not in the input. */
  function Top10<T(==,!new)>(xs: seq<Scored<T>>): (r: seq<Scored<T>>)
    ensures SortedDesc(r)
    ensures forall i :: 0 <= i < |r| ==> r[i].total > 0.0
    ensures |r| == Min(10, |Positive(xs)|)
    ensures multiset(r) <= multiset(xs)
  {
    var sorted := SortDesc(Positive(xs));
    PrefixFacts(Positive(xs), sorted, Min(10, |sorted|));
    sorted[..Min(10, |sorted|)]
  }

  lemma {:induction false} PrefixFacts<T(!new)>(p: seq<Scored<T>>, s: seq<Scored<T>>, n: nat)
    requires multiset(s) == multiset(p) && n <= |s|
    requires forall i :: 0 <= i < |p| ==> p[i].total > 0.0
    ensures forall i :: 0 <= i < n ==> s[..n][i].total > 0.0
    ensures multiset(s[..n]) <= multiset(p)
  {
    assert s == s[..n] + s[n..];
    forall i | 0 <= i < n
      ensures s[..n][i].total > 0.0
    {
      assert s[i] in multiset(p);
    }
  }

  /** In a sequence sorted largest first, everything after position `n` is
      no larger than anything before it. */
  lemma {:induction false} SortedSplit<T(!new)>(s: seq<Scored<T>>, n: nat)
    requires SortedDesc(s) && n <= |s|
    ensures forall x, i :: x in multiset(s[n..]) && 0 <= i < n ==> s[i].total >= x.total
  {
    forall x, i | x in multiset(s[n..]) && 0 <= i < n
      ensures s[i].total >= x.total
    {
      assert x in s[n..];
      var j :| 0 <= j < |s[n..]| && s[n..][j] == x;
      assert s[n + j] == x;
    }
  }

  /** Every positive row the ranking leaves out has a total no larger than
      any row it keeps. */
  lemma {:induction false} Top10KeepsLargest<T(!new)>(xs: seq<Scored<T>>)
    ensures var r := Top10(xs);
      forall x, i :: x in multiset(Positive(xs)) - multiset(r) && 0 <= i < |r| ==> r[i].total >= x.total
  {
    var s := SortDesc(Positive(xs));
    var n := Min(10, |s|);
    var r := Top10(xs);
    assert r == s[..n];
    MultisetSplit(s, n);
    SortedSplit(s, n);
  }

  lemma {:induction false} MultisetSplit<T(!new)>(s: seq<T>, n: nat)
    requires n <= |s|
    ensures multiset(s) - multiset(s[..n]) == multiset(s[n..])
  {
    assert s == s[..n] + s[n..];
  }

  /** The same two facts element by element: a ranked row is a positive row
      of the input, and a positive row that is not ranked is outranked by every
      row that is. */
  lemma {:induction false} Top10Members<T(!new)>(xs: seq<Scored<T>>)
    ensures forall x :: x in Top10(xs) ==> x in xs && x.total > 0.0
    ensures forall x, i :: x in xs && x.total > 0.0 && x !in Top10(xs) && 0 <= i < |Top10(xs)| ==>
      Top10(xs)[i].total >= x.total
  {
    var r := Top10(xs);
    forall x | x in r
      ensures x in xs && x.total > 0.0
    {
      assert x in multiset(r);
      var k :| 0 <= k < |r| && r[k] == x;
    }
    Top10KeepsLargest(xs);
    forall x | x in xs && x.total > 0.0 && x !in r
      ensures x in multiset(Positive(xs)) - multiset(r)
    {
      assert x in multiset(xs);
      assert multiset(r)[x] == 0;
    }
  }

  /** Fewer than ten positive rows all make the list. */
  lemma {:induction false} SmallInputAllRanked<T(!new)>(xs: seq<Scored<T>>)
    requires |Positive(xs)| <= 10
    ensures multiset(Top10(xs)) == multiset(Positive(xs))
  {
    var s := SortDesc(Positive(xs));
    assert s[..|s|] == s;
  }
}

=== FILE: registry.dfy ===
/**
  The uniqueness rule shared by product barcodes, customer CPFs, supplier
  CNPJs and category names: a create is refused when its non-empty key is
  already in use, and an update is refused when it changes the key to one in
  use. Both keep the table's non-empty keys pairwise distinct. A column with
  a unique index in the database (the barcode) is stricter: the empty string
  is a key like any other there, and only absent keys may repeat.
 */
module Registry {
  import opened Base

  /** Some row already carries `code` as its key (`findFirst({ where: { key } })`). */
  predicate Taken<T>(rows: map<Id, T>, key: T -> Option<string>, code: string) {
    exists q :: q in rows && key(rows[q]) == Some(code)
  }

  /** No two rows share a non-empty key. */
  predicate Unique<T>(rows: map<Id, T>, key: T -> Option<string>) {
    forall a, b :: a in rows && b in rows && a != b && Given(key(rows[a])) ==> key(rows[a]) != key(rows[b])
  }

  /** The create-side check: an empty key or one nobody uses. */
  predicate FreeFor<T>(rows: map<Id, T>, key: T -> Option<string>, k: Option<string>) {
    Given(k) ==> !Taken(rows, key, k.value)
  }

  /** Adding a row under a new id keeps the keys unique when the create-side
      check passed. */
  lemma {:induction false} AddKeepsUnique<T>(rows: map<Id, T>, key: T -> Option<string>, id: Id, row: T)
    requires id !in rows
    requires FreeFor(rows, key, key(row))
    ensures Unique(rows, key) ==> Unique(rows[id := row], key)
  {
    if Unique(rows, key) {
      var r := rows[id := row];
      forall a, b | a in r && b in r && a != b && Given(key(r[a]))
        ensures key(r[a]) != key(r[b])
      {
        if a == id {
          assert key(r[b]) == key(rows[b]);
        } else if b == id {
          assert key(r[a]) == key(rows[a]);
        }
      }
    }
  }

  /** Replacing a row keeps the keys unique when its key is unchanged, empty,
      or not in use: the update-side check. */
  lemma {:induction false} ReplaceKeepsUnique<T>(rows: map<Id, T>, key: T -> Option<string>, id: Id, row: T)
    requires id in rows
    requires key(row) == key(rows[id]) || FreeFor(rows, key, key(row))
    ensures Unique(rows, key) ==> Unique(rows[id := row], key)
  {
    if Unique(rows, key) {
      var r := rows[id := row];
      forall a, b | a in r && b in r && a != b && Given(key(r[a]))
        ensures key(r[a]) != key(r[b])
      {
        if a == id && key(row) != key(rows[id]) {
          assert key(r[b]) == key(rows[b]);
        } else if b == id && key(row) != key(rows[id]) {
          assert key(r[a]) == key(rows[a]);
        }
      }
    }
  }

  /** When keys are unique, a key in use names exactly one row. */
  lemma {:induction false} TakenByOne<T>(rows: map<Id, T>, key: T -> Option<string>, a: Id, b: Id)
    requires Unique(rows, key)
    requires a in rows && b in rows && Given(key(rows[a])) && key(rows[a]) == key(rows[b])
    ensures a == b
  {
  }

  /** What a unique database index keeps: no two rows share a present key,
      the empty string included. */
  predicate Distinct<T>(rows: map<Id, T>, key: T -> Option<string>) {
    forall a, b :: a in rows && b in rows && a != b && key(rows[a]).Some? ==> key(rows[a]) != key(rows[b])
  }

  /** The unique index refuses to store `k` in row `id`: another row holds it. */
  predicate IndexClash<T>(rows: map<Id, T>, key: T -> Option<string>, id: Id, k: Option<string>) {
    k.Some? && exists q :: q in rows && q != id && key(rows[q]) == k
  }

  /** A write the index accepts, or one that keeps the row's key, keeps the
      column distinct. */
  lemma {:induction false} PutKeepsDistinct<T>(rows: map<Id, T>, key: T -> Option<string>, id: Id, row: T)
    requires !IndexClash(rows, key, id, key(row)) || (id in rows && key(row) == key(rows[id]))
    ensures Distinct(rows, key) ==> Distinct(rows[id := row], key)
  {
    if Distinct(rows, key) {
      var r := rows[id := row];
      forall a, b | a in r && b in r && a != b && key(r[a]).Some?
        ensures key(r[a]) != key(r[b])
      {
        if a == id {
          assert key(r[b]) == key(rows[b]);
        } else if b == id {
          assert key(r[a]) == key(rows[a]);
        }
      }
    }
  }
}

=== FILE: sale_numbers.dfy ===
/**
  Sale numbers: the next number is rendered in decimal and left-padded with
  zeros to six characters (`toString().padStart(6, '0')`), and read back with
  `parseInt`.
 */
module SaleNumbers {

  function Digit(d: nat): char
    requires d < 10
  {
    ('0' as int + d) as char
  }

  predicate IsDigit(c: char) {
    '0' <= c <= '9'
  }

  function DigitValue(c: char): nat {
    if IsDigit(c) then c as int - '0' as int else 0
  }

  predicate AllDigits(s: string) {
    forall i :: 0 <= i < |s| ==> IsDigit(s[i])
  }

  function Pow10(k: nat): nat {
    if k == 0 then 1 else 10 * Pow10(k - 1)
  }

  /** `n.toString()`: most significant digit first, no leading zeros. */
  function ToDecimal(n: nat): (s: string)
    ensures |s| >= 1
    ensures AllDigits(s)
    ensures n >= 10 ==> s[0] != '0'
  {
    if n < 10 then [Digit(n)] else ToDecimal(n / 10) + [Digit(n % 10)]
  }

  /** `parseInt` on a string of decimal digits. */
  function ParseDecimal(s: string): nat {
    if s == [] then 0 else ParseDecimal(s[..|s| - 1]) * 10 + DigitValue(s[|s| - 1])
  }

  /** `s.padStart(width, c)`. */
  function PadStart(s: string, width: nat, c: char): (r: string)
    ensures |r| == if |s| >= width then |s| else width
    ensures r[|r| - |s|..] == s
    ensures forall i :: 0 <= i < |r| - |s| ==> r[i] == c
  {
    if |s| >= width then s else seq(width - |s|, _ => c) + s
  }

  /** The label a sale is stored under. */
  function SaleLabel(n: nat): string {
    PadStart(ToDecimal(n), 6, '0')
  }

  lemma {:induction false} ParseToDecimal(n: nat)
    ensures ParseDecimal(ToDecimal(n)) == n
  {
    var s := ToDecimal(n);
    if n < 10 {
      assert s[..0] == [];
    } else {
      ParseToDecimal(n / 10);
      assert s[..|s| - 1] == ToDecimal(n / 10);
    }
  }

  lemma {:induction false} ParseZeros(z: string)
    requires forall i :: 0 <= i < |z| ==> z[i] == '0'
    ensures ParseDecimal(z) == 0
  {
    if z != [] {
      ParseZeros(z[..|z| - 1]);
    }
  }

  /** Leading zeros do not change what `parseInt` reads. */
  lemma {:induction false} ParseLeadingZeros(z: string, s: string)
    requires forall i :: 0 <= i < |z| ==> z[i] == '0'
    ensures ParseDecimal(z + s) == ParseDecimal(s)
  {
    if s == [] {
      assert z + s == z;
      ParseZeros(z);
    } else {
      var t := z + s;
      assert t[..|t| - 1] == z + s[..|s| - 1];
      assert t[|t| - 1] == s[|s| - 1];
      ParseLeadingZeros(z, s[..|s| - 1]);
    }
  }

  /** A number has at most k digits exactly when it is below 10^k. */
  lemma {:induction false} DecimalLength(n: nat, k: nat)
    requires k >= 1
    ensures |ToDecimal(n)| <= k <==> n < Pow10(k)
  {
    if n >= 10 {
      if k == 1 {
        assert |ToDecimal(n)| == |ToDecimal(n / 10)| + 1;
      } else {
        DecimalLength(n / 10, k - 1);
      }
    } else {
      PowAtLeastTen(k);
    }
  }

  lemma {:induction false} PowAtLeastTen(k: nat)
    requires k >= 1
    ensures Pow10(k) >= 10
  {
    if k > 1 {
      PowAtLeastTen(k - 1);
    }
  }

  /** The padded label parses back to the number it was made from. */
  lemma {:induction false} SaleLabelRoundTrip(n: nat)
    ensures ParseDecimal(SaleLabel(n)) == n
    ensures AllDigits(SaleLabel(n))
  {
    var d := ToDecimal(n);
    var r := SaleLabel(n);
    var z := r[..|r| - |d|];
    assert r == z + d;
    ParseLeadingZeros(z, d);
    ParseToDecimal(n);
  }

  /** Labels have exactly six characters while the number is below a million,
      and more once it is not. */
  lemma {:induction false} SaleLabelWidth(n: nat)
    ensures |SaleLabel(n)| >= 6
    ensures |SaleLabel(n)| == 6 <==> n < 1000000
  {
    DecimalLength(n, 6);
    assert Pow10(6) == 1000000;
  }

  /** Different numbers never share a label. */
  lemma {:induction false} SaleLabelInjective(a: nat, b: nat)
    requires SaleLabel(a) == SaleLabel(b)
    ensures a == b
  {
    SaleLabelRoundTrip(a);
    SaleLabelRoundTrip(b);
  }

  /** The label of the first sale. */
  lemma {:induction false} FirstSaleLabel()
    ensures SaleLabel(1) == "000001"
  {
    assert ToDecimal(1) == "1";
  }
}

=== FILE: sales.dfy ===
/**
  Sales (`vendaController`): creating a sale validates every line against the
  stock as it was before the sale, numbers it, prices it, decrements stock and
  writes one SAIDA/VENDA movement per line; cancelling restocks every line
  with one ENTRADA/DEVOLUCAO movement and can happen only once.
 */
module Sales {
  import opened Base
  import opened Text
  import opened Entities
  import opened Ledger
  import opened SaleNumbers

  /** One requested line: product, quantity, optional unit price and weight. */
  datatype SaleItem = SaleItem(product: Id, qty: real, unitPrice: Option<real>, weight: Option<real>)

  /** The request body; a missing `itens` array is the empty sequence and a
      missing discount is 0. */
  datatype SaleRequest = SaleRequest(
    customer: Option<Id>,
    payment: Option<string>,
    discount: real,
    notes: Option<string>,
    items: seq<SaleItem>)

  datatype Created = Created(store: Store, id: Id)

  // ---------------------------------------------------------------------------
  // Numbering

  /** The numbers already used, as `parseInt` reads the stored labels. */
  function UsedNumbers(sales: map<Id, Sale>): set<nat> {
    set id | id in sales :: ParseDecimal(sales[id].number)
  }

  /** The previous maximum + 1, zero-padded; "000001" for the first sale. */
  function NextSaleLabel(sales: map<Id, Sale>): (tag: string)
    ensures sales == map[] ==> tag == "000001"
    ensures AllDigits(tag)
    ensures forall id :: id in sales ==> ParseDecimal(sales[id].number) < ParseDecimal(tag)
    ensures sales != map[] ==> exists id :: id in sales && ParseDecimal(sales[id].number) == ParseDecimal(tag) - 1
    ensures forall id :: id in sales ==> sales[id].number != tag
  {
    var used := UsedNumbers(sales);
    var n := NextNumber(used);
    SaleLabelRoundTrip(n);
    FirstSaleLabel();
    UsedNumbersNonEmpty(sales);
    SaleLabel(n)
  }

  lemma {:induction false} UsedNumbersNonEmpty(sales: map<Id, Sale>)
    ensures forall id :: id in sales ==> ParseDecimal(sales[id].number) in UsedNumbers(sales)
    ensures sales != map[] ==> UsedNumbers(sales) != {}
  {
    if sales != map[] {
      var id :| id in sales;
      assert ParseDecimal(sales[id].number) in UsedNumbers(sales);
    }
  }

  // ---------------------------------------------------------------------------
  // Line validation and pricing

  /** A line passes when its product exists, is active and its stock before
      the sale covers the line's quantity on its own. */
  predicate Sellable(products: map<Id, Product>, it: SaleItem) {
    && it.product in products
    && products[it.product].active
    && it.qty <= products[it.product].stock
  }

  /** The rejection a failing line causes, in the order the handler checks. */
  function ItemError(products: map<Id, Product>, it: SaleItem): Error {
    if it.product !in products then NotFound
    else if !products[it.product].active then Inactive
    else InsufficientStock(products[it.product].stock)
  }

  /** `item.preco_unitario || produto.preco_venda`. */
  function UnitPrice(p: Product, it: SaleItem): real {
    if GivenNum(it.unitPrice) then it.unitPrice.value else p.salePrice
  }

  function PricedLine(products: map<Id, Product>, it: SaleItem): SaleLine
    requires it.product in products
  {
    var price := UnitPrice(products[it.product], it);
    SaleLine(it.product, it.qty, price, it.qty * price, if GivenNum(it.weight) then it.weight else None)
  }

  predicate FirstRejected(products: map<Id, Product>, items: seq<SaleItem>, k: int) {
    && 0 <= k < |items|
    && !Sellable(products, items[k])
    && forall j :: 0 <= j < k ==> Sellable(products, items[j])
  }

  /** Checks and prices the lines in order; the first failing line decides
      the error. */
  function ValidateItems(products: map<Id, Product>, items: seq<SaleItem>): (r: Result<seq<SaleLine>>)
    ensures r.Ok? <==> forall i :: 0 <= i < |items| ==> Sellable(products, items[i])
    ensures r.Ok? ==> |r.value| == |items|
    ensures r.Ok? ==> forall i :: 0 <= i < |items| ==> r.value[i] == PricedLine(products, items[i])
    ensures r.Err? ==> exists k :: FirstRejected(products, items, k) && r.error == ItemError(products, items[k])
  {
    if items == [] then Ok([])
    else if !Sellable(products, items[0]) then
      assert FirstRejected(products, items, 0);
      Err(ItemError(products, items[0]))
    else
      match ValidateItems(products, items[1..])
      case Err(e) =>
        assert exists k :: FirstRejected(products, items, k) && e == ItemError(products, items[k]) by {
          var k :| FirstRejected(products, items[1..], k) && e == ItemError(products, items[1..][k]);
          assert FirstRejected(products, items, k + 1);
        }
        Err(e)
      case Ok(rest) => Ok([PricedLine(products, items[0])] + rest)
  }

  function ItemFlows(items: seq<SaleItem>): (fs: seq<Flow>)
    ensures |fs| == |items|
    ensures forall i :: 0 <= i < |items| ==> fs[i] == Flow(items[i].product, items[i].qty)
  {
    seq(|items|, i requires 0 <= i < |items| => Flow(items[i].product, items[i].qty))
  }

  function LineFlows(lines: seq<SaleLine>): (fs: seq<Flow>)
    ensures |fs| == |lines|
    ensures forall i :: 0 <= i < |lines| ==> fs[i] == Flow(lines[i].product, lines[i].qty)
  {
    seq(|lines|, i requires 0 <= i < |lines| => Flow(lines[i].product, lines[i].qty))
  }

  function LineTotals(lines: seq<SaleLine>): (ts: seq<real>)
    ensures |ts| == |lines|
    ensures forall i :: 0 <= i < |lines| ==> ts[i] == lines[i].total
  {
    seq(|lines|, i requires 0 <= i < |lines| => lines[i].total)
  }

  function SaleNote(tag: string): Note {
    Text("Venda #" + tag)
  }

  function ReturnNote(tag: string): Note {
    Text("Cancelamento da venda #" + tag)
  }

  /** The priced lines carry the requested products and quantities. */
  lemma {:induction false} PricedFlows(products: map<Id, Product>, items: seq<SaleItem>, lines: seq<SaleLine>)
    requires |lines| == |items|
    requires forall i :: 0 <= i < |items| ==> items[i].product in products && lines[i] == PricedLine(products, items[i])
    ensures LineFlows(lines) == ItemFlows(items)
    ensures FlowsKnown(products, ItemFlows(items))
  {
  }

  // ---------------------------------------------------------------------------
  // Creation

  /** The sale row a validated request produces. */
  function NewSale(req: SaleRequest, seller: Id, tag: string, lines: seq<SaleLine>): (sale: Sale)
    requires Given(req.payment)
    ensures sale.status == SaleCompleted && sale.number == tag && sale.lines == lines
    ensures sale.customer == req.customer && sale.seller == seller && sale.notes == req.notes
    ensures sale.payment == Upper(req.payment.value)
    ensures sale.discount == req.discount && sale.final == sale.total - req.discount
    ensures sale.total == Sum(LineTotals(lines))
  {
    var total := Sum(LineTotals(lines));
    Sale(tag, req.customer, seller, Upper(req.payment.value), total, req.discount, total - req.discount,
         req.notes, SaleCompleted, lines)
  }

  /** The sale names no customer or one that exists. The handler does not
      look the customer up; an unknown `cliente_id` violates the foreign key
      when the sale row is written. */
  predicate KnownCustomer(st: Store, customer: Option<Id>) {
    customer.Some? ==> customer.value in st.customers
  }

  /** `createVenda`: the sale, its stock decrements and its ledger entries as
      one atomic step. `seller` is the authenticated user. */
  function CreateSale(st: Store, req: SaleRequest, seller: Id): (r: Result<Created>)
    ensures r.Ok? <==>
      && |req.items| > 0
      && Given(req.payment)
      && (forall i :: 0 <= i < |req.items| ==> Sellable(st.products, req.items[i]))
      && KnownCustomer(st, req.customer)
    ensures |req.items| == 0 || !Given(req.payment) ==> r == Err(Required)
    ensures r.Err? && r.error != Required && r.error != ServerError ==>
      exists k :: FirstRejected(st.products, req.items, k) && r.error == ItemError(st.products, req.items[k])
    ensures r == Err(ServerError) <==>
      && |req.items| > 0
      && Given(req.payment)
      && (forall i :: 0 <= i < |req.items| ==> Sellable(st.products, req.items[i]))
      && !KnownCustomer(st, req.customer)
    ensures r.Ok? ==> r.value.id in r.value.store.sales
    ensures r.Ok? ==>
      var s := r.value.store;
      var sale := s.sales[r.value.id];
      && r.value.id !in st.sales
      && s.sales == st.sales[r.value.id := sale]
      && sale.status == SaleCompleted
      && sale.customer == req.customer
      && sale.payment == Upper(req.payment.value)
      && (forall id :: id in st.sales ==> st.sales[id].number != sale.number)
      && |sale.lines| == |req.items|
      && (forall i :: 0 <= i < |req.items| ==> sale.lines[i] == PricedLine(st.products, req.items[i]))
      && sale.total == Sum(LineTotals(sale.lines))
      && sale.discount == req.discount
      && sale.final == sale.total - req.discount
    ensures r.Ok? ==>
      var s := r.value.store;
      var sale := s.sales[r.value.id];
      && Moved(st.products, s.products, ItemFlows(req.items), Saida)
      && s.movements == st.movements + Emit(ItemFlows(req.items), Saida, VENDA, SaleNote(sale.number))
      && s.purchases == st.purchases && s.customers == st.customers
      && s.suppliers == st.suppliers && s.categories == st.categories
    ensures r.Ok? && Reconciled(st) ==> Reconciled(r.value.store)
  {
    if |req.items| == 0 || !Given(req.payment) then Err(Required)
    else
      var tag := NextSaleLabel(st.sales);
      var lines :- ValidateItems(st.products, req.items);
      if !KnownCustomer(st, req.customer) then Err(ServerError)
      else
        PricedFlows(st.products, req.items, lines);
        var id := NextNumber(st.sales.Keys);
        var posted := Post(st, ItemFlows(req.items), Saida, VENDA, SaleNote(tag));
        Ok(Created(posted.(sales := st.sales[id := NewSale(req, seller, tag, lines)]), id))
  }

  // ---------------------------------------------------------------------------
  // The sale-number column

  /** The types the `numero_venda` column could be declared with. */
  datatype ColumnType = IntColumn | TextColumn

  /** `createVenda` writing into a `numero_venda` column of type `col`. The
      handler sends the padded label, a string; Prisma refuses a string for
      an integer column before anything is written, so the `$transaction`
      throws and the catch answers 500. `CreateSale` is the text-column
      reading the rest of the model uses. */
  function CreateSaleInto(col: ColumnType, st: Store, req: SaleRequest, seller: Id): (r: Result<Created>)
    ensures col == TextColumn ==> r == CreateSale(st, req, seller)
    ensures col == IntColumn ==> r.Err?
    ensures col == IntColumn && CreateSale(st, req, seller).Ok? ==> r == Err(ServerError)
  {
    match CreateSale(st, req, seller)
    case Err(e) => Err(e)
    case Ok(c) => if col == IntColumn then Err(ServerError) else Ok(c)
  }

  // ---------------------------------------------------------------------------
  // Cancellation

  /** The notes a cancelled sale keeps: the old notes, if any, followed by
      "CANCELADA: <reason>" or the placeholder reason. */
  function CancelNotes(notes: Option<string>, reason: Option<string>): (r: string)
    ensures var why := if Given(reason) then reason.value else "Sem motivo informado";
      && (Given(notes) ==> r == notes.value + "\n\nCANCELADA: " + why)
      && (!Given(notes) ==> r == "CANCELADA: " + why)
  {
    var why := if Given(reason) then reason.value else "Sem motivo informado";
    if Given(notes) then notes.value + "\n\nCANCELADA: " + why else "CANCELADA: " + why
  }

  /** `cancelarVenda`: rejects a missing or already cancelled sale; otherwise
      marks it cancelled and puts every line back into stock. A line whose
      product row is gone makes the product update throw: the whole transaction
      rolls back and the handler's catch answers 500. */
  function CancelSale(st: Store, id: Id, reason: Option<string>): (r: Result<Store>)
    ensures id !in st.sales ==> r == Err(NotFound)
    ensures id in st.sales && st.sales[id].status == SaleCancelled ==> r == Err(InvalidState)
    ensures (id in st.sales && st.sales[id].status != SaleCancelled
             && !FlowsKnown(st.products, LineFlows(st.sales[id].lines))) ==> r == Err(ServerError)
    ensures r.Ok? <==>
      && id in st.sales
      && st.sales[id].status != SaleCancelled
      && FlowsKnown(st.products, LineFlows(st.sales[id].lines))
    ensures r.Ok? ==>
      var sale := st.sales[id];
      && r.value.sales == st.sales[id := sale.(status := SaleCancelled, notes := Some(CancelNotes(sale.notes, reason)))]
      && Moved(st.products, r.value.products, LineFlows(sale.lines), Entrada)
      && r.value.movements == st.movements + Emit(LineFlows(sale.lines), Entrada, DEVOLUCAO, ReturnNote(sale.number))
      && r.value.purchases == st.purchases && r.value.customers == st.customers
      && r.value.suppliers == st.suppliers && r.value.categories == st.categories
    ensures r.Ok? && Reconciled(st) ==> Reconciled(r.value)
  {
    if id !in st.sales then Err(NotFound)
    else
      var sale := st.sales[id];
      if sale.status == SaleCancelled then Err(InvalidState)
      else if !FlowsKnown(st.products, LineFlows(sale.lines)) then Err(ServerError)
      else
        var posted := Post(st, LineFlows(sale.lines), Entrada, DEVOLUCAO, ReturnNote(sale.number));
        var cancelled := sale.(status := SaleCancelled, notes := Some(CancelNotes(sale.notes, reason)));
        Ok(posted.(sales := st.sales[id := cancelled]))
  }

  // ---------------------------------------------------------------------------
  // Laws

  /** A second cancellation is refused, so stock is restored once only. */
  lemma {:induction false} CancelTwiceRejected(st: Store, id: Id, first: Option<string>, second: Option<string>)
    requires CancelSale(st, id, first).Ok?
    ensures CancelSale(CancelSale(st, id, first).value, id, second) == Err(InvalidState)
  {
  }

  /** Creating a sale and then cancelling it succeeds and gives back exactly
      the product table the store had before the sale. */
  lemma {:induction false} CreateThenCancelRestoresProducts(st: Store, req: SaleRequest, seller: Id, reason: Option<string>)
    requires CreateSale(st, req, seller).Ok?
    ensures var c := CreateSale(st, req, seller).value;
      && CancelSale(c.store, c.id, reason).Ok?
      && CancelSale(c.store, c.id, reason).value.products == st.products
  {
    var c := CreateSale(st, req, seller).value;
    CreatedSaleCancellable(st, req, seller, c);
    var after := CancelSale(c.store, c.id, reason);
    TakeThenReturn(st.products, c.store.products, after.value.products, ItemFlows(req.items));
  }

  /** The lines and total of a sale just created, and the stock check every
      line passed. */
  lemma {:induction false} CreatedLines(st: Store, req: SaleRequest, seller: Id, c: Created)
    requires CreateSale(st, req, seller) == Ok(c)
    ensures forall i :: 0 <= i < |req.items| ==> Sellable(st.products, req.items[i])
    ensures c.id in c.store.sales
    ensures var sale := c.store.sales[c.id];
      && |sale.lines| == |req.items|
      && (forall i :: 0 <= i < |req.items| ==> sale.lines[i] == PricedLine(st.products, req.items[i]))
      && sale.total == Sum(LineTotals(sale.lines))
  {
  }

  /** A sale just created is still completed, its lines move the requested
      quantities, and every product it names is still on file. */
  lemma {:induction false} CreatedSaleCancellable(st: Store, req: SaleRequest, seller: Id, c: Created)
    requires CreateSale(st, req, seller) == Ok(c)
    ensures c.id in c.store.sales && c.store.sales[c.id].status == SaleCompleted
    ensures LineFlows(c.store.sales[c.id].lines) == ItemFlows(req.items)
    ensures FlowsKnown(c.store.products, ItemFlows(req.items))
    ensures Moved(st.products, c.store.products, ItemFlows(req.items), Saida)
  {
    PricedFlows(st.products, req.items, c.store.sales[c.id].lines);
  }

  predicate DistinctProducts(items: seq<SaleItem>) {
    forall i, j :: 0 <= i < j < |items| ==> items[i].product != items[j].product
  }

  /** When every line names a different product, a sale cannot take
      non-negative stock below zero. */
  lemma {:induction false} DistinctLinesKeepStockNonNegative(st: Store, req: SaleRequest, seller: Id)
    requires forall p :: p in st.products ==> st.products[p].stock >= 0.0
    requires DistinctProducts(req.items)
    requires CreateSale(st, req, seller).Ok?
    ensures var s := CreateSale(st, req, seller).value.store;
      forall p :: p in s.products ==> s.products[p].stock >= 0.0
  {
    var s := CreateSale(st, req, seller).value.store;
    DistinctTakeKeepsNonNegative(st.products, s.products, req.items);
  }

  /** The stock step behind the law above: taking distinct lines that each
      fit their product's stock leaves no stock negative. */
  lemma {:induction false} DistinctTakeKeepsNonNegative(before: map<Id, Product>, after: map<Id, Product>, items: seq<SaleItem>)
    requires forall p :: p in before ==> before[p].stock >= 0.0
    requires DistinctProducts(items)
    requires forall i :: 0 <= i < |items| ==> Sellable(before, items[i])
    requires Moved(before, after, ItemFlows(items), Saida)
    ensures forall p :: p in after ==> after[p].stock >= 0.0
  {
    var fs := ItemFlows(items);
    forall p | p in after
      ensures after[p].stock >= 0.0
    {
      if k :| 0 <= k < |items| && items[k].product == p {
        QtyForSingle(fs, p, k);
        assert Sellable(before, items[k]);
      } else {
        QtyForAbsent(fs, p);
      }
    }
  }

  /** Each line is checked against the stock before the sale, so two lines
      for the same product can together take more than there is: with one
      unit in stock, two one-unit lines are accepted and leave −1. */
  lemma {:induction false} DuplicateLinesOversell()
    ensures var p := Product("Racao", None, None, 1, None, "UN", 10.0, 20.0, 100.0, 0.0, 1.0, false, None, true);
      var st := Store(map[7 := p], [], map[], map[], map[], map[], map[], map[], map[]);
      var it := SaleItem(7, 1.0, None, None);
      var req := SaleRequest(None, Some("DINHEIRO"), 0.0, None, [it, it]);
      && CreateSale(st, req, 1).Ok?
      && CreateSale(st, req, 1).value.store.products[7].stock == -1.0
  {
    var p := Product("Racao", None, None, 1, None, "UN", 10.0, 20.0, 100.0, 0.0, 1.0, false, None, true);
    var st := Store(map[7 := p], [], map[], map[], map[], map[], map[], map[], map[]);
    var it := SaleItem(7, 1.0, None, None);
    var req := SaleRequest(None, Some("DINHEIRO"), 0.0, None, [it, it]);
    assert Sellable(st.products, it);
    assert forall i :: 0 <= i < |req.items| ==> req.items[i] == it;
    var fs := ItemFlows(req.items);
    assert fs == [Flow(7, 1.0), Flow(7, 1.0)];
    assert fs[1..] == [Flow(7, 1.0)];
    assert fs[1..][1..] == [];
    assert QtyFor(fs[1..][1..], 7) == 0.0;
    assert QtyFor(fs[1..], 7) == 1.0;
    assert QtyFor(fs, 7) == 2.0;
    SaleTakesQuantity(st, req, 1, CreateSale(st, req, 1).value, 7);
  }

  /** A sale takes from each product the sum of its lines' quantities. */
  lemma {:induction false} SaleTakesQuantity(st: Store, req: SaleRequest, seller: Id, c: Created, p: Id)
    requires CreateSale(st, req, seller) == Ok(c)
    requires p in st.products
    ensures p in c.store.products
    ensures c.store.products[p].stock == st.products[p].stock - QtyFor(ItemFlows(req.items), p)
  {
  }

  /** The discount is not bounded: a discount above the total gives a
      negative final amount. */
  lemma {:induction false} DiscountCanMakeFinalNegative(st: Store, req: SaleRequest, seller: Id)
    requires CreateSale(st, req, seller).Ok?
    requires req.discount > Sum(LineTotals(CreateSale(st, req, seller).value.store.sales[CreateSale(st, req, seller).value.id].lines))
    ensures var c := CreateSale(st, req, seller).value;
      c.store.sales[c.id].final < 0.0
  {
  }

  /** A single-line sale for more than the product has is refused, naming
      the quantity available. */
  lemma {:induction false} OverStockRefused(st: Store, p: Id, seller: Id, pay: string, qty: real)
    requires p in st.products && st.products[p].active && qty > st.products[p].stock
    requires pay != ""
    ensures CreateSale(st, SaleRequest(None, Some(pay), 0.0, None, [SaleItem(p, qty, None, None)]), seller)
         == Err(InsufficientStock(st.products[p].stock))
  {
    var req := SaleRequest(None, Some(pay), 0.0, None, [SaleItem(p, qty, None, None)]);
    var r := CreateSale(st, req, seller);
    assert !Sellable(st.products, req.items[0]);
    var k :| FirstRejected(st.products, req.items, k) && r.error == ItemError(st.products, req.items[k]);
    assert k == 0;
  }

  /** Selling a product's whole stock in one line leaves it at zero. */
  lemma {:induction false} SellOut(st: Store, p: Id, seller: Id, pay: string)
    requires p in st.products && st.products[p].active
    requires pay != ""
    ensures var all := SaleRequest(None, Some(pay), 0.0, None, [SaleItem(p, st.products[p].stock, None, None)]);
      && CreateSale(st, all, seller).Ok?
      && CreateSale(st, all, seller).value.store.products[p] == st.products[p].(stock := 0.0)
  {
    var all := SaleRequest(None, Some(pay), 0.0, None, [SaleItem(p, st.products[p].stock, None, None)]);
    assert Sellable(st.products, all.items[0]);
    QtyForSingle(ItemFlows(all.items), p, 0);
    SaleTakesQuantity(st, all, seller, CreateSale(st, all, seller).value, p);
  }

  /** After selling out, the next sale of that product is refused with zero
      available. */
  lemma {:induction false} SellOutThenRefuse(st: Store, p: Id, seller: Id, pay: string, more: real)
    requires p in st.products && st.products[p].active
    requires pay != "" && more > 0.0
    ensures var all := SaleRequest(None, Some(pay), 0.0, None, [SaleItem(p, st.products[p].stock, None, None)]);
      && CreateSale(st, all, seller).Ok?
      && var s := CreateSale(st, all, seller).value.store;
      && CreateSale(s, SaleRequest(None, Some(pay), 0.0, None, [SaleItem(p, more, None, None)]), seller)
           == Err(InsufficientStock(0.0))
  {
    SellOut(st, p, seller, pay);
    var all := SaleRequest(None, Some(pay), 0.0, None, [SaleItem(p, st.products[p].stock, None, None)]);
    OverStockRefused(CreateSale(st, all, seller).value.store, p, seller, pay, more);
  }
}

=== FILE: stock_control.dfy ===
/**
  Stock control (`estoqueController`): the manual ENTRADA/SAIDA movement, the
  stock value of the stock report, and the inventory grouped by category.
 */
module StockControl {
  import opened Base
  import opened Entities
  import opened Ledger
  import opened Products
  import opened JsObject

  // ---------------------------------------------------------------------------
  // Manual movement

  /** The movement request; `kind` is the raw `tipo` string. */
  datatype MovementRequest = MovementRequest(
    product: Option<Id>,
    kind: Option<string>,
    qty: Option<real>,
    reason: Option<string>,
    notes: Option<string>)

  predicate HasRequiredFields(req: MovementRequest) {
    req.product.Some? && Given(req.kind) && GivenNum(req.qty) && Given(req.reason)
  }

  function DirectionOf(kind: string): Option<Direction> {
    if kind == "ENTRADA" then Some(Entrada)
    else if kind == "SAIDA" then Some(Saida)
    else None
  }

  function NoteOf(notes: Option<string>): Note {
    match notes
    case Some(t) => Text(t)
    case None => Absent
  }

  /** `createMovimentacao`: a validated manual movement moves the product's
      stock by the signed quantity and is written to the ledger as is. */
  function ManualMovement(st: Store, req: MovementRequest): (r: Result<Store>)
    ensures !HasRequiredFields(req) ==> r == Err(Required)
    ensures HasRequiredFields(req) && DirectionOf(req.kind.value).None? ==> r == Err(InvalidValue)
    ensures HasRequiredFields(req) && DirectionOf(req.kind.value).Some? && req.qty.value <= 0.0 ==> r == Err(InvalidValue)
    ensures r.Ok? <==>
      && HasRequiredFields(req)
      && DirectionOf(req.kind.value).Some?
      && req.qty.value > 0.0
      && req.product.value in st.products
      && (req.kind.value == "SAIDA" ==> req.qty.value <= st.products[req.product.value].stock)
    ensures r.Err? && HasRequiredFields(req) && req.kind.value == "SAIDA" && req.qty.value > 0.0
            && req.product.value in st.products ==>
      r == Err(InsufficientStock(st.products[req.product.value].stock))
    ensures r.Ok? ==>
      var p := req.product.value;
      var dir := DirectionOf(req.kind.value).value;
      && r.value.products == st.products[p := st.products[p].(stock := st.products[p].stock + Delta(dir, req.qty.value))]
      && r.value.movements == st.movements + [Movement(p, dir, req.qty.value, req.reason.value, NoteOf(req.notes))]
      && r.value.sales == st.sales && r.value.purchases == st.purchases
      && r.value.customers == st.customers && r.value.suppliers == st.suppliers
      && r.value.categories == st.categories
    ensures r.Ok? ==> (st.products[req.product.value].stock >= 0.0 ==> r.value.products[req.product.value].stock >= 0.0)
    ensures r.Ok? && Reconciled(st) ==> Reconciled(r.value)
  {
    if !HasRequiredFields(req) then Err(Required)
    else
      match DirectionOf(req.kind.value)
      case None => Err(InvalidValue)
      case Some(dir) =>
        var p := req.product.value;
        var q := req.qty.value;
        if q <= 0.0 then Err(InvalidValue)
        else if p !in st.products then Err(NotFound)
        else if dir == Saida && st.products[p].stock < q then Err(InsufficientStock(st.products[p].stock))
        else
          Ok(PostOne(st, Movement(p, dir, q, req.reason.value, NoteOf(req.notes))))
  }

  // ---------------------------------------------------------------------------
  // Stock value

  /** Σ cost × stock over the active products of a listing. */
  function StockValue(rows: seq<Product>): real {
    if rows == [] then 0.0
    else (if rows[0].active then rows[0].cost * rows[0].stock else 0.0) + StockValue(rows[1..])
  }

  lemma {:induction false} StockValueAppend(a: seq<Product>, b: seq<Product>)
    ensures StockValue(a + b) == StockValue(a) + StockValue(b)
  {
    if a == [] {
      assert a + b == b;
    } else {
      assert (a + b)[1..] == a[1..] + b;
      StockValueAppend(a[1..], b);
    }
  }

  /** With non-negative costs and stocks the stock value is not negative. */
  lemma {:induction false} StockValueNonNegative(rows: seq<Product>)
    requires forall i :: 0 <= i < |rows| ==> rows[i].cost >= 0.0 && rows[i].stock >= 0.0
    ensures StockValue(rows) >= 0.0
  {
    if rows != [] {
      StockValueNonNegative(rows[1..]);
    }
  }

  /** Deactivating a product removes exactly its contribution. */
  lemma {:induction false} StockValueDeactivate(a: seq<Product>, x: Product, b: seq<Product>)
    requires x.active
    ensures StockValue(a + [x] + b) == StockValue(a + [x.(active := false)] + b) + x.cost * x.stock
  {
    StockValueAppend(a + [x], b);
    StockValueAppend(a, [x]);
    StockValueAppend(a + [x.(active := false)], b);
    StockValueAppend(a, [x.(active := false)]);
    assert [x][1..] == [];
    assert [x.(active := false)][1..] == [];
  }

  // ---------------------------------------------------------------------------
  // Inventory by category

  /** A product of the inventory query (its id and row) with the names of its
      category and supplier (absent when the product has none). */
  datatype InventoryRow = InventoryRow(id: Id, product: Product, categoryName: Option<string>, supplierName: Option<string>)

  datatype Entry = Entry(
    id: Id,
    name: string,
    stock: real,
    minStock: real,
    unit: string,
    cost: real,
    salePrice: real,
    value: real,
    flag: StockFlag,
    supplier: string)

  datatype Group = Group(category: string, entries: seq<Entry>)

  function GroupKey(row: InventoryRow): string {
    if Given(row.categoryName) then row.categoryName.value else "Sem categoria"
  }

  function EntryOf(row: InventoryRow): (e: Entry)
    ensures e.value == row.product.cost * row.product.stock
    ensures e.flag == BAIXO <==> row.product.stock <= row.product.minStock
    ensures e.id == row.id && e.name == row.product.name
    ensures Given(row.supplierName) ==> e.supplier == row.supplierName.value
    ensures !Given(row.supplierName) ==> e.supplier == "N/A"
  {
    var p := row.product;
    Entry(row.id, p.name, p.stock, p.minStock, p.unit, p.cost, p.salePrice, p.cost * p.stock, Flag(p),
          if Given(row.supplierName) then row.supplierName.value else "N/A")
  }

  predicate HasGroup(groups: seq<Group>, k: string) {
    exists i :: 0 <= i < |groups| && groups[i].category == k
  }

  predicate DistinctNames(groups: seq<Group>) {
    forall i, j :: 0 <= i < j < |groups| ==> groups[i].category != groups[j].category
  }

  /** Adds an entry under key `k` (`acc[k].push(e)`): appended to the
      existing group for `k`, or as a new group after all others. This is
      the accumulator's insertion order; `KeyOrder` below gives the order
      in which the finished object is serialized. */
  function Insert(groups: seq<Group>, k: string, e: Entry): (r: seq<Group>)
    requires DistinctNames(groups)
    ensures DistinctNames(r)
    ensures HasGroup(groups, k) ==>
      && |r| == |groups|
      && forall i :: 0 <= i < |groups| ==>
           r[i] == if groups[i].category == k then groups[i].(entries := groups[i].entries + [e]) else groups[i]
    ensures !HasGroup(groups, k) ==> r == groups + [Group(k, [e])]
  {
    if HasGroup(groups, k) then
      seq(|groups|, i requires 0 <= i < |groups| =>
        if groups[i].category == k then groups[i].(entries := groups[i].entries + [e]) else groups[i])
    else groups + [Group(k, [e])]
  }

  /** The `reduce` that builds `inventario_por_categoria`, for rows whose
      names `{}` does not already answer: groups in the order their category
      is first added. */
  function GroupRows(rows: seq<InventoryRow>): (groups: seq<Group>)
    ensures DistinctNames(groups)
  {
    if rows == [] then []
    else
      var last := rows[|rows| - 1];
      Insert(GroupRows(rows[..|rows| - 1]), GroupKey(last), EntryOf(last))
  }

  /** The reference definition: the entries of the rows filed under `k`, in
      query order. */
  function EntriesFor(rows: seq<InventoryRow>, k: string): seq<Entry> {
    if rows == [] then []
    else
      var last := rows[|rows| - 1];
      EntriesFor(rows[..|rows| - 1], k) + (if GroupKey(last) == k then [EntryOf(last)] else [])
  }

  function TotalEntries(groups: seq<Group>): nat {
    if groups == [] then 0 else |groups[0].entries| + TotalEntries(groups[1..])
  }

  lemma {:induction false} TotalEntriesAppend(a: seq<Group>, b: seq<Group>)
    ensures TotalEntries(a + b) == TotalEntries(a) + TotalEntries(b)
  {
    if a == [] {
      assert a + b == b;
    } else {
      assert (a + b)[1..] == a[1..] + b;
      TotalEntriesAppend(a[1..], b);
    }
  }

  /** Appending to the `i`-th group adds one to the total. */
  lemma {:induction false} TotalEntriesBump(groups: seq<Group>, r: seq<Group>, i: nat, e: Entry)
    requires i < |groups| && |r| == |groups|
    requires r[i].entries == groups[i].entries + [e]
    requires forall j :: 0 <= j < |groups| && j != i ==> r[j] == groups[j]
    ensures TotalEntries(r) == TotalEntries(groups) + 1
  {
    if i == 0 {
      assert r[1..] == groups[1..];
    } else {
      TotalEntriesBump(groups[1..], r[1..], i - 1, e);
    }
  }

  lemma {:induction false} TotalEntriesInsert(groups: seq<Group>, k: string, e: Entry)
    requires DistinctNames(groups)
    ensures TotalEntries(Insert(groups, k, e)) == TotalEntries(groups) + 1
  {
    var r := Insert(groups, k, e);
    if HasGroup(groups, k) {
      var i :| 0 <= i < |groups| && groups[i].category == k;
      TotalEntriesBump(groups, r, i, e);
    } else {
      TotalEntriesAppend(groups, [Group(k, [e])]);
    }
  }

  /** Every group holds exactly the entries filed under its name, the names
      are distinct, and a name has a group exactly when some row is filed
      under it. */
  ghost predicate GroupedBy(groups: seq<Group>, rows: seq<InventoryRow>) {
    && DistinctNames(groups)
    && (forall i :: 0 <= i < |groups| ==> groups[i].entries == EntriesFor(rows, groups[i].category))
    && (forall k :: HasGroup(groups, k) <==> EntriesFor(rows, k) != [])
  }

  /** Filing one more row under an existing group. */
  lemma {:induction false} InsertExisting(g: seq<Group>, init: seq<InventoryRow>, last: InventoryRow)
    requires GroupedBy(g, init) && HasGroup(g, GroupKey(last))
    ensures GroupedBy(Insert(g, GroupKey(last), EntryOf(last)), init + [last])
  {
    var rows := init + [last];
    var k := GroupKey(last);
    var r := Insert(g, k, EntryOf(last));
    assert rows[..|rows| - 1] == init;
    forall i | 0 <= i < |r|
      ensures r[i].entries == EntriesFor(rows, r[i].category)
    {
      assert r[i].category == g[i].category;
    }
    forall x
      ensures HasGroup(r, x) <==> EntriesFor(rows, x) != []
    {
      if HasGroup(r, x) {
        var i :| 0 <= i < |r| && r[i].category == x;
        assert g[i].category == x;
      }
      if HasGroup(g, x) {
        var i :| 0 <= i < |g| && g[i].category == x;
        assert r[i].category == x;
      }
    }
  }

  /** Filing a row under a name that has no group yet. */
  lemma {:induction false} InsertNew(g: seq<Group>, init: seq<InventoryRow>, last: InventoryRow)
    requires GroupedBy(g, init) && !HasGroup(g, GroupKey(last))
    ensures GroupedBy(Insert(g, GroupKey(last), EntryOf(last)), init + [last])
  {
    var rows := init + [last];
    var k := GroupKey(last);
    var r := Insert(g, k, EntryOf(last));
    assert rows[..|rows| - 1] == init;
    assert EntriesFor(init, k) == [];
    forall i | 0 <= i < |r|
      ensures r[i].entries == EntriesFor(rows, r[i].category)
    {
      if i < |g| {
        assert r[i] == g[i];
        assert g[i].category != k;
      }
    }
    forall x
      ensures HasGroup(r, x) <==> EntriesFor(rows, x) != []
    {
      if HasGroup(r, x) {
        var i :| 0 <= i < |r| && r[i].category == x;
        if i < |g| {
          assert g[i].category == x;
        }
      }
      if HasGroup(g, x) {
        var i :| 0 <= i < |g| && g[i].category == x;
        assert r[i].category == x;
      }
      if x == k {
        assert r[|g|].category == k;
      }
    }
  }

  lemma {:induction false} GroupRowsCorrect(rows: seq<InventoryRow>)
    ensures GroupedBy(GroupRows(rows), rows)
    ensures TotalEntries(GroupRows(rows)) == |rows|
  {
    if rows != [] {
      var init := rows[..|rows| - 1];
      var last := rows[|rows| - 1];
      var g := GroupRows(init);
      GroupRowsCorrect(init);
      assert rows == init + [last];
      TotalEntriesInsert(g, GroupKey(last), EntryOf(last));
      if HasGroup(g, GroupKey(last)) {
        InsertExisting(g, init, last);
      } else {
        InsertNew(g, init, last);
      }
    }
  }

  // ---------------------------------------------------------------------------
  // Appearance order

  /** The position of the first row filed under `k`; `|rows|` when none is. */
  function FirstRow(rows: seq<InventoryRow>, k: string): (n: nat)
    ensures n <= |rows|
  {
    if rows == [] then 0
    else
      var f := FirstRow(rows[..|rows| - 1], k);
      if f < |rows| - 1 then f
      else if GroupKey(rows[|rows| - 1]) == k then |rows| - 1
      else |rows|
  }

  /** `FirstRow` finds the first row filed under `k`, and only such a row. */
  lemma {:induction false} FirstRowIsFirst(rows: seq<InventoryRow>, k: string)
    ensures FirstRow(rows, k) < |rows| ==> GroupKey(rows[FirstRow(rows, k)]) == k
    ensures forall i :: 0 <= i < FirstRow(rows, k) && i < |rows| ==> GroupKey(rows[i]) != k
  {
    if rows != [] {
      var init := rows[..|rows| - 1];
      FirstRowIsFirst(init, k);
      forall i | 0 <= i < FirstRow(rows, k) && i < |rows|
        ensures GroupKey(rows[i]) != k
      {
        if i < |init| {
          assert rows[i] == init[i];
        }
      }
    }
  }

  /** A name has a first row exactly when some entry is filed under it. */
  lemma {:induction false} FirstRowPresent(rows: seq<InventoryRow>, k: string)
    ensures FirstRow(rows, k) < |rows| <==> EntriesFor(rows, k) != []
  {
    if rows != [] {
      FirstRowPresent(rows[..|rows| - 1], k);
    }
  }

  /** Groups listed in the order their first rows appear. */
  ghost predicate AppearanceOrdered(groups: seq<Group>, rows: seq<InventoryRow>) {
    forall i, j :: 0 <= i < j < |groups| ==> FirstRow(rows, groups[i].category) < FirstRow(rows, groups[j].category)
  }

  /** The accumulator's own insertion order: a category's group comes after
      the groups of every category whose first row precedes its own. */
  lemma {:induction false} GroupRowsInAppearanceOrder(rows: seq<InventoryRow>)
    ensures AppearanceOrdered(GroupRows(rows), rows)
  {
    if rows != [] {
      var init := rows[..|rows| - 1];
      var last := rows[|rows| - 1];
      var k := GroupKey(last);
      var g := GroupRows(init);
      GroupRowsInAppearanceOrder(init);
      GroupRowsCorrect(init);
      assert rows == init + [last];
      FirstRowsKept(g, init, last);
      if HasGroup(g, k) {
        ExistingInOrder(g, Insert(g, k, EntryOf(last)), rows);
      } else {
        FirstRowPresent(init, k);
        AppendInOrder(g, rows, k, [EntryOf(last)]);
      }
    }
  }

  /** One more row leaves the first rows of the names already grouped where
      they were. */
  lemma {:induction false} FirstRowsKept(g: seq<Group>, init: seq<InventoryRow>, last: InventoryRow)
    requires GroupedBy(g, init)
    ensures forall i :: 0 <= i < |g| ==> FirstRow(init + [last], g[i].category) == FirstRow(init, g[i].category) < |init|
  {
    var rows := init + [last];
    assert rows[..|rows| - 1] == init;
    forall i | 0 <= i < |g|
      ensures FirstRow(rows, g[i].category) == FirstRow(init, g[i].category) < |init|
    {
      assert HasGroup(g, g[i].category);
      FirstRowPresent(init, g[i].category);
    }
  }

  /** Appending to an existing group keeps every name in its place. */
  lemma {:induction false} ExistingInOrder(g: seq<Group>, r: seq<Group>, rows: seq<InventoryRow>)
    requires rows != [] && AppearanceOrdered(g, rows[..|rows| - 1])
    requires forall i :: 0 <= i < |g| ==> FirstRow(rows, g[i].category) == FirstRow(rows[..|rows| - 1], g[i].category)
    requires |r| == |g| && forall i :: 0 <= i < |g| ==> r[i].category == g[i].category
    ensures AppearanceOrdered(r, rows)
  {
  }

  /** A group for a name whose first row is the last row goes after all
      groups whose names appeared before it. */
  lemma {:induction false} AppendInOrder(g: seq<Group>, rows: seq<InventoryRow>, k: string, e: seq<Entry>)
    requires rows != [] && GroupKey(rows[|rows| - 1]) == k
    requires FirstRow(rows[..|rows| - 1], k) == |rows| - 1
    requires AppearanceOrdered(g, rows[..|rows| - 1])
    requires forall i :: 0 <= i < |g| ==>
      FirstRow(rows, g[i].category) == FirstRow(rows[..|rows| - 1], g[i].category) < |rows| - 1
    ensures AppearanceOrdered(g + [Group(k, e)], rows)
  {
    assert FirstRow(rows, k) == |rows| - 1;
  }

  // ---------------------------------------------------------------------------
  // Key order of the serialized object

  /** The groups whose name is (`index`) or is not (`!index`) an array index,
      in their order. */
  function Pick(groups: seq<Group>, index: bool): (r: seq<Group>)
    ensures forall x :: x in r <==> x in groups && IsArrayIndex(x.category) == index
  {
    if groups == [] then []
    else
      assert forall x :: x in groups <==> x == groups[0] || x in groups[1..];
      (if IsArrayIndex(groups[0].category) == index then [groups[0]] else []) + Pick(groups[1..], index)
  }

  predicate ByIndex(groups: seq<Group>) {
    forall i, j :: 0 <= i < j < |groups| ==> IndexValue(groups[i].category) <= IndexValue(groups[j].category)
  }

  /** Places `x` before the first group of larger numeric value. */
  function InsertByIndex(x: Group, s: seq<Group>): (r: seq<Group>)
    ensures forall y :: y in r <==> y == x || y in s
  {
    if s == [] || IndexValue(x.category) <= IndexValue(s[0].category) then [x] + s
    else
      assert forall y :: y in s <==> y == s[0] || y in s[1..];
      [s[0]] + InsertByIndex(x, s[1..])
  }

  function SortByIndex(s: seq<Group>): (r: seq<Group>)
    ensures forall y :: y in r <==> y in s
  {
    if s == [] then []
    else
      assert forall y :: y in s <==> y == s[0] || y in s[1..];
      InsertByIndex(s[0], SortByIndex(s[1..]))
  }

  /** The groups in the order `res.json` writes the keys of the accumulator. */
  function KeyOrder(groups: seq<Group>): seq<Group> {
    SortByIndex(Pick(groups, true)) + Pick(groups, false)
  }

  /** Array-index names first in ascending numeric value, then the other
      names in the order their first rows appear. */
  ghost predicate SerializedOrder(groups: seq<Group>, rows: seq<InventoryRow>) {
    && (forall i, j :: 0 <= i < j < |groups| && IsArrayIndex(groups[j].category) ==> IsArrayIndex(groups[i].category))
    && (forall i, j :: 0 <= i < j < |groups| && IsArrayIndex(groups[i].category) && IsArrayIndex(groups[j].category) ==>
          IndexValue(groups[i].category) <= IndexValue(groups[j].category))
    && (forall i, j :: 0 <= i < j < |groups| && !IsArrayIndex(groups[i].category) && !IsArrayIndex(groups[j].category) ==>
          FirstRow(rows, groups[i].category) < FirstRow(rows, groups[j].category))
  }

  lemma {:induction false} ConsDistinct(x: Group, s: seq<Group>)
    requires DistinctNames(s)
    requires forall y :: y in s ==> y.category != x.category
    ensures DistinctNames([x] + s)
  {
    var r := [x] + s;
    forall i, j | 0 <= i < j < |r|
      ensures r[i].category != r[j].category
    {
      assert r[j] == s[j - 1];
      if i > 0 {
        assert r[i] == s[i - 1];
      }
    }
  }

  lemma {:induction false} AppendDistinct(a: seq<Group>, b: seq<Group>)
    requires DistinctNames(a) && DistinctNames(b)
    requires forall x, y :: x in a && y in b ==> x.category != y.category
    ensures DistinctNames(a + b)
  {
    var r := a + b;
    forall i, j | 0 <= i < j < |r|
      ensures r[i].category != r[j].category
    {
      if j < |a| {
        assert r[i] == a[i] && r[j] == a[j];
      } else if i < |a| {
        assert r[i] in a && r[j] == b[j - |a|];
      } else {
        assert r[i] == b[i - |a|] && r[j] == b[j - |a|];
      }
    }
  }

  lemma {:induction false} PickDistinct(groups: seq<Group>, index: bool)
    requires DistinctNames(groups)
    ensures DistinctNames(Pick(groups, index))
  {
    if groups != [] {
      PickDistinct(groups[1..], index);
      if IsArrayIndex(groups[0].category) == index {
        forall y | y in Pick(groups[1..], index)
          ensures y.category != groups[0].category
        {
          var j :| 0 <= j < |groups[1..]| && groups[1..][j] == y;
          assert groups[j + 1] == y;
        }
        ConsDistinct(groups[0], Pick(groups[1..], index));
      }
    }
  }

  lemma {:induction false} PickTotal(groups: seq<Group>)
    ensures TotalEntries(Pick(groups, true)) + TotalEntries(Pick(groups, false)) == TotalEntries(groups)
  {
    if groups != [] {
      PickTotal(groups[1..]);
      var x := groups[0];
      TotalEntriesAppend([x], Pick(groups[1..], true));
      TotalEntriesAppend([], Pick(groups[1..], true));
      TotalEntriesAppend([x], Pick(groups[1..], false));
      TotalEntriesAppend([], Pick(groups[1..], false));
      assert TotalEntries([x]) == |x.entries| by {
        assert [x][1..] == [];
      }
    }
  }

  lemma {:induction false} ConsInOrder(x: Group, s: seq<Group>, rows: seq<InventoryRow>)
    requires AppearanceOrdered(s, rows)
    requires forall y :: y in s ==> FirstRow(rows, x.category) < FirstRow(rows, y.category)
    ensures AppearanceOrdered([x] + s, rows)
  {
    var r := [x] + s;
    forall i, j | 0 <= i < j < |r|
      ensures FirstRow(rows, r[i].category) < FirstRow(rows, r[j].category)
    {
      assert r[j] == s[j - 1];
      if i > 0 {
        assert r[i] == s[i - 1];
      }
    }
  }

  /** Picking keeps the appearance order. */
  lemma {:induction false} PickInOrder(groups: seq<Group>, rows: seq<InventoryRow>, index: bool)
    requires AppearanceOrdered(groups, rows)
    ensures AppearanceOrdered(Pick(groups, index), rows)
  {
    if groups != [] {
      var rest := Pick(groups[1..], index);
      assert AppearanceOrdered(groups[1..], rows) by {
        forall i, j | 0 <= i < j < |groups[1..]|
          ensures FirstRow(rows, groups[1..][i].category) < FirstRow(rows, groups[1..][j].category)
        {
          assert groups[1..][i] == groups[i + 1] && groups[1..][j] == groups[j + 1];
        }
      }
      PickInOrder(groups[1..], rows, index);
      if IsArrayIndex(groups[0].category) == index {
        forall y | y in rest
          ensures FirstRow(rows, groups[0].category) < FirstRow(rows, y.category)
        {
          var m :| 0 <= m < |groups[1..]| && groups[1..][m] == y;
          assert groups[m + 1] == y;
        }
        ConsInOrder(groups[0], rest, rows);
      }
    }
  }

  lemma {:induction false} ConsByIndex(x: Group, s: seq<Group>)
    requires ByIndex(s)
    requires forall y :: y in s ==> IndexValue(x.category) <= IndexValue(y.category)
    ensures ByIndex([x] + s)
  {
    var r := [x] + s;
    forall i, j | 0 <= i < j < |r|
      ensures IndexValue(r[i].category) <= IndexValue(r[j].category)
    {
      assert r[j] == s[j - 1];
      if i > 0 {
        assert r[i] == s[i - 1];
      }
    }
  }

  lemma {:induction false} InsertByIndexSorted(x: Group, s: seq<Group>)
    requires ByIndex(s)
    ensures ByIndex(InsertByIndex(x, s))
  {
    if s == [] || IndexValue(x.category) <= IndexValue(s[0].category) {
      forall y | y in s
        ensures IndexValue(x.category) <= IndexValue(y.category)
      {
        var m :| 0 <= m < |s| && s[m] == y;
      }
      ConsByIndex(x, s);
    } else {
      var rest := InsertByIndex(x, s[1..]);
      InsertByIndexSorted(x, s[1..]);
      forall y | y in rest
        ensures IndexValue(s[0].category) <= IndexValue(y.category)
      {
        if y != x {
          var m :| 0 <= m < |s[1..]| && s[1..][m] == y;
          assert s[m + 1] == y;
        }
      }
      ConsByIndex(s[0], rest);
    }
  }

  lemma {:induction false} InsertByIndexDistinct(x: Group, s: seq<Group>)
    requires DistinctNames(s)
    requires forall y :: y in s ==> y.category != x.category
    ensures DistinctNames(InsertByIndex(x, s))
  {
    if s == [] || IndexValue(x.category) <= IndexValue(s[0].category) {
      ConsDistinct(x, s);
    } else {
      InsertByIndexDistinct(x, s[1..]);
      forall y | y in InsertByIndex(x, s[1..])
        ensures y.category != s[0].category
      {
        if y != x {
          var m :| 0 <= m < |s[1..]| && s[1..][m] == y;
          assert s[m + 1] == y;
        }
      }
      ConsDistinct(s[0], InsertByIndex(x, s[1..]));
    }
  }

  lemma {:induction false} InsertByIndexTotal(x: Group, s: seq<Group>)
    ensures TotalEntries(InsertByIndex(x, s)) == |x.entries| + TotalEntries(s)
  {
    if s == [] || IndexValue(x.category) <= IndexValue(s[0].category) {
      assert ([x] + s)[1..] == s;
    } else {
      InsertByIndexTotal(x, s[1..]);
      assert ([s[0]] + InsertByIndex(x, s[1..]))[1..] == InsertByIndex(x, s[1..]);
    }
  }

  /** Sorting by numeric value keeps the groups, their distinct names and
      their entry count. */
  lemma {:induction false} SortByIndexCorrect(s: seq<Group>)
    requires DistinctNames(s)
    ensures ByIndex(SortByIndex(s))
    ensures DistinctNames(SortByIndex(s))
    ensures TotalEntries(SortByIndex(s)) == TotalEntries(s)
  {
    if s != [] {
      SortByIndexCorrect(s[1..]);
      InsertByIndexSorted(s[0], SortByIndex(s[1..]));
      InsertByIndexTotal(s[0], SortByIndex(s[1..]));
      forall y | y in SortByIndex(s[1..])
        ensures y.category != s[0].category
      {
        var m :| 0 <= m < |s[1..]| && s[1..][m] == y;
        assert s[m + 1] == y;
      }
      InsertByIndexDistinct(s[0], SortByIndex(s[1..]));
    }
  }

  /** Listing the groups in key order keeps what they hold and puts them in
      the serialized order. */
  lemma {:induction false} KeyOrderCorrect(groups: seq<Group>, rows: seq<InventoryRow>)
    requires GroupedBy(groups, rows) && AppearanceOrdered(groups, rows)
    ensures GroupedBy(KeyOrder(groups), rows)
    ensures TotalEntries(KeyOrder(groups)) == TotalEntries(groups)
    ensures SerializedOrder(KeyOrder(groups), rows)
  {
    var a := SortByIndex(Pick(groups, true));
    var b := Pick(groups, false);
    var r := a + b;
    PickDistinct(groups, true);
    PickDistinct(groups, false);
    SortByIndexCorrect(Pick(groups, true));
    PickInOrder(groups, rows, false);
    PickTotal(groups);
    TotalEntriesAppend(a, b);
    AppendDistinct(a, b);
    KeyOrderSameGroups(groups, rows, r);
    SerializedConcat(a, b, rows);
  }

  /** Index names sorted by value, followed by the other names in appearance
      order, are in the serialized order. */
  lemma {:induction false} SerializedConcat(a: seq<Group>, b: seq<Group>, rows: seq<InventoryRow>)
    requires ByIndex(a) && AppearanceOrdered(b, rows)
    requires forall x :: x in a ==> IsArrayIndex(x.category)
    requires forall y :: y in b ==> !IsArrayIndex(y.category)
    ensures SerializedOrder(a + b, rows)
  {
    var r := a + b;
    forall i, j | 0 <= i < j < |r|
      ensures IsArrayIndex(r[j].category) ==> IsArrayIndex(r[i].category)
      ensures IsArrayIndex(r[i].category) && IsArrayIndex(r[j].category) ==>
                IndexValue(r[i].category) <= IndexValue(r[j].category)
      ensures !IsArrayIndex(r[i].category) && !IsArrayIndex(r[j].category) ==>
                FirstRow(rows, r[i].category) < FirstRow(rows, r[j].category)
    {
      if j < |a| {
        assert r[i] == a[i] && r[j] == a[j];
      } else if i < |a| {
        assert r[i] == a[i] && r[i] in a;
        assert r[j] == b[j - |a|] && r[j] in b;
      } else {
        assert r[i] == b[i - |a|] && r[j] == b[j - |a|];
      }
    }
  }

  /** A reordering with the same groups and distinct names is grouped the
      same way. */
  lemma {:induction false} KeyOrderSameGroups(groups: seq<Group>, rows: seq<InventoryRow>, r: seq<Group>)
    requires GroupedBy(groups, rows) && DistinctNames(r)
    requires forall x :: x in r <==> x in groups
    ensures GroupedBy(r, rows)
  {
    forall i | 0 <= i < |r|
      ensures r[i].entries == EntriesFor(rows, r[i].category)
    {
      assert r[i] in r && r[i] in groups;
      var m :| 0 <= m < |groups| && groups[m] == r[i];
    }
    forall k
      ensures HasGroup(r, k) <==> HasGroup(groups, k)
    {
      if HasGroup(r, k) {
        var i :| 0 <= i < |r| && r[i].category == k;
        assert r[i] in r && r[i] in groups;
        var m :| 0 <= m < |groups| && groups[m] == r[i];
        assert groups[m].category == k;
      }
      if HasGroup(groups, k) {
        var m :| 0 <= m < |groups| && groups[m].category == k;
        assert groups[m] in groups && groups[m] in r;
        var i :| 0 <= i < |r| && r[i] == groups[m];
        assert r[i].category == k;
      }
    }
  }

  // ---------------------------------------------------------------------------
  // The handler

  /** `inventarioEstoque`: the groups and `total_produtos`. */
  datatype Inventory = Inventory(total: nat, groups: seq<Group>)

  /** Some row is filed under a name `{}` already answers: `acc[name].push`
      is then not a function and the handler's catch answers 500. */
  predicate HitsInheritedName(rows: seq<InventoryRow>) {
    exists i :: 0 <= i < |rows| && GroupKey(rows[i]) in InheritedNames
  }

  function BuildInventory(rows: seq<InventoryRow>): (r: Result<Inventory>)
    ensures r.Err? <==> HitsInheritedName(rows)
    ensures r.Err? ==> r.error == ServerError
    ensures r.Ok? ==>
      && r.value.total == |rows|
      && GroupedBy(r.value.groups, rows)
      && TotalEntries(r.value.groups) == r.value.total
      && SerializedOrder(r.value.groups, rows)
  {
    if HitsInheritedName(rows) then Err(ServerError)
    else
      GroupRowsCorrect(rows);
      GroupRowsInAppearanceOrder(rows);
      KeyOrderCorrect(GroupRows(rows), rows);
      Ok(Inventory(|rows|, KeyOrder(GroupRows(rows))))
  }
}

=== FILE: suppliers.dfy ===
/**
  Suppliers (`fornecedorController`): registration with a unique CNPJ, the
  partial update, a supplier's statistics, and the supplier report's ranking
  and per-category supplier lists.
 */
module Suppliers {
  import opened Base
  import opened Entities
  import opened Registry
  import opened Ranking
  import opened Aggregates
  import Purchases

  function Cnpj(s: Supplier): Option<string> {
    s.cnpj
  }

  // ---------------------------------------------------------------------------
  // Registration

  datatype SupplierRequest = SupplierRequest(
    name: Option<string>,
    cnpj: Option<string>,
    phone: Option<string>,
    email: Option<string>,
    address: Option<string>,
    contact: Option<string>,
    notes: Option<string>)

  datatype Created = Created(store: Store, id: Id)

  function NewSupplier(req: SupplierRequest): Supplier
    requires Given(req.name)
  {
    Supplier(req.name.value, req.cnpj, req.phone, req.email, req.address, req.contact, req.notes, true)
  }

  /** `createFornecedor`: a name is mandatory and a non-empty CNPJ must be free. */
  function CreateSupplier(st: Store, req: SupplierRequest): (r: Result<Created>)
    ensures !Given(req.name) ==> r == Err(Required)
    ensures Given(req.name) && Given(req.cnpj) && Taken(st.suppliers, Cnpj, req.cnpj.value) ==> r == Err(Duplicate)
    ensures r.Ok? <==> Given(req.name) && FreeFor(st.suppliers, Cnpj, req.cnpj)
    ensures r.Ok? ==> r.value.id !in st.suppliers && r.value.id in r.value.store.suppliers
    ensures r.Ok? ==>
      var s := r.value.store.suppliers[r.value.id];
      && r.value.store == st.(suppliers := st.suppliers[r.value.id := s])
      && s.name == req.name.value && s.cnpj == req.cnpj && s.active
    ensures r.Ok? && Unique(st.suppliers, Cnpj) ==> Unique(r.value.store.suppliers, Cnpj)
  {
    if !Given(req.name) then Err(Required)
    else if Given(req.cnpj) && Taken(st.suppliers, Cnpj, req.cnpj.value) then Err(Duplicate)
    else
      var id := NextNumber(st.suppliers.Keys);
      AddKeepsUnique(st.suppliers, Cnpj, id, NewSupplier(req));
      Ok(Created(st.(suppliers := st.suppliers[id := NewSupplier(req)]), id))
  }

  // ---------------------------------------------------------------------------
  // Partial update

  /** The update body. `None` means the field was not sent; for the nullable
      fields `Some(None)` means it was sent as null. */
  datatype SupplierPatch = SupplierPatch(
    name: Option<string>,
    cnpj: Option<Option<string>>,
    phone: Option<Option<string>>,
    email: Option<Option<string>>,
    address: Option<Option<string>>,
    contact: Option<Option<string>>,
    notes: Option<Option<string>>,
    active: Option<bool>)

  const NoChanges := SupplierPatch(None, None, None, None, None, None, None, None)

  /** The name only when non-empty, every other field whenever sent. */
  function Merge(s: Supplier, patch: SupplierPatch): Supplier {
    s.(name := if Given(patch.name) then patch.name.value else s.name,
       cnpj := patch.cnpj.GetOr(s.cnpj),
       phone := patch.phone.GetOr(s.phone),
       email := patch.email.GetOr(s.email),
       address := patch.address.GetOr(s.address),
       contact := patch.contact.GetOr(s.contact),
       notes := patch.notes.GetOr(s.notes),
       active := patch.active.GetOr(s.active))
  }

  /** An empty patch changes nothing, sending the same patch twice has the
      effect of sending it once, and a field that is not sent keeps its value. */
  lemma {:induction false} MergeLaws(s: Supplier, patch: SupplierPatch)
    ensures Merge(s, NoChanges) == s
    ensures Merge(Merge(s, patch), patch) == Merge(s, patch)
    ensures patch.cnpj.None? ==> Merge(s, patch).cnpj == s.cnpj
    ensures patch.active.None? ==> Merge(s, patch).active == s.active
  {
  }

  /** The CNPJ check of the update: a non-empty CNPJ that differs from the
      stored one must not be in use. */
  predicate CnpjChangeTaken(st: Store, id: Id, patch: SupplierPatch)
    requires id in st.suppliers
  {
    patch.cnpj.Some? && Given(patch.cnpj.value) && patch.cnpj.value != st.suppliers[id].cnpj
    && Taken(st.suppliers, Cnpj, patch.cnpj.value.value)
  }

  /** `updateFornecedor`. */
  function UpdateSupplier(st: Store, id: Id, patch: SupplierPatch): (r: Result<Store>)
    ensures id !in st.suppliers ==> r == Err(NotFound)
    ensures id in st.suppliers && CnpjChangeTaken(st, id, patch) ==> r == Err(Duplicate)
    ensures r.Ok? <==> id in st.suppliers && !CnpjChangeTaken(st, id, patch)
    ensures r.Ok? ==> r.value == st.(suppliers := st.suppliers[id := Merge(st.suppliers[id], patch)])
    ensures r.Ok? && Unique(st.suppliers, Cnpj) ==> Unique(r.value.suppliers, Cnpj)
  {
    if id !in st.suppliers then Err(NotFound)
    else if CnpjChangeTaken(st, id, patch) then Err(Duplicate)
    else
      ReplaceKeepsUnique(st.suppliers, Cnpj, id, Merge(st.suppliers[id], patch));
      Ok(st.(suppliers := st.suppliers[id := Merge(st.suppliers[id], patch)]))
  }

  /** A CNPJ another supplier holds is refused. */
  lemma {:induction false} UpdateRejectsTakenCnpj(st: Store, id: Id, other: Id, cnpj: string)
    requires id in st.suppliers && other in st.suppliers && other != id
    requires cnpj != "" && st.suppliers[other].cnpj == Some(cnpj)
    requires Unique(st.suppliers, Cnpj)
    ensures UpdateSupplier(st, id, NoChanges.(cnpj := Some(Some(cnpj)))) == Err(Duplicate)
  {
    assert Taken(st.suppliers, Cnpj, cnpj);
    if st.suppliers[id].cnpj == Some(cnpj) {
      TakenByOne(st.suppliers, Cnpj, id, other);
    }
  }

  // ---------------------------------------------------------------------------
  // Statistics of one supplier

  /** A purchase from `sid` that was confirmed. */
  function ConcludedFrom(sid: Id): Purchase -> bool {
    (pu: Purchase) => pu.supplier == sid && pu.status == Concluida
  }

  /** The amount a purchase adds to `sid`'s spending. */
  function SpentWith(sid: Id): Purchase -> real {
    (pu: Purchase) => if pu.supplier == sid && pu.status == Concluida then pu.total else 0.0
  }

  function PurchaseTotal(pu: Purchase): real {
    pu.total
  }

  /** An active product `sid` supplies. */
  function Supplies(sid: Id): Product -> bool {
    (p: Product) => p.active && p.supplier == Some(sid)
  }

  /** `total_compras`, `valor_total_comprado` and `produtos_fornecidos`. */
  datatype Stats = Stats(purchases: nat, spent: real, products: nat)

  /** The statistics `getFornecedor` attaches: how many of the supplier's
      purchases were confirmed and what they cost, and how many active
      products it supplies. */
  function SupplierStats(st: Store, sid: Id): (r: Result<Stats>)
    ensures r.Ok? <==> sid in st.suppliers
    ensures r.Err? ==> r.error == NotFound
    ensures r.Ok? ==>
      && r.value.purchases == |Matching(st.purchases, ConcludedFrom(sid))|
      && r.value.products == |Matching(st.products, Supplies(sid))|
      && r.value.spent == SumOf(Only(st.purchases, ConcludedFrom(sid)), PurchaseTotal)
    ensures r.Ok? && (forall id :: id in st.purchases ==> !ConcludedFrom(sid)(st.purchases[id])) ==>
      r.value.purchases == 0 && r.value.spent == 0.0
  {
    if sid !in st.suppliers then Err(NotFound)
    else
      NothingConcluded(st.purchases, sid);
      SumOfOnly(st.purchases, ConcludedFrom(sid), PurchaseTotal, SpentWith(sid));
      Ok(Stats(CountOf(st.purchases, ConcludedFrom(sid)), SumOf(st.purchases, SpentWith(sid)),
               CountOf(st.products, Supplies(sid))))
  }

  /** A supplier without confirmed purchases has bought nothing. */
  lemma {:induction false} NothingConcluded(purchases: map<Id, Purchase>, sid: Id)
    ensures (forall id :: id in purchases ==> !ConcludedFrom(sid)(purchases[id])) ==>
      CountOf(purchases, ConcludedFrom(sid)) == 0 && SumOf(purchases, SpentWith(sid)) == 0.0
  {
    if forall id :: id in purchases ==> !ConcludedFrom(sid)(purchases[id]) {
      SumOfZero(purchases, SpentWith(sid));
      assert Matching(purchases, ConcludedFrom(sid)) == {};
    }
  }

  /** Confirming one of the supplier's purchases adds exactly one purchase
      and its total to the statistics; the product count does not move. */
  lemma {:induction false} ConfirmAddsToStats(st: Store, id: Id, now: int)
    requires Purchases.ConfirmPurchase(st, id, now).Ok?
    requires st.purchases[id].supplier in st.suppliers
    ensures var sid := st.purchases[id].supplier;
      var before := SupplierStats(st, sid).value;
      var after := SupplierStats(Purchases.ConfirmPurchase(st, id, now).value, sid).value;
      && after.purchases == before.purchases + 1
      && after.spent == before.spent + st.purchases[id].total
      && after.products == before.products
  {
    var sid := st.purchases[id].supplier;
    var s := Purchases.ConfirmPurchase(st, id, now).value;
    ConfirmedPurchaseCounted(st, id, now, s);
    ConfirmKeepsSupplied(st, id, now, s, sid);
  }

  /** The same, for the purchase table a confirmation leaves. */
  lemma {:induction false} ConfirmedPurchaseCounted(st: Store, id: Id, now: int, s: Store)
    requires Purchases.ConfirmPurchase(st, id, now) == Ok(s)
    ensures var sid := st.purchases[id].supplier;
      && CountOf(s.purchases, ConcludedFrom(sid)) == CountOf(st.purchases, ConcludedFrom(sid)) + 1
      && SumOf(s.purchases, SpentWith(sid)) == SumOf(st.purchases, SpentWith(sid)) + st.purchases[id].total
  {
    ConcludeCounted(st.purchases, id, now);
  }

  /** A confirmation changes no product's supplier or active flag. */
  lemma {:induction false} ConfirmKeepsSupplied(st: Store, id: Id, now: int, s: Store, sid: Id)
    requires Purchases.ConfirmPurchase(st, id, now) == Ok(s)
    ensures Matching(s.products, Supplies(sid)) == Matching(st.products, Supplies(sid))
  {
    SameSuppliersSameMatches(st.products, s.products, sid);
  }

  /** Concluding a pending purchase adds one concluded purchase of its
      supplier, and its total to what was spent with that supplier. */
  lemma {:induction false} ConcludeCounted(purchases: map<Id, Purchase>, id: Id, now: int)
    requires id in purchases && purchases[id].status == Pendente
    ensures var pu := purchases[id];
      var after := purchases[id := pu.(status := Concluida, confirmedAt := Some(now))];
      && CountOf(after, ConcludedFrom(pu.supplier)) == CountOf(purchases, ConcludedFrom(pu.supplier)) + 1
      && SumOf(after, SpentWith(pu.supplier)) == SumOf(purchases, SpentWith(pu.supplier)) + pu.total
  {
    var pu := purchases[id];
    var done := pu.(status := Concluida, confirmedAt := Some(now));
    CountOfUpdate(purchases, ConcludedFrom(pu.supplier), id, done);
    SumOfUpdate(purchases, SpentWith(pu.supplier), id, done);
  }

  /** Restocking and repricing rows leaves who supplies what unchanged. */
  lemma {:induction false} SameSuppliersSameMatches(before: map<Id, Product>, after: map<Id, Product>, sid: Id)
    requires after.Keys == before.Keys
    requires forall p :: p in before ==> after[p].supplier == before[p].supplier && after[p].active == before[p].active
    ensures Matching(after, Supplies(sid)) == Matching(before, Supplies(sid))
  {
    assert forall p :: p in before ==> (Supplies(sid)(after[p]) <==> Supplies(sid)(before[p]));
  }

  /** Registering or cancelling a purchase leaves every supplier's statistics
      as they were: neither produces a confirmed purchase. */
  lemma {:induction false} PendingWorkKeepsStats(st: Store, req: Purchases.PurchaseRequest, now: int, id: Id, reason: Option<string>, sid: Id)
    requires sid in st.suppliers
    ensures Purchases.CreatePurchase(st, req, now).Ok? ==>
      SupplierStats(Purchases.CreatePurchase(st, req, now).value.store, sid) == SupplierStats(st, sid)
    ensures Purchases.CancelPurchase(st, id, reason).Ok? ==>
      SupplierStats(Purchases.CancelPurchase(st, id, reason).value, sid) == SupplierStats(st, sid)
  {
    var c := Purchases.CreatePurchase(st, req, now);
    if c.Ok? {
      var k := c.value.id;
      CountOfUpdate(st.purchases, ConcludedFrom(sid), k, c.value.store.purchases[k]);
      SumOfUpdate(st.purchases, SpentWith(sid), k, c.value.store.purchases[k]);
      assert c.value.store.purchases == st.purchases[k := c.value.store.purchases[k]];
    }
    var x := Purchases.CancelPurchase(st, id, reason);
    if x.Ok? {
      CountOfUpdate(st.purchases, ConcludedFrom(sid), id, x.value.purchases[id]);
      SumOfUpdate(st.purchases, SpentWith(sid), id, x.value.purchases[id]);
      assert x.value.purchases == st.purchases[id := x.value.purchases[id]];
    }
  }

  // ---------------------------------------------------------------------------
  // Report: top suppliers

  /** The report's optional period; purchases dated inside it, bounds
      included, count. */
  datatype Period = Period(start: int, end: int)

  /** A supplier listed with all of its purchases. */
  datatype SupplierRow = SupplierRow(id: Id, supplier: Supplier, purchases: seq<Purchase>)

  predicate Counted(pu: Purchase, period: Option<Period>) {
    pu.status == Concluida && (period.Some? ==> period.value.start <= pu.date <= period.value.end)
  }

  /** The totals of the confirmed purchases in the period. */
  function CountedTotals(ps: seq<Purchase>, period: Option<Period>): (r: seq<real>)
    ensures |r| <= |ps|
  {
    if ps == [] then []
    else
      var rest := CountedTotals(ps[1..], period);
      if Counted(ps[0], period) then [ps[0].total] + rest else rest
  }

  lemma {:induction false} CountedTotalsAppend(a: seq<Purchase>, b: seq<Purchase>, period: Option<Period>)
    ensures CountedTotals(a + b, period) == CountedTotals(a, period) + CountedTotals(b, period)
  {
    if a == [] {
      assert a + b == b;
    } else {
      assert (a + b)[1..] == a[1..] + b;
      CountedTotalsAppend(a[1..], b, period);
    }
  }

  /** A confirmed purchase in the period raises the supplier's total by its
      amount; any other purchase does not count. */
  lemma {:induction false} CountedTotalAppend(ps: seq<Purchase>, pu: Purchase, period: Option<Period>)
    ensures Counted(pu, period) ==> Sum(CountedTotals(ps + [pu], period)) == Sum(CountedTotals(ps, period)) + pu.total
    ensures !Counted(pu, period) ==> Sum(CountedTotals(ps + [pu], period)) == Sum(CountedTotals(ps, period))
  {
    CountedTotalsAppend(ps, [pu], period);
    assert [pu][1..] == [];
    SumAppend(CountedTotals(ps, period), CountedTotals([pu], period));
  }

  function Score(row: SupplierRow, period: Option<Period>): Scored<TopEntry> {
    var totals := CountedTotals(row.purchases, period);
    Scored(TopEntry(row.id, row.supplier.name, row.supplier.phone, |totals|), Sum(totals))
  }

  /** One score per active supplier, in listing order. */
  function Scores(rows: seq<SupplierRow>, period: Option<Period>): (r: seq<Scored<TopEntry>>)
    ensures forall s :: s in r ==> exists row :: row in rows && row.supplier.active && s == Score(row, period)
    ensures forall row :: row in rows && row.supplier.active ==> Score(row, period) in r
  {
    if rows == [] then []
    else
      var rest := Scores(rows[1..], period);
      assert forall row :: row in rows[1..] ==> row in rows;
      if rows[0].supplier.active then [Score(rows[0], period)] + rest else rest
  }

  /** `top_fornecedores`. */
  function TopSuppliers(rows: seq<SupplierRow>, period: Option<Period>): seq<Scored<TopEntry>> {
    Top10(Scores(rows, period))
  }

  /** The ranking holds at most ten active suppliers with a positive total,
      largest first, each with the total of its confirmed purchases in the
      period; an active supplier with a positive total that is left out was
      paid no more than any listed one. */
  lemma {:induction false} TopSuppliersRanked(rows: seq<SupplierRow>, period: Option<Period>)
    ensures var r := TopSuppliers(rows, period);
      && SortedDesc(r)
      && |r| <= 10
      && (forall s :: s in r ==> s.total > 0.0 && exists row :: row in rows && row.supplier.active && s == Score(row, period))
      && (forall row, i ::
            row in rows && row.supplier.active && Score(row, period).total > 0.0 && Score(row, period) !in r && 0 <= i < |r|
            ==> r[i].total >= Score(row, period).total)
  {
    Top10Members(Scores(rows, period));
  }

  // ---------------------------------------------------------------------------
  // Report: suppliers per category

  predicate Distinct<T(==)>(s: seq<T>) {
    forall i, j :: 0 <= i < j < |s| ==> s[i] != s[j]
  }

  /** `[...new Set(xs)]`: each value once, where it first occurs. */
  function Dedup<T(==,!new)>(xs: seq<T>): (r: seq<T>)
    ensures Distinct(r)
    ensures forall x :: x in r <==> x in xs
    ensures |r| <= |xs|
  {
    if xs == [] then []
    else
      var init := xs[..|xs| - 1];
      var x := xs[|xs| - 1];
      assert xs == init + [x];
      var d := Dedup(init);
      if x in d then d else d + [x]
  }

  function Elements<T(!new)>(s: seq<T>): set<T> {
    set x | x in s
  }

  /** A sequence without repeats is as long as the set of its values. */
  lemma {:induction false} DistinctCard<T(!new)>(s: seq<T>)
    requires Distinct(s)
    ensures |Elements(s)| == |s|
  {
    if s != [] {
      var init := s[..|s| - 1];
      var x := s[|s| - 1];
      assert s == init + [x];
      DistinctCard(init);
      assert x !in init;
      assert Elements(s) == Elements(init) + {x};
    }
  }

  /** A product's supplier as the report reads it. */
  datatype SupplierRef = SupplierRef(id: Id, name: string)

  /** An active category with, per active product, that product's supplier
      (if it has one). */
  datatype CategoryRow = CategoryRow(name: string, active: bool, suppliers: seq<Option<SupplierRef>>)

  datatype CategorySuppliers = CategorySuppliers(category: string, names: seq<string>, count: nat)

  /** `.filter(Boolean)` on supplier names: drops absent and empty names. */
  function KeepNames(xs: seq<Option<string>>): (r: seq<string>)
    ensures forall s :: s in r <==> Some(s) in xs && s != ""
    ensures Distinct(xs) ==> Distinct(r)
  {
    if xs == [] then []
    else
      var rest := KeepNames(xs[1..]);
      assert forall y :: y in xs <==> y == xs[0] || y in xs[1..];
      if Given(xs[0]) then [xs[0].value] + rest else rest
  }

  /** `.filter(Boolean)` on supplier ids: drops absent ids. */
  function KeepIds(xs: seq<Option<Id>>): (r: seq<Id>)
    ensures forall k :: k in r <==> Some(k) in xs
    ensures Distinct(xs) ==> Distinct(r)
  {
    if xs == [] then []
    else
      var rest := KeepIds(xs[1..]);
      assert forall y :: y in xs <==> y == xs[0] || y in xs[1..];
      if xs[0].Some? then [xs[0].value] + rest else rest
  }

  function NameOf(r: Option<SupplierRef>): Option<string> {
    if r.Some? then Some(r.value.name) else None
  }

  function IdOf(r: Option<SupplierRef>): Option<Id> {
    if r.Some? then Some(r.value.id) else None
  }

  /** The ids of the suppliers of a category's products. */
  function SupplierIds(refs: seq<Option<SupplierRef>>): (ks: set<Id>)
    ensures forall k :: k in ks <==> exists i :: 0 <= i < |refs| && refs[i].Some? && refs[i].value.id == k
  {
    set i | 0 <= i < |refs| && refs[i].Some? :: refs[i].value.id
  }

  /** `produtos.map(p => p.fornecedor?.nome)`. */
  function Names(refs: seq<Option<SupplierRef>>): (r: seq<Option<string>>)
    ensures |r| == |refs| && forall i :: 0 <= i < |refs| ==> r[i] == NameOf(refs[i])
  {
    seq(|refs|, i requires 0 <= i < |refs| => NameOf(refs[i]))
  }

  /** `produtos.map(p => p.fornecedor?.id)`. */
  function Ids(refs: seq<Option<SupplierRef>>): (r: seq<Option<Id>>)
    ensures |r| == |refs| && forall i :: 0 <= i < |refs| ==> r[i] == IdOf(refs[i])
  {
    seq(|refs|, i requires 0 <= i < |refs| => IdOf(refs[i]))
  }

  lemma {:induction false} ListedNames(refs: seq<Option<SupplierRef>>)
    ensures forall x :: x in KeepNames(Dedup(Names(refs))) <==>
      x != "" && exists i :: 0 <= i < |refs| && NameOf(refs[i]) == Some(x)
  {
    var names := Names(refs);
    forall x
      ensures x in KeepNames(Dedup(names)) <==> x != "" && exists i :: 0 <= i < |refs| && NameOf(refs[i]) == Some(x)
    {
      if x in KeepNames(Dedup(names)) {
        var i :| 0 <= i < |names| && names[i] == Some(x);
      }
      if x != "" && exists i :: 0 <= i < |refs| && NameOf(refs[i]) == Some(x) {
        var i :| 0 <= i < |refs| && NameOf(refs[i]) == Some(x);
        assert names[i] == Some(x);
      }
    }
  }

  lemma {:induction false} CountedIds(refs: seq<Option<SupplierRef>>)
    ensures |KeepIds(Dedup(Ids(refs)))| == |SupplierIds(refs)|
  {
    var ids := Ids(refs);
    var d := Dedup(ids);
    var kept := KeepIds(d);
    assert Distinct(kept);
    DistinctCard(kept);
    assert forall k :: k in kept <==> Some(k) in ids;
    SameIds(refs, kept);
  }

  lemma {:induction false} SameIds(refs: seq<Option<SupplierRef>>, kept: seq<Id>)
    requires forall k :: k in kept <==> Some(k) in Ids(refs)
    ensures Elements(kept) == SupplierIds(refs)
  {
    var ids := Ids(refs);
    forall k
      ensures k in kept <==> k in SupplierIds(refs)
    {
      if k in kept {
        var i :| 0 <= i < |ids| && ids[i] == Some(k);
        assert refs[i].Some? && refs[i].value.id == k;
      }
      if k in SupplierIds(refs) {
        var i :| 0 <= i < |refs| && refs[i].Some? && refs[i].value.id == k;
        assert ids[i] == Some(k);
      }
    }
  }

  /** One category of `fornecedores_por_categoria`: its supplier names, each
      once, and the number of distinct suppliers. */
  function ForCategory(row: CategoryRow): (c: CategorySuppliers)
    ensures c.category == row.name
    ensures Distinct(c.names)
    ensures forall s :: s in c.names <==> s != "" && exists i :: 0 <= i < |row.suppliers| && NameOf(row.suppliers[i]) == Some(s)
    ensures c.count == |SupplierIds(row.suppliers)|
  {
    ListedNames(row.suppliers);
    CountedIds(row.suppliers);
    CategorySuppliers(row.name, KeepNames(Dedup(Names(row.suppliers))), |KeepIds(Dedup(Ids(row.suppliers)))|)
  }

  /** `fornecedores_por_categoria`: one entry per active category. */
  function ByCategory(rows: seq<CategoryRow>): (r: seq<CategorySuppliers>)
    ensures forall c :: c in r <==> exists row :: row in rows && row.active && c == ForCategory(row)
  {
    if rows == [] then []
    else
      var rest := ByCategory(rows[1..]);
      assert forall row :: row in rows <==> row == rows[0] || row in rows[1..];
      if rows[0].active then [ForCategory(rows[0])] + rest else rest
  }

  /** A list without repeats whose values all equal `x`, and which holds
      `x`, is just `[x]`. */
  lemma {:induction false} DistinctConstant(s: seq<string>, x: string)
    requires Distinct(s) && x in s
    requires forall y :: y in s ==> y == x
    ensures s == [x]
  {
    DistinctCard(s);
    assert Elements(s) == {x};
  }

  /** Names are deduplicated by name and the count by id, so two suppliers
      that share a name show once in the list and twice in the count. */
  lemma {:induction false} SharedNameCountsTwice(a: Id, b: Id, name: string)
    requires a != b && name != ""
    ensures var c := ForCategory(CategoryRow("Ração", true, [Some(SupplierRef(a, name)), Some(SupplierRef(b, name))]));
      c.names == [name] && c.count == 2
  {
    var refs := [Some(SupplierRef(a, name)), Some(SupplierRef(b, name))];
    var c := ForCategory(CategoryRow("Ração", true, refs));
    PairIds(a, b, name);
    PairNames(refs, name, c.names);
  }

  lemma {:induction false} PairIds(a: Id, b: Id, name: string)
    requires a != b
    ensures |SupplierIds([Some(SupplierRef(a, name)), Some(SupplierRef(b, name))])| == 2
  {
    var refs := [Some(SupplierRef(a, name)), Some(SupplierRef(b, name))];
    assert SupplierIds(refs) == {a, b} by {
      assert refs[0].value.id == a && refs[1].value.id == b;
    }
  }

  /** A deduplicated name list built from references that all carry `name`
      is `[name]`. */
  lemma {:induction false} PairNames(refs: seq<Option<SupplierRef>>, name: string, names: seq<string>)
    requires name != "" && |refs| > 0
    requires forall i :: 0 <= i < |refs| ==> NameOf(refs[i]) == Some(name)
    requires Distinct(names)
    requires forall s :: s in names <==> s != "" && exists i :: 0 <= i < |refs| && NameOf(refs[i]) == Some(s)
    ensures names == [name]
  {
    assert NameOf(refs[0]) == Some(name);
    assert name in names;
    DistinctConstant(names, name);
  }
}

=== FILE: text.dfy ===
/**
  String helpers the handlers and pages lean on: ASCII case conversion
  (`toUpperCase` / `toLowerCase`) and substring search (`includes`).
 */
module Text {
  import opened Base

  function UpperChar(c: char): char {
    if 'a' <= c <= 'z' then (c as int - 32) as char else c
  }

  function LowerChar(c: char): char {
    if 'A' <= c <= 'Z' then (c as int + 32) as char else c
  }

  /** `s.toUpperCase()` on ASCII letters. */
  function Upper(s: string): (r: string)
    ensures |r| == |s|
    ensures forall i :: 0 <= i < |s| ==> r[i] == UpperChar(s[i])
  {
    seq(|s|, i requires 0 <= i < |s| => UpperChar(s[i]))
  }

  lemma {:induction false} UpperIdempotent(s: string)
    ensures Upper(Upper(s)) == Upper(s)
  {
  }

  /** `s.toLowerCase()` on ASCII letters. */
  function Lower(s: string): (r: string)
    ensures |r| == |s|
    ensures forall i :: 0 <= i < |s| ==> r[i] == LowerChar(s[i])
  {
    seq(|s|, i requires 0 <= i < |s| => LowerChar(s[i]))
  }

  /** `s.includes(t)`: `t` occurs in `s` at some offset. */
  predicate Contains(s: string, t: string) {
    exists i | 0 <= i <= |s| - |t| :: OccursAt(s, t, i)
  }

  predicate OccursAt(s: string, t: string, i: nat) {
    i + |t| <= |s| && s[i..i + |t|] == t
  }

  /** Every string contains the empty string, so an empty search keeps everything. */
  lemma {:induction false} ContainsEmpty(s: string)
    ensures Contains(s, "")
  {
    assert OccursAt(s, "", 0);
  }

  /** The name-or-barcode search shared by the point-of-sale and product list
      pages: case-insensitive substring match on the name, or on the barcode
      when the product has one. */
  predicate SearchMatch(name: string, barcode: Option<string>, term: string) {
    Contains(Lower(name), Lower(term))
    || (barcode.Some? && Contains(Lower(barcode.value), Lower(term)))
  }

  /** The empty search term matches every product. */
  lemma {:induction false} EmptySearchMatchesAll(name: string, barcode: Option<string>)
    ensures SearchMatch(name, barcode, "")
  {
    assert Lower("") == "";
    ContainsEmpty(Lower(name));
  }
}
